=== FILE: README.md ===
# Tire-fleet ETL and dashboard core, in Dafny

This project models the data core of *Gestão de Pneus*, a dashboard for a
truck fleet's tires. The core runs in three stages, and the model proves what
each stage promises.

1. **Load and transform** (`etl.py`). The workbook must hold the sheets
   `pneus`, `posição` and `sulco`, and its headers are stripped. The
   transformation then does the following:
   - parses locale-formatted numbers (`to_float`);
   - reads "NNN.NNN km" readings out of free-text observations;
   - derives the km driven until the tread was measured;
   - joins the position sheet;
   - builds normalised join keys (stage `_VIDA`, model `_MODELO`);
   - resolves each tire's baseline tread ("Sulco Inicial") through a
     five-tier cascade: exact (stage, model), NOVO by model, model median,
     stage median, global median;
   - types each vehicle by a first-match keyword classifier.
2. **Metrics** (`logic.py`). Per tire: consumed tread, wear rate, remaining
   percentage, condition bin (Crítico / Alerta / Ok) and estimated km left.
   Fleet-wide: indicator counts and percentages, and the replacement budget.
3. **Chart data** (`visuals.py`). The three condition bars in fixed order,
   and one worst-condition point per wheel position for the position map.

Spreadsheet values are `Cell`s: `Empty` is a missing value (NaN), `Num`
carries the number and the text `str()` prints for it, and `Text` is a
string. A sheet is a list of headers plus rows of cells. Numbers are exact
`real`s, and computed values are `Option<real>` (`None` for NaN). Rounding
is half to even, as `round` and `np.round` do it. The condition limits are a
`Thresholds` parameter with `-1 < critico < alerta < 99`. The code always
uses the defaults (2.0 and 4.0, config.py:7-8); the sidebar values
(main.py:29-30) never reach the metrics (main.py:50-51).

Modules, each in its own file:

| module | file | models |
|---|---|---|
| `Common` | common.dfy | cells, sheets, `Option`, `Result`, the error kinds |
| `Config` | config.dfy | thresholds, required sheets, prices, colours |
| `Chars`, `Strings` | chars.dfy, strings.dfy | whitespace, case and accent tables, strip, split/join |
| `Numbers` | numbers.dfy | `to_float`, the km regex scan |
| `TextKeys` | textkeys.dfy | `normalize_text`, `classificar_veiculo` |
| `Stats` | stats.dfy | sorting, median, half-even rounding |
| `Frames` | frames.dfy | column lookup and update, renames, header strip, left join |
| `Loader` | loader.dfy | `read_excel_to_frames` after the file is parsed |
| `Cascade` | cascade.dfy | the baseline-tread cascade on the baseline rows |
| `Transform` | transform.dfy | `transform_frames` |
| `Logic` | logic.dfy | `calcular_metricas`, `kpis`, `estimar_custos` |
| `Visuals` | visuals.dfy | the data chosen by `barras_condicao` and `heatmap_posicao` |

## Model

| member | source | states |
|---|---|---|
| Numbers.ToFloat | etl.py:12-25 | A missing cell gives None and a number passes through unchanged. Text is accepted only if something is left after stripping. |
| Numbers.ToFloatStripped | etl.py:17 | Surrounding blanks never change the parse: stripped text reads the same as the original. |
| Numbers.LocaleNoComma | etl.py:18-21 | Text without a comma is not rewritten at all. |
| Numbers.ToFloatDigits | etl.py:17-25 | A run of digits parses to its decimal value. |
| Numbers.ToFloatShowNat | etl.py:12-25 | Printing a whole number and parsing it back gives the number (round trip). |
| Numbers.ToFloatDecimalComma | etl.py:20-21 | "ip,fp" with no dot reads the comma as the decimal point. |
| Numbers.ToFloatThousands | etl.py:18-19 | "g,fp" with dotted thousand groups drops every dot and reads the comma as the decimal point. |
| Numbers.ToFloatExamples | etl.py:12-25 | "1.234,5" gives 1234.5 and "3,5" gives 3.5. |
| Numbers.PlainText | etl.py:17-25 | Trimmed text without a comma is parsed as written. |
| Numbers.ToFloatRejectsWord | etl.py:22-25 | The empty string and "abc" give None, not an error. |
| Numbers.ToFloatRejectsTwoPoints | etl.py:22-25 | "1.2.3" gives None. |
| Numbers.FirstMatch | etl.py:31 | The search position is the leftmost place where the pattern matches, and None means no place matches. |
| Numbers.MatchesAtRegex | etl.py:31 | A match at a position is exactly the pattern digit, digits/dots, optional blanks, "km", with the greedy run end as group 1. |
| Numbers.GroupDigits | etl.py:34-37 | Group 1 with its dots removed is a non-empty digit string, so the conversion after it never fails. |
| Numbers.ExtractKmText | etl.py:30-37 | Defined exactly when some position matches; the value is the leftmost match's group without dots, a non-negative whole number. |
| Numbers.ExtractKm | etl.py:27-37 | A missing cell gives None. Text, or a number's printed form, gives a value exactly when the pattern matches somewhere, and the value is a non-negative whole number. |
| Numbers.ExtractShownKm | etl.py:30-37 | "n km" reads back n for every whole n (round trip with printing). |
| Numbers.ExtractKmExample | etl.py:30-37 | "Troca em 45.000 km" gives 45000. |
| Strings.StripSpec | etl.py:16 | The stripped text has no blank at either end and is a contiguous part of the input with only blanks cut away. |
| Strings.StripTrimmed | etl.py:16 | Text with no blank at either end is unchanged by stripping. |
| Strings.CollapseTidy | etl.py:43 | Splitting on blanks and joining with single spaces leaves tidy text unchanged. |
| Strings.WordsJoin | etl.py:43 | Splitting the single-space join of words gives the words back (round trip). |
| TextKeys.NormalizeText | etl.py:39-46 | A missing cell gives the empty key. Otherwise the key does not depend on letter case, and for text without combining marks it is trimmed, single-spaced, fully folded and a fixed point of normalisation. |
| TextKeys.NormalizeShape | etl.py:42-46 | Text without combining marks normalises to trimmed, single-spaced text of upper-case, unaccented characters. |
| TextKeys.NormalizeIdempotent | etl.py:39-46 | For text without combining marks, normalising twice is the same as normalising once. |
| TextKeys.NormalizeCaseBlind | etl.py:42 | Upper-casing the input first does not change the key. |
| TextKeys.NormalizeTidy | etl.py:42-46 | On tidy text without combining marks only the character folding remains. |
| TextKeys.NormalizeExample | etl.py:39-46 | "Café NOVO" and "cafe novo" both give "CAFE NOVO". |
| TextKeys.NormalizeLoneMark | etl.py:43-45 | A combining mark standing alone as a word leaves a double space, because spaces are collapsed before marks are removed. |
| TextKeys.NormalizeOrdinal | etl.py:42-46 | Compatibility decomposition folds the ordinal: "1ª vida" and "1A VIDA" give the same key "1A VIDA". |
| TextKeys.Classify | etl.py:48-67 | A missing description gives "Outro". Otherwise the label is the first rule with a keyword in the lower-cased text, and "Outro" exactly when no rule's keyword occurs. |
| TextKeys.ClassifyByRules | etl.py:51-67 | Classification is the first matching rule over the lower-cased text. |
| TextKeys.ClassifyPriority | etl.py:53-66 | A description gets rule k's label exactly when one of rule k's keywords occurs and none of an earlier rule's do. |
| TextKeys.ClassifyOther | etl.py:67 | "Outro" exactly when no keyword of any rule occurs. |
| TextKeys.ClassifyCaseBlind | etl.py:51 | Upper-casing the description does not change its label. |
| TextKeys.RulesDistinct | etl.py:53-67 | The seven rules have distinct labels and none is "Outro", so the labels are eight. |
| Loader.ReadSheets | etl.py:70-77 | Rejected exactly when a required sheet is absent, with the sorted list of required names. When accepted, the same sheets with the same rows. |
| Loader.ReadSheetsHeaders | etl.py:74-76 | Every header is the stripped original, and stripping it again changes nothing. |
| Loader.RequiredListed | etl.py:73 | The names in the rejection are exactly the required set, each once. |
| Frames.RenameSpec | etl.py:84-89 | After renaming, a header is present exactly when it was present un-renamed or is the image of a present renamed header; rows are untouched. |
| Frames.StripHeadersSpec | etl.py:76 | Each header is the stripped original and is itself stripped. |
| Frames.SetColumnSpec | etl.py:110 | An assigned column holds the given values and every other column is unchanged. |
| Frames.LeftMerge | etl.py:119-120 | A left join yields a well-formed sheet with at least one row per left row, with as many columns as both sides together less the right key. |
| Frames.LeftMergeKeeps | etl.py:119-120 | Every left row begins some output row, and every output row begins with a left row: no tire is lost and none is invented. |
| Frames.LeftMergeUnique | etl.py:119-120 | When the right key column has no repeats, the join keeps the row count and every left row stays as the prefix of its output row. |
| Stats.Sort | etl.py:147-157 | The result is sorted and is a permutation of the input. |
| Stats.SortedUnique | etl.py:147-157 | Two sorted permutations of the same values are equal. |
| Stats.MedianBounds | etl.py:147-157 | The median lies between the smallest and the largest sample. |
| Stats.MedianPermutation | etl.py:147-157 | The median does not depend on the order of the samples. |
| Stats.MedianConstant | etl.py:147-157 | A sample of one repeated value has that value as median. |
| Stats.MedianPair | etl.py:147-157 | With two samples the median is their mean. |
| Stats.RoundHalfEven | logic.py:26 | The result is within one half of the input, and an exact tie goes to the even neighbour. |
| Stats.RoundNearest | logic.py:26 | An integer strictly within one half is the rounded value. |
| Stats.RoundMonotone | logic.py:26 | Rounding is monotone. |
| Stats.RoundShift | logic.py:26 | Shifting by an even whole number shifts the result by the same amount. |
| Stats.Round1 | logic.py:17 | One-decimal rounding is within 0.05 of the input. |
| Stats.Round1Grid | logic.py:40-41 | Values already on the one-decimal grid are unchanged. |
| Cascade.Where | etl.py:139 | Filtering keeps exactly the rows satisfying the condition. |
| Cascade.Samples | etl.py:131 | The non-missing tread values, each from some baseline row. |
| Cascade.DedupeFirst | etl.py:131-134 | De-duplication keeps the first row of each key. |
| Cascade.Exact | etl.py:129-135 | The exact tier is defined exactly when some baseline row with the tire's stage and model has a tread, and its value is such a row's. |
| Cascade.ExactIsFirst | etl.py:129-135 | The exact tier is the first non-missing tread for the (stage, model) pair in input order. |
| Cascade.ExactTableUnique | etl.py:131-135 | The joined baseline table has each (stage, model) pair at most once, so the join keeps the row count. |
| Cascade.NovoFirst | etl.py:138-143 | The NOVO table maps a model to the first non-missing NOVO tread of that model. |
| Cascade.NovoIsExact | etl.py:138-145 | The NOVO tier gives what the exact tier gave for NOVO tires, so it never fills a row the exact tier left empty. |
| Cascade.MedianOf | etl.py:147-157 | A median exists exactly for a non-empty sample and lies within its range. |
| Cascade.FirstSome | etl.py:144-157 | Defined exactly when some candidate is present, and then it is a present candidate with every earlier candidate missing. |
| Cascade.ResolvePriority | etl.py:129-157 | The resolved tread is the first defined of: exact, model median, stage median, global median. |
| Cascade.ExactWins | etl.py:129-157 | A tire the exact tier resolves keeps that value. |
| Cascade.ResolveIsTier | etl.py:129-157 | The resolved value is one of the tiers' values. |
| Cascade.ResolveDefined | etl.py:156-157 | Every tire gets a tread exactly when the baseline sheet has at least one tread value. |
| Cascade.ResolveBounds | etl.py:129-157 | Every resolved tread lies between the smallest and largest baseline tread. |
| Transform.FloatCell | etl.py:92-101 | A computed number is stored as a number cell, and missing as empty; reading it back gives the value. |
| Transform.ConvertColumn | etl.py:92-101 | Conversion keeps the row count and the set of headers. |
| Transform.ConvertSpec | etl.py:92-101 | A converted column holds the parse of every original cell and no text; every other column is unchanged. |
| Transform.ConvertedSpec | etl.py:92-101 | The tread, odometer and recorded-km columns hold the parses of the original cells, a missing recorded-km column reads as missing, and nothing else changes. |
| Transform.DeriveKm | etl.py:110-116 | A present, positive recorded value is kept. Otherwise, with an odometer column, the value is observation km minus the initial odometer when that is positive; every other case is missing. The result is never zero or negative. |
| Transform.ObservationKm | etl.py:104-107 | Each tire's reading is the km found in its own observation, and missing for every tire when there is no observation column. |
| Transform.PrepareTires | etl.py:92-116 | The clean-up keeps the rows and adds exactly the recorded-km, observation-km and driven-km columns. |
| Transform.PrepareTiresKm | etl.py:110-116 | After the clean-up every driven-km value is missing or strictly positive. |
| Transform.PrepareTiresSpec | etl.py:92-116 | Row by row: the observation km is the reading of the original observation, and the driven km is derived from the original recorded km, that reading and the original odometer. The tread is parsed and every other column is unchanged. |
| Transform.JoinPositions | etl.py:119-120 | The position join never loses a row or a column of the tire sheet. |
| Transform.JoinPositionsKeeps | etl.py:119-120 | Every tire row begins some joined row and every joined row begins with a tire row, whether or not the join happens. |
| Transform.AddKeysSpec | etl.py:123-127 | The key columns hold the normalised stage and model when their source exists, and no other column changes. |
| Transform.EnrichTread | etl.py:129-157 | Each tire's "Sulco Inicial" is the cascade's value for its normalised stage and model. |
| Transform.EnrichType | etl.py:159-163 | Each tire's "Tipo Veículo" is the label of its description, or "Outro" when there is no description column. |
| Transform.EnrichKeeps | etl.py:122-163 | Only the four added columns change. |
| Transform.EnrichDefined | etl.py:156-157 | Each tire has a baseline exactly when the baseline sheet has a tread value. |
| Transform.EnrichBounds | etl.py:129-157 | Each resolved baseline lies within the baseline sheet's range. |
| Transform.TransformSheets | etl.py:79-165 | Fails exactly when a sheet is missing, when a key or tread column the cascade indexes is missing, or when the joined tire sheet already has "Sulco Inicial". A missing sheet is reported as such and otherwise a column; on success one output row per joined tire. |
| Transform.TransformRows | etl.py:119-135 | When the transformation succeeds: never fewer tires than loaded, and exactly as many when there is no position join or position codes are unique. |
| Transform.TransformBaseline | etl.py:129-157 | When the transformation succeeds, every output tire carries the cascade's tread, present for all tires exactly when the baseline sheet has a tread. |
| Logic.Desgaste | logic.py:11-15 | The wear rate exists exactly when consumed tread and a positive km are present, and times the km gives the consumed tread. |
| Logic.PctRestante | logic.py:17 | Finite exactly when both values are present and the baseline is non-zero, then within 0.05 of the exact percentage. Over a zero baseline the result is an infinity, or missing for 0/0. |
| Logic.Bin | logic.py:18-22 | Crítico exactly on (-1, critico], Alerta on (critico, alerta], Ok on (alerta, 99]. Nothing otherwise or when missing. |
| Logic.BinMonotone | logic.py:18-22 | More tread never gives a worse condition. |
| Logic.BinDefaults | logic.py:18-22 | With the defaults, 2.0 is Crítico, 2.5 and 4.0 are Alerta, 4.5 is Ok and -1.0 has no condition. |
| Logic.KmRestante | logic.py:24-28 | The estimate exists exactly when the measurement and a positive wear rate are present. |
| Logic.KmRestanteEstimate | logic.py:24-28 | Estimate times wear rate is within half a rate of the tread left above the critical limit. |
| Logic.KmRestanteSign | logic.py:24-28 | Below the critical limit the estimate is at most zero, and negative once more than half a km of wear below; at or above, never negative. |
| Logic.RowMetrics | logic.py:8-28 | Consumed tread is baseline minus measurement, unclamped, present when both are. Wear has the sign of consumption. The km estimate exists exactly with a positive wear rate. |
| Logic.ConsumidoNegative | logic.py:10 | A measurement above the baseline gives negative consumption. |
| Logic.CalcMetrics | logic.py:8-29 | Fails exactly when one of the three input columns is absent. Otherwise the input is kept unchanged with one metrics row per tire. |
| Logic.CalcCondition | logic.py:18-22 | Each tire is Crítico exactly when its own measurement is in (-1, critico], Alerta in (critico, alerta], Ok in (alerta, 99], and without a condition otherwise. |
| Logic.CountCond | logic.py:33-36 | A condition count never exceeds the number of tires. |
| Logic.CountCondMultiplicity | logic.py:33-36 | The count is the multiplicity of the condition among the tires. |
| Logic.CountsBounded | logic.py:33-36 | The three counts together never exceed the number of tires. |
| Logic.DistinctKeys | logic.py:32 | The distinct non-missing values, never more than the rows. |
| Logic.DistinctKeysSpec | logic.py:32 | A value is counted exactly when some non-missing cell holds it. |
| Logic.Total | logic.py:32 | The total is at most the number of rows. |
| Logic.CountTextMultiplicity | logic.py:37-39 | A status count is the number of cells holding exactly that text. |
| Logic.StatusCount | logic.py:37-39 | A status count is at most the rows, and zero without a status column. |
| Logic.Percent | logic.py:40-41 | Non-negative and within 0.05 of 100 × count / max(total, 1); it never divides by zero. |
| Logic.ComputeKpis | logic.py:31-43 | The counts are the condition counts and sum to at most the rows. Status counts are zero without a status column. |
| Logic.KpisEmpty | logic.py:40-41 | An empty table has total 0 and percentages 0.0. |
| Logic.KpisShare | logic.py:32-41 | Without a reference column the percentages are at most 100. |
| Logic.CostOf | logic.py:49-51 | Quantity times the price, a negative price counting as zero, so never negative. |
| Logic.CostMonotone | logic.py:49-51 | More critical tires never cost less. |
| Logic.EstimarCustos | logic.py:45-52 | The quantity is the number of Crítico tires, the same as the indicator's count, and both costs are non-negative. |
| Logic.CostsExample | logic.py:45-52 | Three critical tires at the default prices give 3600.0 and 900.0. |
| Visuals.BarrasCondicao | visuals.py:15-18 | Exactly three bars in the order Crítico, Alerta, Ok, summing to at most the rows. |
| Visuals.BarsMatchKpis | visuals.py:16-17 | Each bar is its condition's multiplicity, the same as the indicator counts, with 0 for an absent condition. |
| Visuals.ColorOf | visuals.py:39-41 | Neutral exactly for a tire without a condition, the critical colour exactly for Crítico. |
| Visuals.ColorsDistinct | visuals.py:39-41 | Different conditions get different colours. |
| Visuals.LabelKeys | visuals.py:45 | Position labels with no repeats. |
| Visuals.LabelKeysSpec | visuals.py:45 | A label is listed exactly when some tire has it. |
| Visuals.Worst | visuals.py:43-45 | For a present label, a tire of that position whose condition is no better than any other's there. |
| Visuals.WorstPoint | visuals.py:39-45 | The point of a position comes from one of its tires, has its label, its colour and the worst condition there. |
| Visuals.HeatmapPosicao | visuals.py:34-37 | No points when X, Y or the label column is missing. |
| Visuals.PointsOnePerLabel | visuals.py:45 | No two points share a label, and every tire's label has a point. |
| Visuals.PointsWorst | visuals.py:39-45 | Every point is drawn from a tire, coloured by its condition, which is the worst among its position's tires. |
| Visuals.HeatmapWorst | visuals.py:34-45 | On the dashboard table: one point per distinct position label, each with the worst condition of that position. |

## Left out

- Reading the Excel file itself (`pd.read_excel`) and the writing of numbers
  by the spreadsheet library are not modelled. The loader starts from the
  parsed sheets, and each number cell carries the text `str()` prints for it.
- Loader.ReadSheets: headers are text in the model. A header cell the
  spreadsheet types as a number or a date is not representable. The header
  strip (etl.py:74-76) runs on every sheet of the workbook, required or not,
  and behaves differently on such headers:
  - in a mixed header row it turns that header into a missing label;
  - when every header of some sheet is a number, it raises an error, so the
    load fails even though all three required sheets are present.
  The model accepts such a workbook.
- Floating point: values are exact reals, so NaN and infinity propagation,
  binary representation error and float printing are absent. The only
  infinity that matters, the remaining percentage over a zero baseline, is
  kept as its own case.
- `float()`'s full grammar is not modelled: exponents, "inf"/"nan",
  underscores and non-ASCII digits. The parser accepts an optional sign,
  digits and at most one decimal point.
- Unicode case mapping and NFKD decomposition are modelled by a table.
  It covers ASCII, the accented Latin-1 letters, the ordinals ª and º, and
  the superscript digits ¹ ² ³. The rest of Latin-1 is not decomposed:
  ß (upper-cased to "SS"), µ (upper-cased to Greek capital mu), the
  fractions ¼ ½ ¾, and the spacing accents ¨ ´ ¸ ¯ (decomposed to a space
  and a mark). Characters outside Latin-1 pass through unchanged. Strings.Strip
  and the word split treat only the Latin-1 blanks as whitespace.
- Numbers.ExtractKm: `\d` is modelled as the ASCII digits and `\s` as the
  Latin-1 blanks. Other Unicode digits and spaces are not modelled.
- TextKeys.NormalizeShape: it is stated for text without combining marks.
  A word made only of combining marks leaves a double space
  (TextKeys.NormalizeLoneMark shows the input).
- TextKeys.NormalizeIdempotent: it is stated for text without combining
  marks. On "a \u0301 b" one pass leaves "A  B" and a second gives "A B", so
  the code is not idempotent there.
- TextKeys.NormalizeTidy: it is stated for text without combining marks, for
  the same reason.
- Frames.LeftMerge: duplicate column names and the library's column-order
  and dtype details are not modelled. A lookup by name uses the first
  column of that name.
- Transform.TransformSheets: a tire or baseline sheet without "Vida" or
  "Modelo (Atual)" is reported as a missing key column. This holds even when
  the sheet already had a `_VIDA` or `_MODELO` column, which the code would
  use as it is. The error names one missing column where the library's
  message lists all of them.
- Logic.CalcMetrics: a text cell in one of the three input columns is read
  as missing, where the code would raise a type error. The transformation
  leaves no text in the tire sheet's own measurement column or in the
  columns it computes (Transform.ConvertSpec, Transform.EnrichTread,
  Transform.PrepareTiresKm). The exception is an "Aferição - Sulco" column
  that only the position sheet has: the join (etl.py:119-120) runs after the
  conversion (etl.py:92-93) and brings that column in unconverted, so text
  there reaches the metrics.
- Logic.CalcMetrics: the computed values are kept in a metrics row beside
  the sheet rather than written into it as columns. A pre-existing column of
  the same name is therefore not overwritten, and the indicators and charts
  read the metrics.
- Logic.ComputeKpis: the percentages are not bounded by 100. With a
  reference column the total counts distinct references, and repeated
  references can push a percentage past 100.
- Visuals.ColorOf: a tire without a condition gets the neutral colour and
  rank 3. That is what pandas 2.1 and later compute. Older pandas fails
  there instead (see Notes on the code); the code pins no pandas version.
- Visuals.HeatmapPosicao: the source sorts by rank before de-duplicating, and
  that sort is not stable. The model lists positions in order of first
  appearance and picks the earliest among equally bad tires. The proved
  property (a worst-condition tire of that position) holds for any such
  pick. Marker size, text and layout are not modelled.
- The histogram, box plot and scatter chart only hand columns to the
  plotting library and are not modelled. Neither are the Streamlit page
  (`main.py`: upload, caching, sidebar, filters, downloads) or the title
  constant.

## Notes on the code

- The remaining percentage (logic.py:17) divides by the baseline without a
  guard. Over a zero baseline it is an infinity (or missing for 0/0).
- A measurement at or below -1 mm or above 99 mm gets no condition, because
  the bins (logic.py:20) stop there.
- The condition column is a categorical (`pd.cut`, logic.py:18-22). On our
  reading of pandas (not executed), the outcome at visuals.py:41 and
  visuals.py:44 depends on the pandas version, which the code does not pin.
  - Before pandas 2.1, `.map` with the one-to-one colour and rank tables
    keeps the column categorical. `.fillna` with a value outside the
    categories (the neutral colour, the rank 3) then raises a `TypeError`
    whenever a tire has no condition.
  - From pandas 2.1 on, `.map` looks up the missing rows too. They come back
    as missing in a plain column, and `.fillna` gives them the neutral
    colour and rank 3, as Visuals.ColorOf does.
- The NOVO tier (etl.py:138-145) cannot change anything: the exact tier has
  already filled every NOVO tire it could fill (Cascade.NovoIsExact).

=== FILE: cascade.dfy ===
/** Resolution of the baseline tread ("Sulco Inicial") of a tire from the
    baseline table, by five tiers that each fill only what is still missing:
    exact (stage, model) first occurrence, the NOVO stage by model, the model
    median, the stage median and the global median. */
module Cascade {
  import opened Common
  import opened Stats

  /** One row of the baseline table once its keys are normalised: stage key
      (_VIDA), model key (_MODELO) and the tread value, possibly missing. */
  datatype Baseline = Baseline(vida: string, modelo: string, sulco: Option<real>)

  /** The stage key of a new tire. */
  const Novo: string := "NOVO"

  function Where(rows: seq<Baseline>, p: Baseline -> bool): (r: seq<Baseline>)
    ensures |r| <= |rows|
    ensures forall b :: b in r <==> b in rows && p(b)
  {
    if rows == [] then []
    else
      assert forall b :: b in rows <==> b == rows[0] || b in rows[1..];
      (if p(rows[0]) then [rows[0]] else []) + Where(rows[1..], p)
  }

  predicate IsDefined(b: Baseline) { b.sulco.Some? }

  predicate IsNovo(b: Baseline) { b.vida == Novo }

  /** Rows whose tread is present (dropping rows with a missing value). */
  function Defined(rows: seq<Baseline>): seq<Baseline>
  {
    Where(rows, IsDefined)
  }

  /** The present tread values, in table order. */
  function Samples(rows: seq<Baseline>): (r: seq<real>)
    ensures |r| <= |rows|
    ensures forall x :: x in r <==> exists b :: b in rows && b.sulco == Some(x)
  {
    if rows == [] then []
    else
      assert forall b :: b in rows <==> b == rows[0] || b in rows[1..];
      (if rows[0].sulco.Some? then [rows[0].sulco.value] else []) + Samples(rows[1..])
  }

  /** Row filters by model key and by stage key. */
  function OfModel(m: string): Baseline -> bool
  {
    (b: Baseline) => b.modelo == m
  }

  function OfVida(v: string): Baseline -> bool
  {
    (b: Baseline) => b.vida == v
  }

  function VidaModelo(b: Baseline): (string, string) { (b.vida, b.modelo) }

  function Modelo(b: Baseline): string { b.modelo }

  /** The first row with the given key. */
  function FirstKey<K(==)>(rows: seq<Baseline>, key: Baseline -> K, k: K): (r: Option<Baseline>)
    ensures r.Some? <==> exists b :: b in rows && key(b) == k
    ensures r.Some? ==> r.value in rows && key(r.value) == k
  {
    if rows == [] then None
    else if key(rows[0]) == k then Some(rows[0])
    else
      assert forall b :: b in rows <==> b == rows[0] || b in rows[1..];
      FirstKey(rows[1..], key, k)
  }

  /** Keep-first de-duplication on a key (`drop_duplicates`); keys already in
      `seen` are dropped. */
  function Dedupe<K(==)>(rows: seq<Baseline>, key: Baseline -> K, seen: set<K>): (r: seq<Baseline>)
    ensures forall b :: b in r ==> b in rows && key(b) !in seen
    ensures forall i, j :: 0 <= i < j < |r| ==> key(r[i]) != key(r[j])
  {
    if rows == [] then []
    else if key(rows[0]) in seen then Dedupe(rows[1..], key, seen)
    else
      var t := Dedupe(rows[1..], key, seen + {key(rows[0])});
      assert forall i :: 0 <= i < |t| ==> key(t[i]) != key(rows[0]) by {
        forall i | 0 <= i < |t| ensures key(t[i]) != key(rows[0]) {
          assert t[i] in t;
        }
      }
      [rows[0]] + t
  }

  /** De-duplication keeps, for every key, its first row. */
  lemma {:induction false} DedupeFirst<K>(rows: seq<Baseline>, key: Baseline -> K, seen: set<K>, k: K)
    requires k !in seen
    ensures FirstKey(Dedupe(rows, key, seen), key, k) == FirstKey(rows, key, k)
    decreases |rows|
  {
    if rows != [] {
      if key(rows[0]) in seen {
        DedupeFirst(rows[1..], key, seen, k);
      } else if key(rows[0]) != k {
        DedupeFirst(rows[1..], key, seen + {key(rows[0])}, k);
      }
    }
  }

  // ---------------------------------------------------------------------
  // The tiers.

  /** Reference definition of the exact tier: the tread of the first row, in
      table order, with this stage and model and a present value. */
  function FirstDefined(rows: seq<Baseline>, v: string, m: string): (r: Option<real>)
  {
    if rows == [] then None
    else if rows[0].vida == v && rows[0].modelo == m && rows[0].sulco.Some? then rows[0].sulco
    else FirstDefined(rows[1..], v, m)
  }

  /** The de-duplicated (stage, model) table the exact tier joins against. */
  function ExactTable(base: seq<Baseline>): seq<Baseline>
  {
    Dedupe(Defined(base), VidaModelo, {})
  }

  /** Tier a: the left join on (stage, model) against the de-duplicated table. */
  function Exact(base: seq<Baseline>, v: string, m: string): (r: Option<real>)
    ensures r.Some? <==> exists b :: b in base && b.vida == v && b.modelo == m && b.sulco.Some?
    ensures r.Some? ==> exists b :: b in base && b.sulco == r
  {
    ExactHit(base, v, m);
    match FirstKey(ExactTable(base), VidaModelo, (v, m))
    case None => None
    case Some(b) => b.sulco
  }

  lemma {:induction false} ExactHit(base: seq<Baseline>, v: string, m: string)
    ensures var hit := FirstKey(ExactTable(base), VidaModelo, (v, m));
            && (hit.Some? <==> exists b :: b in base && b.vida == v && b.modelo == m && b.sulco.Some?)
            && (hit.Some? ==> hit.value in base && hit.value.sulco.Some?)
  {
    var hit := FirstKey(ExactTable(base), VidaModelo, (v, m));
    DedupeFirst(Defined(base), VidaModelo, {}, (v, m));
    assert hit.Some? ==> hit.value in Defined(base);
    if exists b :: b in base && b.vida == v && b.modelo == m && b.sulco.Some? {
      var b :| b in base && b.vida == v && b.modelo == m && b.sulco.Some?;
      assert b in Defined(base) && VidaModelo(b) == (v, m);
    }
  }

  /** The de-duplicated table has one row per key, so the join does not add rows. */
  lemma {:induction false} ExactTableUnique(base: seq<Baseline>)
    ensures forall i, j :: 0 <= i < j < |ExactTable(base)| ==>
              VidaModelo(ExactTable(base)[i]) != VidaModelo(ExactTable(base)[j])
  {
  }

  lemma {:induction false} FirstKeyDefined(rows: seq<Baseline>, v: string, m: string)
    ensures (match FirstKey(Defined(rows), VidaModelo, (v, m))
             case None => None
             case Some(b) => b.sulco) == FirstDefined(rows, v, m)
    decreases |rows|
  {
    if rows != [] {
      FirstKeyDefined(rows[1..], v, m);
      if rows[0].sulco.Some? {
        assert Defined(rows) == [rows[0]] + Defined(rows[1..]);
      } else {
        assert Defined(rows) == Defined(rows[1..]);
      }
    }
  }

  /** The exact tier is the first present occurrence in table order. */
  lemma {:induction false} ExactIsFirst(base: seq<Baseline>, v: string, m: string)
    ensures Exact(base, v, m) == FirstDefined(base, v, m)
  {
    DedupeFirst(Defined(base), VidaModelo, {}, (v, m));
    FirstKeyDefined(base, v, m);
  }

  /** The de-duplicated NOVO table, keyed by model only. */
  function NovoTable(base: seq<Baseline>): seq<Baseline>
  {
    Dedupe(Defined(Where(base, IsNovo)), Modelo, {})
  }

  /** Tier b: for a NOVO tire, the first present NOVO row of its model. */
  function NovoByModel(base: seq<Baseline>, m: string): Option<real>
  {
    match FirstKey(NovoTable(base), Modelo, m)
    case None => None
    case Some(b) => b.sulco
  }

  lemma {:induction false} NovoFirst(rows: seq<Baseline>, m: string)
    ensures (match FirstKey(Defined(Where(rows, IsNovo)), Modelo, m)
             case None => None
             case Some(b) => b.sulco) == FirstDefined(rows, Novo, m)
    decreases |rows|
  {
    if rows != [] {
      NovoFirst(rows[1..], m);
      var w := Where(rows, IsNovo);
      var w1 := Where(rows[1..], IsNovo);
      if IsNovo(rows[0]) {
        assert w == [rows[0]] + w1;
        if rows[0].sulco.Some? {
          assert Defined(w) == [rows[0]] + Defined(w1);
        } else {
          assert Defined(w) == Defined(w1);
        }
      } else {
        assert w == w1;
      }
    }
  }

  /** Tier b never adds anything: for a NOVO tire it looks up the very key
      the exact tier already looked up. */
  lemma {:induction false} NovoIsExact(base: seq<Baseline>, m: string)
    ensures NovoByModel(base, m) == Exact(base, Novo, m)
  {
    DedupeFirst(Defined(Where(base, IsNovo)), Modelo, {}, m);
    NovoFirst(base, m);
    ExactIsFirst(base, Novo, m);
  }

  function MedianOf(xs: seq<real>): (r: Option<real>)
    ensures r.Some? <==> xs != []
    ensures r.Some? ==> Min(xs) <= r.value <= Max(xs)
  {
    if xs == [] then None
    else
      MedianBounds(xs);
      Some(Median(xs))
  }

  /** Tier c: median of the present values of the tire's model. */
  function ModelMedian(base: seq<Baseline>, m: string): Option<real>
  {
    MedianOf(Samples(Where(base, OfModel(m))))
  }

  /** Tier d: median of the present values of the tire's stage. */
  function VidaMedian(base: seq<Baseline>, v: string): Option<real>
  {
    MedianOf(Samples(Where(base, OfVida(v))))
  }

  /** Tier e: median of all present values (only when there is one). */
  function GlobalMedian(base: seq<Baseline>): Option<real>
  {
    MedianOf(Samples(base))
  }

  /** One fill step: a value already present is kept. */
  function Fill(prev: Option<real>, cand: Option<real>): (r: Option<real>)
    ensures prev.Some? ==> r == prev
    ensures prev.None? ==> r == cand
  {
    if prev.Some? then prev else cand
  }

  /** The baseline tread of a tire with stage key `v` and model key `m`. */
  function Resolve(base: seq<Baseline>, v: string, m: string): Option<real>
  {
    var a := Exact(base, v, m);
    var b := if v == Novo then Fill(a, NovoByModel(base, m)) else a;
    var c := Fill(b, ModelMedian(base, m));
    var d := Fill(c, VidaMedian(base, v));
    Fill(d, GlobalMedian(base))
  }

  /** The first present value of a list of candidates. */
  function FirstSome(cands: seq<Option<real>>): (r: Option<real>)
    ensures r.Some? <==> exists i :: 0 <= i < |cands| && cands[i].Some?
    ensures r.Some? ==> r in cands
    ensures r.Some? ==> exists i :: 0 <= i < |cands| && cands[i] == r && forall j :: 0 <= j < i ==> cands[j].None?
  {
    if cands == [] then None
    else if cands[0].Some? then cands[0]
    else
      var tail := cands[1..];
      var t := FirstSome(tail);
      assert forall i :: 1 <= i < |cands| ==> cands[i] == tail[i - 1];
      assert t.Some? ==> exists i :: 0 <= i < |cands| && cands[i] == t && forall j :: 0 <= j < i ==> cands[j].None? by {
        if t.Some? {
          var k :| 0 <= k < |tail| && tail[k] == t && forall j :: 0 <= j < k ==> tail[j].None?;
          assert forall j :: 0 <= j < k + 1 ==> cands[j].None? by {
            forall j | 0 <= j < k + 1 ensures cands[j].None? {
              if j > 0 {
                assert cands[j] == tail[j - 1];
              }
            }
          }
          assert cands[k + 1] == t;
        }
      }
      t
  }

  /** Priority order: the value is the first tier that has one; tier b drops out. */
  lemma {:induction false} ResolvePriority(base: seq<Baseline>, v: string, m: string)
    ensures Resolve(base, v, m) ==
              FirstSome([Exact(base, v, m), ModelMedian(base, m), VidaMedian(base, v), GlobalMedian(base)])
  {
    var a, c, d, e := Exact(base, v, m), ModelMedian(base, m), VidaMedian(base, v), GlobalMedian(base);
    assert Resolve(base, v, m) == Fill(Fill(Fill(a, c), d), e) by {
      NovoIsExact(base, m);
    }
    FirstSomeOfFour([a, c, d, e], a, c, d, e);
  }

  lemma {:induction false} FirstSomeOfFour(cs: seq<Option<real>>, a: Option<real>, c: Option<real>, d: Option<real>, e: Option<real>)
    requires cs == [a, c, d, e]
    ensures FirstSome(cs) == Fill(Fill(Fill(a, c), d), e)
  {
    var t1 := cs[1..];
    var t2 := t1[1..];
    var t3 := t2[1..];
    assert t1 == [c, d, e] && t2 == [d, e] && t3 == [e] && t3[1..] == [];
    assert FirstSome(t3) == e;
    assert FirstSome(t2) == Fill(d, e);
    assert FirstSome(t1) == Fill(Fill(c, d), e);
  }

  /** Every present value of a sub-table lies within the whole table's range. */
  lemma {:induction false} SubRange(base: seq<Baseline>, p: Baseline -> bool)
    requires Samples(Where(base, p)) != []
    ensures Samples(base) != []
    ensures Min(Samples(base)) <= Min(Samples(Where(base, p)))
    ensures Max(Samples(Where(base, p))) <= Max(Samples(base))
  {
    var sub := Samples(Where(base, p));
    var all := Samples(base);
    forall x | x in sub ensures x in all {
      var b :| b in Where(base, p) && b.sulco == Some(x);
    }
    var lo := Min(sub);
    var hi := Max(sub);
    assert lo in all && hi in all;
    var i :| 0 <= i < |all| && all[i] == lo;
    var j :| 0 <= j < |all| && all[j] == hi;
  }

  /** A tire is resolved exactly when the baseline table has some present value. */
  lemma {:induction false} ResolveDefined(base: seq<Baseline>, v: string, m: string)
    ensures Resolve(base, v, m).Some? <==> Samples(base) != []
  {
    ResolvePriority(base, v, m);
    if Samples(base) == [] {
      NoSamplesExact(base, v, m);
      NoSamplesWhere(base, OfModel(m));
      NoSamplesWhere(base, OfVida(v));
    }
  }

  lemma {:induction false} NoSamplesExact(base: seq<Baseline>, v: string, m: string)
    requires Samples(base) == []
    ensures Exact(base, v, m).None?
  {
  }

  lemma {:induction false} NoSamplesWhere(base: seq<Baseline>, p: Baseline -> bool)
    requires Samples(base) == []
    ensures Samples(Where(base, p)) == []
  {
    if Samples(Where(base, p)) != [] {
      SubRange(base, p);
    }
  }

  /** A resolved value lies between the least and the greatest present baseline value. */
  lemma {:induction false} ResolveBounds(base: seq<Baseline>, v: string, m: string)
    requires Samples(base) != []
    ensures InRange(Resolve(base, v, m), Min(Samples(base)), Max(Samples(base)))
  {
    var all := Samples(base);
    var lo, hi := Min(all), Max(all);
    var a, c, d, e := Exact(base, v, m), ModelMedian(base, m), VidaMedian(base, v), GlobalMedian(base);
    ExactInRange(base, v, m);
    TierInRange(base, OfModel(m));
    TierInRange(base, OfVida(v));
    ResolveIsTier(base, v, m);
  }

  /** The resolved value is one of the tiers' values. */
  lemma {:induction false} ResolveIsTier(base: seq<Baseline>, v: string, m: string)
    ensures var r := Resolve(base, v, m);
            r == Exact(base, v, m) || r == ModelMedian(base, m) || r == VidaMedian(base, v) || r == GlobalMedian(base)
  {
    ResolvePriority(base, v, m);
    var cs := [Exact(base, v, m), ModelMedian(base, m), VidaMedian(base, v), GlobalMedian(base)];
    assert Resolve(base, v, m) in cs;
  }

  lemma {:induction false} ExactInRange(base: seq<Baseline>, v: string, m: string)
    requires Samples(base) != []
    ensures InRange(Exact(base, v, m), Min(Samples(base)), Max(Samples(base)))
  {
    var a := Exact(base, v, m);
    if a.Some? {
      var b :| b in base && b.sulco == a;
      assert a.value in Samples(base);
    }
  }

  lemma {:induction false} TierInRange(base: seq<Baseline>, p: Baseline -> bool)
    requires Samples(base) != []
    ensures InRange(MedianOf(Samples(Where(base, p))), Min(Samples(base)), Max(Samples(base)))
  {
    if Samples(Where(base, p)) != [] {
      SubRange(base, p);
    }
  }

  predicate InRange(o: Option<real>, lo: real, hi: real)
  {
    o.Some? ==> lo <= o.value <= hi
  }

  /** Tier a wins whenever it has a value. */
  lemma {:induction false} ExactWins(base: seq<Baseline>, v: string, m: string)
    requires Exact(base, v, m).Some?
    ensures Resolve(base, v, m) == Exact(base, v, m)
  {
  }
}

=== FILE: chars.dfy ===
/** Character classes and per-character case and accent maps, covering ASCII
    and the Latin-1 letters, ordinals and superscript digits that Portuguese
    fleet data uses. */
module Chars {

  predicate IsDigit(c: char)
  {
    '0' <= c <= '9'
  }

  function DigitValue(c: char): (d: nat)
    requires IsDigit(c)
    ensures d < 10
  {
    (c as int) - ('0' as int)
  }

  /** Whitespace as `str.split`, `str.strip` and the regex class `\s` see it,
      restricted to Latin-1: tab to carriage return, the four separators
      0x1C-0x1F, space, NEL and no-break space. */
  predicate IsSpace(c: char)
  {
    c == ' ' || '\t' <= c <= '\r' || '\U{1C}' <= c <= '\U{1F}' || c == '\U{85}' || c == '\U{A0}'
  }

  /** Combining diacritical marks (the block U+0300-U+036F). */
  predicate IsCombining(c: char)
  {
    '\U{300}' <= c <= '\U{36F}'
  }

  predicate IsAsciiUpper(c: char) { 'A' <= c <= 'Z' }
  predicate IsAsciiLower(c: char) { 'a' <= c <= 'z' }

  /** Latin-1 upper-case letters (U+00C0-U+00DE without the multiplication sign). */
  predicate IsLatinUpper(c: char) { '\U{C0}' <= c <= '\U{DE}' && c != '\U{D7}' }

  /** Latin-1 lower-case letters with an upper-case partner in Latin-1
      (U+00E0-U+00FE without the division sign). */
  predicate IsLatinLower(c: char) { '\U{E0}' <= c <= '\U{FE}' && c != '\U{F7}' }

  const YDiaeresis: char := '\U{FF}'
  const CapitalYDiaeresis: char := '\U{178}'

  function Lower(c: char): char
  {
    if IsAsciiUpper(c) || IsLatinUpper(c) then (c as int + 32) as char
    else if c == CapitalYDiaeresis then YDiaeresis
    else c
  }

  function Upper(c: char): char
  {
    if IsAsciiLower(c) || IsLatinLower(c) then (c as int - 32) as char
    else if c == YDiaeresis then CapitalYDiaeresis
    else c
  }

  /** Lower-case letters that canonical decomposition splits into a base
      letter and one combining mark. */
  predicate IsAccented(c: char)
  {
    || '\U{E0}' <= c <= '\U{E5}'
    || c == '\U{E7}'
    || '\U{E8}' <= c <= '\U{EF}'
    || c == '\U{F1}'
    || '\U{F2}' <= c <= '\U{F6}'
    || '\U{F9}' <= c <= '\U{FD}'
    || c == YDiaeresis
  }

  /** Upper-case letters whose lower-case form is accented. */
  predicate IsAccentedUpper(c: char)
  {
    (IsLatinUpper(c) || c == CapitalYDiaeresis) && IsAccented(Lower(c))
  }

  function BaseLetter(c: char): (b: char)
    requires IsAccented(c)
    ensures IsAsciiLower(b)
  {
    if c <= '\U{E5}' then 'a'
    else if c == '\U{E7}' then 'c'
    else if c <= '\U{EB}' then 'e'
    else if c <= '\U{EF}' then 'i'
    else if c == '\U{F1}' then 'n'
    else if c <= '\U{F6}' then 'o'
    else if c <= '\U{FC}' then 'u'
    else 'y'
  }

  function MarkOf(c: char): (m: char)
    requires IsAccented(c)
    ensures IsCombining(m)
  {
    if c in {'\U{E0}', '\U{E8}', '\U{EC}', '\U{F2}', '\U{F9}'} then '\U{300}'        // grave
    else if c in {'\U{E1}', '\U{E9}', '\U{ED}', '\U{F3}', '\U{FA}', '\U{FD}'} then '\U{301}'  // acute
    else if c in {'\U{E2}', '\U{EA}', '\U{EE}', '\U{F4}', '\U{FB}'} then '\U{302}'   // circumflex
    else if c in {'\U{E3}', '\U{F1}', '\U{F5}'} then '\U{303}'                       // tilde
    else if c == '\U{E5}' then '\U{30A}'                                              // ring above
    else if c == '\U{E7}' then '\U{327}'                                              // cedilla
    else '\U{308}'                                                                    // diaeresis
  }

  /** Latin-1 characters whose compatibility decomposition is one plain
      character: the ordinal indicators and the superscript digits. */
  predicate IsCompat(c: char)
  {
    c == '\U{AA}' || c == '\U{BA}' || c == '\U{B2}' || c == '\U{B3}' || c == '\U{B9}'
  }

  function CompatBase(c: char): (b: char)
    requires IsCompat(c)
    ensures IsAsciiLower(b) || IsDigit(b)
  {
    if c == '\U{AA}' then 'a'       // feminine ordinal
    else if c == '\U{BA}' then 'o'  // masculine ordinal
    else if c == '\U{B2}' then '2'
    else if c == '\U{B3}' then '3'
    else '1'
  }

  /** Compatibility decomposition (NFKD) of one character, on the Latin-1
      table: accented letters split into base letter and mark, ordinals and
      superscript digits become their plain letter or digit. */
  function DecomposeChar(c: char): (r: string)
    ensures |r| >= 1 && r[0] == Base(c)
    ensures forall i :: 1 <= i < |r| ==> IsCombining(r[i])
  {
    if IsAccented(c) then [BaseLetter(c), MarkOf(c)]
    else if IsCompat(c) then [CompatBase(c)]
    else [c]
  }

  /** What is left of a character once decomposed and stripped of its mark. */
  function Base(c: char): char
  {
    if IsAccented(c) then BaseLetter(c)
    else if IsCompat(c) then CompatBase(c)
    else c
  }

  /** The per-character effect of the text normaliser on a non-mark character:
      lower-case, decompose and drop the mark, upper-case. */
  function Fold(c: char): char
  {
    Upper(Base(Lower(c)))
  }

  /** A character the normaliser can output: no mark, no lower-case letter,
      no precomposed accented letter, no ordinal or superscript digit. */
  predicate Folded(c: char)
  {
    !IsCombining(c) && !IsAsciiLower(c) && !IsLatinLower(c) && !IsAccented(c) && !IsAccentedUpper(c) && !IsCompat(c)
  }

  lemma {:induction false} LowerIdempotent(c: char)
    ensures Lower(Lower(c)) == Lower(c)
  {
  }

  lemma {:induction false} LowerUpper(c: char)
    ensures Lower(Upper(c)) == Lower(c)
  {
  }

  /** The fold keeps white space and non-white space apart, fixes the plain
      space, and turns a non-mark into a non-mark. */
  lemma {:induction false} FoldSpace(c: char)
    ensures IsSpace(Fold(c)) <==> IsSpace(c)
    ensures c == ' ' ==> Fold(c) == ' '
    ensures !IsCombining(c) ==> !IsCombining(Fold(c))
  {
  }

  /** Every folded character is `Folded`, and `Folded` characters are the
      fixed points of the fold. */
  lemma {:induction false} FoldFolded(c: char)
    requires !IsCombining(c)
    ensures Folded(Fold(c))
  {
  }

  lemma {:induction false} FoldedFixed(c: char)
    requires Folded(c)
    ensures Fold(c) == c
  {
  }
}

=== FILE: common.dfy ===
/** Shared value types of the pipeline: optional values, results, and the
    spreadsheet cell as the dataframe library hands it over. */
module Common {

  datatype Option<T> = None | Some(value: T)

  datatype Result<T, E> = Ok(value: T) | Err(error: E)

  /** One spreadsheet cell. `Empty` is a missing value (NaN/None); a number
      carries `shown`, the text that `str()` renders for it, because the
      text helpers apply `str()` to whatever they are given. */
  datatype Cell = Empty | Num(x: real, shown: string) | Text(s: string)

  /** The value a cell is compared by when it is used as a join or
      de-duplication key: numbers compare by value, and missing values
      are equal to each other, as in the dataframe library's merge. */
  datatype CellKey = KEmpty | KNum(x: real) | KText(s: string)

  function KeyOf(c: Cell): (k: CellKey)
    ensures k == KEmpty <==> c == Empty
  {
    match c
    case Empty => KEmpty
    case Num(x, _) => KNum(x)
    case Text(s) => KText(s)
  }

  /** Why the pipeline stops: the workbook lacks required sheets (the
      loader's rejection, listing them all), or a sheet or column the
      transformation indexes is absent (a key error). */
  datatype Error = MissingSheets(names: seq<string>) | MissingSheet(name: string) | MissingColumn(name: string)

  /** A sheet (one named table of the workbook): column headers and rows of cells. */
  datatype Sheet = Sheet(columns: seq<string>, rows: seq<seq<Cell>>)
}

=== FILE: config.dfy ===
/** Configuration constants of the dashboard (config.py). */
module Config {

  /** The two tread-depth limits, in millimetres. */
  datatype Thresholds = Thresholds(criticoMm: real, alertaMm: real)

  /** The defaults the metrics engine always uses. */
  const DefaultThresholds := Thresholds(2.0, 4.0)

  /** The bin edges [-1, critico, alerta, 99] must increase strictly,
      otherwise the binning call rejects them. */
  predicate ValidThresholds(t: Thresholds)
  {
    -1.0 < t.criticoMm < t.alertaMm < 99.0
  }

  /** Names of the sheets the workbook must contain. */
  const RequiredSheets: set<string> := {"pneus", "posição", "sulco"}

  /** The same names, sorted, as the rejection message lists them. */
  const RequiredSheetsSorted: seq<string> := ["pneus", "posição", "sulco"]

  /** Default unit price of a tire and of one hour of vehicle downtime. */
  const DefaultCustoPneu: real := 1200.0
  const DefaultCustoParadaHora: real := 300.0

  /** Marker colours of the three conditions and of tires without one. */
  const ColorOk: string := "#6BCB77"
  const ColorAlerta: string := "#FFD93D"
  const ColorCritico: string := "#FF6B6B"
  const ColorNeutro: string := "#e6e6e6"
}

=== FILE: frames.dfy ===
/** Tables as the dataframe library holds them: a header row of column names
    and rectangular rows of cells. Columns are addressed by name; when a
    name occurs twice the first occurrence is the one read and written. */
module Frames {
  import opened Common
  import opened Strings

  /** Every row has one cell per column (a data frame is rectangular). */
  predicate WellFormed(s: Sheet)
  {
    forall i :: 0 <= i < |s.rows| ==> |s.rows[i]| == |s.columns|
  }

  predicate Has(s: Sheet, name: string)
  {
    name in s.columns
  }

  /** Position of the first column called `name`. */
  function ColIndex(cols: seq<string>, name: string): (r: Option<nat>)
    ensures r.None? <==> name !in cols
    ensures r.Some? ==> r.value < |cols| && cols[r.value] == name && name !in cols[..r.value]
  {
    if cols == [] then None
    else if cols[0] == name then Some(0)
    else
      match ColIndex(cols[1..], name)
      case None => None
      case Some(k) =>
        assert cols[..k + 1] == [cols[0]] + cols[1..][..k];
        Some(k + 1)
  }

  /** The first occurrence of a name is the only position with no earlier occurrence. */
  lemma {:induction false} ColIndexUnique(cols: seq<string>, name: string, k: nat)
    requires k < |cols| && cols[k] == name && name !in cols[..k]
    ensures ColIndex(cols, name) == Some(k)
  {
  }

  /** The cells of a column, top to bottom. */
  function Column(s: Sheet, name: string): (r: seq<Cell>)
    requires WellFormed(s) && Has(s, name)
    ensures |r| == |s.rows|
  {
    var j := ColIndex(s.columns, name).value;
    seq(|s.rows|, i requires 0 <= i < |s.rows| => s.rows[i][j])
  }

  /** Assigning a whole column: an existing column is overwritten in place,
      a new one is appended on the right. */
  function SetColumn(s: Sheet, name: string, vals: seq<Cell>): (r: Sheet)
    requires WellFormed(s) && |vals| == |s.rows|
    ensures WellFormed(r) && |r.rows| == |s.rows|
    ensures forall n :: Has(r, n) <==> Has(s, n) || n == name
  {
    match ColIndex(s.columns, name)
    case Some(j) =>
      Sheet(s.columns, seq(|s.rows|, i requires 0 <= i < |s.rows| => s.rows[i][j := vals[i]]))
    case None =>
      Sheet(s.columns + [name], seq(|s.rows|, i requires 0 <= i < |s.rows| => s.rows[i] + [vals[i]]))
  }

  /** After the assignment the column holds exactly the new values, every
      other column is untouched, and no other name appears or disappears. */
  lemma {:induction false} SetColumnSpec(s: Sheet, name: string, vals: seq<Cell>)
    requires WellFormed(s) && |vals| == |s.rows|
    ensures Has(SetColumn(s, name, vals), name)
    ensures Column(SetColumn(s, name, vals), name) == vals
    ensures forall n :: Has(s, n) && n != name ==> Column(SetColumn(s, name, vals), n) == Column(s, n)
  {
    var r := SetColumn(s, name, vals);
    if name in s.columns {
      assert r.columns == s.columns;
    } else {
      var k := |s.columns|;
      assert r.columns == s.columns + [name];
      assert r.columns[..k] == s.columns;
      ColIndexUnique(r.columns, name, k);
      forall n | Has(s, n) && n != name
        ensures ColIndex(r.columns, n) == ColIndex(s.columns, n)
      {
        var j := ColIndex(s.columns, n).value;
        assert r.columns[..j] == s.columns[..j];
        ColIndexUnique(r.columns, n, j);
      }
    }
  }

  /** Rewriting every cell of an existing column. */
  function MapColumn(s: Sheet, name: string, f: Cell -> Cell): (r: Sheet)
    requires WellFormed(s) && Has(s, name)
    ensures WellFormed(r) && |r.rows| == |s.rows|
    ensures forall n :: Has(r, n) <==> Has(s, n)
  {
    var col := Column(s, name);
    SetColumn(s, name, seq(|col|, i requires 0 <= i < |col| => f(col[i])))
  }

  /** A column filled with one value (a scalar assignment). */
  function Constant(s: Sheet, v: Cell): (r: seq<Cell>)
    ensures |r| == |s.rows| && forall i :: 0 <= i < |r| ==> r[i] == v
  {
    seq(|s.rows|, _ => v)
  }

  /** Renaming columns through a table of old name to new name. */
  function RenameColumns(s: Sheet, ren: map<string, string>): (r: Sheet)
    requires WellFormed(s)
    ensures WellFormed(r)
  {
    Sheet(seq(|s.columns|, j requires 0 <= j < |s.columns| =>
                if s.columns[j] in ren then ren[s.columns[j]] else s.columns[j]),
          s.rows)
  }

  /** Which names a renaming leaves: the untouched ones and the targets of
      the renamed ones; the rows do not change. */
  lemma {:induction false} RenameSpec(s: Sheet, ren: map<string, string>, n: string)
    requires WellFormed(s)
    ensures RenameColumns(s, ren).rows == s.rows
    ensures Has(RenameColumns(s, ren), n) <==>
              (Has(s, n) && n !in ren) || exists k :: k in ren && Has(s, k) && ren[k] == n
  {
    var r := RenameColumns(s, ren);
    if Has(r, n) {
      var j :| 0 <= j < |r.columns| && r.columns[j] == n;
      assert s.columns[j] in s.columns;
    }
    if Has(s, n) && n !in ren {
      var j :| 0 <= j < |s.columns| && s.columns[j] == n;
      assert r.columns[j] == n;
    }
    if exists k :: k in ren && Has(s, k) && ren[k] == n {
      var k :| k in ren && Has(s, k) && ren[k] == n;
      var j :| 0 <= j < |s.columns| && s.columns[j] == k;
      assert r.columns[j] == n;
    }
  }

  /** Stripping white space from every column name. */
  function StripHeaders(s: Sheet): (r: Sheet)
    requires WellFormed(s)
    ensures WellFormed(r) && r.rows == s.rows && |r.columns| == |s.columns|
  {
    Sheet(seq(|s.columns|, j requires 0 <= j < |s.columns| => Strip(s.columns[j])), s.rows)
  }

  /** Stripped headers carry no leading or trailing white space, and a
      header that had none is unchanged. */
  lemma {:induction false} StripHeadersSpec(s: Sheet)
    requires WellFormed(s)
    ensures forall j :: 0 <= j < |s.columns| ==> Strip(StripHeaders(s).columns[j]) == StripHeaders(s).columns[j]
    ensures forall j :: 0 <= j < |s.columns| ==> StripHeaders(s).columns[j] == Strip(s.columns[j])
  {
    forall j | 0 <= j < |s.columns|
      ensures Strip(Strip(s.columns[j])) == Strip(s.columns[j])
    {
      StripSpec(s.columns[j]);
      StripTrimmed(Strip(s.columns[j]));
    }
  }

  // ---------------------------------------------------------------------
  // Left merge on one key column.

  function DropAt<T>(s: seq<T>, k: nat): (r: seq<T>)
    requires k < |s|
    ensures |r| == |s| - 1
    ensures forall i :: 0 <= i < |r| ==> r[i] == (if i < k then s[i] else s[i + 1])
  {
    s[..k] + s[k + 1..]
  }

  function Empties(n: nat): (r: seq<Cell>)
    ensures |r| == n && forall i :: 0 <= i < n ==> r[i] == Empty
  {
    seq(n, _ => Empty)
  }

  /** A name clashes when the other side has it too; the join key never clashes. */
  function Suffixed(cols: seq<string>, others: seq<string>, key: string, suffix: string): (r: seq<string>)
    ensures |r| == |cols|
  {
    seq(|cols|, j requires 0 <= j < |cols| =>
          if cols[j] != key && cols[j] in others then cols[j] + suffix else cols[j])
  }

  /** Columns of a left merge: the left columns, then the right ones without
      the key; a name on both sides gets "_x" on the left and "_y" on the right. */
  function MergeColumns(lc: seq<string>, rc: seq<string>, key: string): (r: seq<string>)
    requires key in rc
    ensures |r| == |lc| + |rc| - 1
  {
    var kr := ColIndex(rc, key).value;
    Suffixed(lc, rc, key, "_x") + Suffixed(DropAt(rc, kr), lc, key, "_y")
  }

  predicate Rows(rows: seq<seq<Cell>>, w: nat)
  {
    forall i :: 0 <= i < |rows| ==> |rows[i]| == w
  }

  predicate KeyColumn(rows: seq<seq<Cell>>, k: nat)
  {
    forall i :: 0 <= i < |rows| ==> k < |rows[i]|
  }

  /** The right rows whose key equals `key`, in order. */
  function Matching(rows: seq<seq<Cell>>, kr: nat, key: CellKey): (r: seq<seq<Cell>>)
    requires KeyColumn(rows, kr)
    ensures |r| <= |rows|
    ensures forall i :: 0 <= i < |r| ==> r[i] in rows && KeyOf(r[i][kr]) == key
  {
    if rows == [] then []
    else (if KeyOf(rows[0][kr]) == key then [rows[0]] else []) + Matching(rows[1..], kr, key)
  }

  /** The rows one left row turns into: one per matching right row, or the
      left row padded with missing values when nothing matches. */
  function Expand(lrow: seq<Cell>, kl: nat, rrows: seq<seq<Cell>>, kr: nat, width: nat): (r: seq<seq<Cell>>)
    requires kl < |lrow| && KeyColumn(rrows, kr)
    requires Rows(rrows, width + 1)
    ensures |r| >= 1 && Rows(r, |lrow| + width)
  {
    var m := Matching(rrows, kr, KeyOf(lrow[kl]));
    if m == [] then [lrow + Empties(width)]
    else seq(|m|, i requires 0 <= i < |m| => lrow + DropAt(m[i], kr))
  }

  function MergeRows(lrows: seq<seq<Cell>>, kl: nat, rrows: seq<seq<Cell>>, kr: nat, lw: nat, width: nat): (r: seq<seq<Cell>>)
    requires kl < lw && Rows(lrows, lw)
    requires KeyColumn(rrows, kr)
    requires Rows(rrows, width + 1)
    ensures |r| >= |lrows| && Rows(r, lw + width)
  {
    if lrows == [] then []
    else Expand(lrows[0], kl, rrows, kr, width) + MergeRows(lrows[1..], kl, rrows, kr, lw, width)
  }

  /** Some row of `rows` begins with `prefix`. */
  predicate SomeBegins(rows: seq<seq<Cell>>, prefix: seq<Cell>)
  {
    exists j :: 0 <= j < |rows| && |prefix| <= |rows[j]| && rows[j][..|prefix|] == prefix
  }

  /** `row` begins with some row of `prefixes`. */
  predicate BeginsWithSome(row: seq<Cell>, prefixes: seq<seq<Cell>>)
  {
    exists i :: 0 <= i < |prefixes| && |prefixes[i]| <= |row| && row[..|prefixes[i]|] == prefixes[i]
  }

  /** Every row a left row expands to begins with that left row. */
  lemma {:induction false} ExpandPrefix(lrow: seq<Cell>, kl: nat, rrows: seq<seq<Cell>>, kr: nat, width: nat)
    requires kl < |lrow| && KeyColumn(rrows, kr)
    requires Rows(rrows, width + 1)
    ensures forall j :: 0 <= j < |Expand(lrow, kl, rrows, kr, width)| ==>
              Expand(lrow, kl, rrows, kr, width)[j][..|lrow|] == lrow
  {
    var e := Expand(lrow, kl, rrows, kr, width);
    forall j | 0 <= j < |e| ensures e[j][..|lrow|] == lrow {
      var m := Matching(rrows, kr, KeyOf(lrow[kl]));
      if m == [] {
        assert e[j] == lrow + Empties(width);
      } else {
        assert e[j] == lrow + DropAt(m[j], kr);
      }
    }
  }

  /** Left row `i` begins some output row. */
  lemma {:induction false} MergeRowsHas(lrows: seq<seq<Cell>>, kl: nat, rrows: seq<seq<Cell>>, kr: nat, lw: nat, width: nat, i: nat)
    requires kl < lw && Rows(lrows, lw)
    requires KeyColumn(rrows, kr)
    requires Rows(rrows, width + 1)
    requires i < |lrows|
    ensures SomeBegins(MergeRows(lrows, kl, rrows, kr, lw, width), lrows[i])
    decreases i
  {
    var all := MergeRows(lrows, kl, rrows, kr, lw, width);
    var head := Expand(lrows[0], kl, rrows, kr, width);
    var tail := lrows[1..];
    var rest := MergeRows(tail, kl, rrows, kr, lw, width);
    assert all == head + rest;
    if i == 0 {
      ExpandPrefix(lrows[0], kl, rrows, kr, width);
      assert |lrows[0]| == lw && all[0] == head[0];
      assert 0 < |all| && all[0][..|lrows[i]|] == lrows[i];
    } else {
      assert Rows(tail, lw) by {
        forall k | 0 <= k < |tail| ensures |tail[k]| == lw {
          assert tail[k] == lrows[k + 1];
        }
      }
      MergeRowsHas(tail, kl, rrows, kr, lw, width, i - 1);
      assert tail[i - 1] == lrows[i];
      var j :| 0 <= j < |rest| && |lrows[i]| <= |rest[j]| && rest[j][..|lrows[i]|] == lrows[i];
      assert all[|head| + j] == rest[j];
    }
  }

  /** Output row `j` begins with some left row. */
  lemma {:induction false} MergeRowsFrom(lrows: seq<seq<Cell>>, kl: nat, rrows: seq<seq<Cell>>, kr: nat, lw: nat, width: nat, j: nat)
    requires kl < lw && Rows(lrows, lw)
    requires KeyColumn(rrows, kr)
    requires Rows(rrows, width + 1)
    requires j < |MergeRows(lrows, kl, rrows, kr, lw, width)|
    ensures BeginsWithSome(MergeRows(lrows, kl, rrows, kr, lw, width)[j], lrows)
    decreases |lrows|
  {
    var all := MergeRows(lrows, kl, rrows, kr, lw, width);
    var head := Expand(lrows[0], kl, rrows, kr, width);
    var tail := lrows[1..];
    var rest := MergeRows(tail, kl, rrows, kr, lw, width);
    assert all == head + rest;
    if j < |head| {
      ExpandPrefix(lrows[0], kl, rrows, kr, width);
      assert all[j] == head[j] && all[j][..|lrows[0]|] == lrows[0];
    } else {
      assert Rows(tail, lw) by {
        forall k | 0 <= k < |tail| ensures |tail[k]| == lw {
          assert tail[k] == lrows[k + 1];
        }
      }
      MergeRowsFrom(tail, kl, rrows, kr, lw, width, j - |head|);
      assert all[j] == rest[j - |head|];
      var i :| 0 <= i < |tail| && |tail[i]| <= |rest[j - |head|]| && rest[j - |head|][..|tail[i]|] == tail[i];
      assert tail[i] == lrows[i + 1];
    }
  }

  /** `merge(how="left", on=key)`: every left row is kept, in order, once per
      matching right row; missing keys match each other. */
  function LeftMerge(l: Sheet, r: Sheet, key: string): (m: Sheet)
    requires WellFormed(l) && WellFormed(r) && Has(l, key) && Has(r, key)
    ensures WellFormed(m) && |m.rows| >= |l.rows|
    ensures |m.columns| == |l.columns| + |r.columns| - 1
  {
    var kl := ColIndex(l.columns, key).value;
    var kr := ColIndex(r.columns, key).value;
    Sheet(MergeColumns(l.columns, r.columns, key),
          MergeRows(l.rows, kl, r.rows, kr, |l.columns|, |r.columns| - 1))
  }

  /** No tire is lost and nothing else appears, whatever the right keys:
      each left row begins some output row, and each output row begins with
      a left row. */
  lemma {:induction false} LeftMergeKeeps(l: Sheet, r: Sheet, key: string)
    requires WellFormed(l) && WellFormed(r) && Has(l, key) && Has(r, key)
    ensures forall i :: 0 <= i < |l.rows| ==> SomeBegins(LeftMerge(l, r, key).rows, l.rows[i])
    ensures forall j :: 0 <= j < |LeftMerge(l, r, key).rows| ==> BeginsWithSome(LeftMerge(l, r, key).rows[j], l.rows)
  {
    var kl := ColIndex(l.columns, key).value;
    var kr := ColIndex(r.columns, key).value;
    var w := |r.columns| - 1;
    var rows := MergeRows(l.rows, kl, r.rows, kr, |l.columns|, w);
    assert LeftMerge(l, r, key).rows == rows;
    forall i | 0 <= i < |l.rows| ensures SomeBegins(rows, l.rows[i]) {
      MergeRowsHas(l.rows, kl, r.rows, kr, |l.columns|, w, i);
    }
    forall j | 0 <= j < |rows| ensures BeginsWithSome(rows[j], l.rows) {
      MergeRowsFrom(l.rows, kl, r.rows, kr, |l.columns|, w, j);
    }
  }

  /** No two rows share a key (missing keys count as equal). */
  predicate UniqueKeys(rows: seq<seq<Cell>>, k: nat)
    requires KeyColumn(rows, k)
  {
    forall i, j :: 0 <= i < j < |rows| ==> KeyOf(rows[i][k]) != KeyOf(rows[j][k])
  }

  /** The first right row with the given key, if any: the reference lookup. */
  function FirstMatching(rows: seq<seq<Cell>>, kr: nat, key: CellKey): (r: Option<seq<Cell>>)
    requires KeyColumn(rows, kr)
    ensures r.Some? <==> exists i :: 0 <= i < |rows| && KeyOf(rows[i][kr]) == key
    ensures r.Some? ==> r.value in rows && KeyOf(r.value[kr]) == key
  {
    if rows == [] then None
    else if KeyOf(rows[0][kr]) == key then Some(rows[0])
    else
      var t := FirstMatching(rows[1..], kr, key);
      assert forall i :: 1 <= i < |rows| ==> rows[i] == rows[1..][i - 1];
      t
  }

  /** With unique keys at most one right row matches, and it is the first one. */
  lemma {:induction false} MatchingUnique(rows: seq<seq<Cell>>, kr: nat, key: CellKey)
    requires KeyColumn(rows, kr) && UniqueKeys(rows, kr)
    ensures Matching(rows, kr, key) == (match FirstMatching(rows, kr, key)
                                         case None => []
                                         case Some(row) => [row])
    decreases |rows|
  {
    if rows != [] {
      var tail := rows[1..];
      assert UniqueKeys(tail, kr) by {
        forall i, j | 0 <= i < j < |tail| ensures KeyOf(tail[i][kr]) != KeyOf(tail[j][kr]) {
          assert tail[i] == rows[i + 1] && tail[j] == rows[j + 1];
        }
      }
      MatchingUnique(tail, kr, key);
      if KeyOf(rows[0][kr]) == key {
        assert FirstMatching(tail, kr, key).None? by {
          forall i | 0 <= i < |tail| ensures KeyOf(tail[i][kr]) != key {
            assert tail[i] == rows[i + 1];
          }
        }
      }
    }
  }

  /** What the right side contributes to a left row with the given key. */
  function RightPart(rrows: seq<seq<Cell>>, kr: nat, key: CellKey, width: nat): (r: seq<Cell>)
    requires KeyColumn(rrows, kr)
    requires Rows(rrows, width + 1)
  {
    match FirstMatching(rrows, kr, key)
    case None => Empties(width)
    case Some(row) => DropAt(row, kr)
  }

  lemma {:induction false} ExpandUnique(lrow: seq<Cell>, kl: nat, rrows: seq<seq<Cell>>, kr: nat, width: nat)
    requires kl < |lrow| && KeyColumn(rrows, kr) && UniqueKeys(rrows, kr)
    requires Rows(rrows, width + 1)
    ensures Expand(lrow, kl, rrows, kr, width) == [lrow + RightPart(rrows, kr, KeyOf(lrow[kl]), width)]
  {
    MatchingUnique(rrows, kr, KeyOf(lrow[kl]));
  }

  /** When the right keys are unique the merge is a lookup: one output row per
      left row, the left row followed by the matching right row (without its
      key) or by missing values. */
  lemma {:induction false} MergeRowsUnique(lrows: seq<seq<Cell>>, kl: nat, rrows: seq<seq<Cell>>, kr: nat, lw: nat, width: nat)
    requires kl < lw && Rows(lrows, lw)
    requires KeyColumn(rrows, kr) && UniqueKeys(rrows, kr)
    requires Rows(rrows, width + 1)
    ensures |MergeRows(lrows, kl, rrows, kr, lw, width)| == |lrows|
    ensures forall i :: 0 <= i < |lrows| ==>
              MergeRows(lrows, kl, rrows, kr, lw, width)[i] == lrows[i] + RightPart(rrows, kr, KeyOf(lrows[i][kl]), width)
    decreases |lrows|
  {
    if lrows != [] {
      var head := Expand(lrows[0], kl, rrows, kr, width);
      ExpandUnique(lrows[0], kl, rrows, kr, width);
      MergeRowsUnique(lrows[1..], kl, rrows, kr, lw, width);
      var all := MergeRows(lrows, kl, rrows, kr, lw, width);
      var rest := MergeRows(lrows[1..], kl, rrows, kr, lw, width);
      assert all == head + rest;
      forall i | 0 <= i < |lrows|
        ensures all[i] == lrows[i] + RightPart(rrows, kr, KeyOf(lrows[i][kl]), width)
      {
        if i > 0 {
          assert all[i] == rest[i - 1] && lrows[i] == lrows[1..][i - 1];
        }
      }
    }
  }

  /** The left merge with unique right keys keeps the row count and each left
      row as the prefix of its output row. */
  lemma {:induction false} LeftMergeUnique(l: Sheet, r: Sheet, key: string)
    requires WellFormed(l) && WellFormed(r) && Has(l, key) && Has(r, key)
    requires UniqueKeys(r.rows, ColIndex(r.columns, key).value)
    ensures |LeftMerge(l, r, key).rows| == |l.rows|
    ensures forall i :: 0 <= i < |l.rows| ==> LeftMerge(l, r, key).rows[i][..|l.columns|] == l.rows[i]
  {
    var kl := ColIndex(l.columns, key).value;
    var kr := ColIndex(r.columns, key).value;
    var w := |r.columns| - 1;
    assert LeftMerge(l, r, key).rows == MergeRows(l.rows, kl, r.rows, kr, |l.columns|, w);
    MergePrefix(l.rows, kl, r.rows, kr, |l.columns|, w);
  }

  lemma {:induction false} MergePrefix(lrows: seq<seq<Cell>>, kl: nat, rrows: seq<seq<Cell>>, kr: nat, lw: nat, width: nat)
    requires kl < lw && Rows(lrows, lw)
    requires KeyColumn(rrows, kr) && UniqueKeys(rrows, kr)
    requires Rows(rrows, width + 1)
    ensures |MergeRows(lrows, kl, rrows, kr, lw, width)| == |lrows|
    ensures forall i :: 0 <= i < |lrows| ==> MergeRows(lrows, kl, rrows, kr, lw, width)[i][..lw] == lrows[i]
  {
    var rows := MergeRows(lrows, kl, rrows, kr, lw, width);
    MergeRowsUnique(lrows, kl, rrows, kr, lw, width);
    forall i | 0 <= i < |lrows| ensures rows[i][..lw] == lrows[i] {
      var rp := RightPart(rrows, kr, KeyOf(lrows[i][kl]), width);
      assert rows[i] == lrows[i] + rp;
    }
  }
}

=== FILE: loader.dfy ===
/** Loading the workbook: the required-sheet check and the header clean-up. */
module Loader {
  import opened Common
  import opened Config
  import opened Frames

  /** The workbook as read: every sheet by name, headers stripped, or a
      rejection naming the required sheets in sorted order. */
  function ReadSheets(book: map<string, Sheet>): (r: Result<map<string, Sheet>, Error>)
    requires forall k :: k in book ==> WellFormed(book[k])
    ensures r.Err? <==> exists n :: n in RequiredSheets && n !in book
    ensures r.Err? ==> r.error == MissingSheets(RequiredSheetsSorted)
    ensures r.Ok? ==> r.value.Keys == book.Keys
    ensures r.Ok? ==> forall k :: k in book ==> WellFormed(r.value[k]) && r.value[k].rows == book[k].rows
  {
    if RequiredSheets <= book.Keys then Ok(map k | k in book :: StripHeaders(book[k]))
    else Err(MissingSheets(RequiredSheetsSorted))
  }

  /** After loading, every header of every sheet is free of surrounding white
      space and is the stripped original header. */
  lemma {:induction false} ReadSheetsHeaders(book: map<string, Sheet>, k: string)
    requires forall n :: n in book ==> WellFormed(book[n])
    requires ReadSheets(book).Ok? && k in book
    ensures |ReadSheets(book).value[k].columns| == |book[k].columns|
    ensures forall j :: 0 <= j < |book[k].columns| ==>
              ReadSheets(book).value[k].columns[j] == Strings.Strip(book[k].columns[j])
    ensures forall j :: 0 <= j < |book[k].columns| ==>
              Strings.Strip(ReadSheets(book).value[k].columns[j]) == ReadSheets(book).value[k].columns[j]
  {
    StripHeadersSpec(book[k]);
  }

  /** The listed names are exactly the required ones. */
  lemma {:induction false} RequiredListed()
    ensures forall n :: n in RequiredSheets <==> n in RequiredSheetsSorted
    ensures |RequiredSheetsSorted| == |RequiredSheets|
  {
  }
}

=== FILE: logic.dfy ===
/** The metrics engine: per-tire wear arithmetic, the tread condition bins,
    and the fleet-wide counts, percentages and replacement costs. */
module Logic {
  import opened Common
  import opened Config
  import opened Stats
  import opened Frames
  import opened Transform

  /** The three tread conditions, worst first. */
  datatype Condition = Critico | Alerta | Normal

  /** The category label the binning attaches, as the dashboard shows it. */
  function ConditionLabel(c: Condition): string
  {
    match c
    case Critico => "\U{1F534} Crítico"
    case Alerta => "\U{1F7E1} Alerta"
    case Normal => "\U{1F7E2} Ok"
  }

  /** A percentage computed by floating-point division: a finite value, a
      missing one (a missing operand, or 0/0), or an infinity (a non-zero
      value over a zero baseline, which the code does not guard). */
  datatype Pct = PMissing | PFinite(v: real) | PPosInf | PNegInf

  /** The five values computed for one tire. */
  datatype Metrics = Metrics(
    consumido: Option<real>,
    desgaste: Option<real>,
    restante: Pct,
    condicao: Option<Condition>,
    kmRestante: Option<int>)

  /** Wear rate in mm per km, defined only over a positive distance. */
  function Desgaste(consumido: Option<real>, km: Option<real>): (r: Option<real>)
    ensures r.Some? <==> consumido.Some? && km.Some? && km.value > 0.0
    ensures r.Some? ==> r.value * km.value == consumido.value
  {
    if consumido.Some? && km.Some? && km.value > 0.0 then Some(consumido.value / km.value) else None
  }

  /** Remaining tread as a percentage of the baseline, to one decimal place. */
  function PctRestante(afericao: Option<real>, inicial: Option<real>): (r: Pct)
    ensures r.PFinite? <==> afericao.Some? && inicial.Some? && inicial.value != 0.0
    ensures r.PFinite? ==> -0.05 <= r.v - afericao.value / inicial.value * 100.0 <= 0.05
    ensures r.PPosInf? <==> afericao.Some? && inicial.Some? && inicial.value == 0.0 && afericao.value > 0.0
    ensures r.PNegInf? <==> afericao.Some? && inicial.Some? && inicial.value == 0.0 && afericao.value < 0.0
  {
    if afericao.None? || inicial.None? then PMissing
    else if inicial.value != 0.0 then PFinite(Round1(afericao.value / inicial.value * 100.0))
    else if afericao.value > 0.0 then PPosInf
    else if afericao.value < 0.0 then PNegInf
    else PMissing
  }

  /** The condition bins (-1, critico], (critico, alerta] and (alerta, 99]:
      closed on the right, so a value on a limit falls in the worse bin. */
  function Bin(a: Option<real>, t: Thresholds): (r: Option<Condition>)
    requires ValidThresholds(t)
    ensures r == Some(Critico) <==> a.Some? && -1.0 < a.value <= t.criticoMm
    ensures r == Some(Alerta) <==> a.Some? && t.criticoMm < a.value <= t.alertaMm
    ensures r == Some(Normal) <==> a.Some? && t.alertaMm < a.value <= 99.0
    ensures r.None? <==> a.None? || a.value <= -1.0 || 99.0 < a.value
  {
    if a.None? || a.value <= -1.0 || 99.0 < a.value then None
    else if a.value <= t.criticoMm then Some(Critico)
    else if a.value <= t.alertaMm then Some(Alerta)
    else Some(Normal)
  }

  /** Position of a condition from worst to best; no condition ranks last. */
  function Rank(c: Option<Condition>): (r: nat)
    ensures r <= 3 && (r == 3 <==> c.None?)
  {
    match c
    case Some(Critico) => 0
    case Some(Alerta) => 1
    case Some(Normal) => 2
    case None => 3
  }

  /** More tread never gives a worse condition. */
  lemma {:induction false} BinMonotone(a: real, b: real, t: Thresholds)
    requires ValidThresholds(t) && a <= b && Bin(Some(a), t).Some? && Bin(Some(b), t).Some?
    ensures Rank(Bin(Some(a), t)) <= Rank(Bin(Some(b), t))
  {
  }

  /** The default limits on concrete readings, a limit itself falling in the worse bin. */
  lemma {:induction false} BinDefaults()
    ensures Bin(Some(2.0), DefaultThresholds) == Some(Critico)
    ensures Bin(Some(2.5), DefaultThresholds) == Some(Alerta)
    ensures Bin(Some(4.0), DefaultThresholds) == Some(Alerta)
    ensures Bin(Some(4.5), DefaultThresholds) == Some(Normal)
    ensures Bin(Some(-1.0), DefaultThresholds) == None
  {
  }

  /** Estimated km until the tread reaches the critical limit at the current
      wear rate, rounded half to even; defined only for a positive rate. */
  function KmRestante(afericao: Option<real>, desgaste: Option<real>, t: Thresholds): (r: Option<int>)
    ensures r.Some? <==> afericao.Some? && desgaste.Some? && desgaste.value > 0.0
  {
    if afericao.Some? && desgaste.Some? && desgaste.value > 0.0 then
      Some(RoundHalfEven((afericao.value - t.criticoMm) / desgaste.value))
    else None
  }

  /** The estimate times the wear rate recovers the tread left above the
      critical limit, to within half a km of wear. */
  lemma {:induction false} KmRestanteEstimate(a: real, d: real, t: Thresholds)
    requires d > 0.0
    ensures var k := KmRestante(Some(a), Some(d), t).value as real;
            -d / 2.0 <= k * d - (a - t.criticoMm) <= d / 2.0
  {
    ScaleHalf(KmRestante(Some(a), Some(d), t).value as real, a - t.criticoMm, d);
  }

  /** A whole number within one half of x / d, scaled back by d, is within
      d / 2 of x. */
  lemma {:induction false} ScaleHalf(k: real, x: real, d: real)
    requires d > 0.0 && -0.5 <= k - x / d <= 0.5
    ensures -d / 2.0 <= k * d - x <= d / 2.0
  {
    var e := k - x / d;
    assert x / d * d == x;
    assert k * d - x == e * d;
    MulNonneg(0.5 - e, d);
    MulNonneg(e + 0.5, d);
    assert (0.5 - e) * d == d / 2.0 - e * d;
    assert (e + 0.5) * d == e * d + d / 2.0;
  }

  lemma {:induction false} MulNonneg(x: real, y: real)
    requires x >= 0.0 && y >= 0.0
    ensures x * y >= 0.0
  {
  }

  /** Below the critical limit the estimate is never positive, and above it
      never negative. */
  lemma {:induction false} KmRestanteSign(a: real, d: real, t: Thresholds)
    requires d > 0.0
    ensures a < t.criticoMm ==> KmRestante(Some(a), Some(d), t).value <= 0
    ensures a >= t.criticoMm ==> KmRestante(Some(a), Some(d), t).value >= 0
    ensures t.criticoMm - a > d / 2.0 ==> KmRestante(Some(a), Some(d), t).value < 0
  {
    var q := (a - t.criticoMm) / d;
    assert q * d == a - t.criticoMm;
    if a < t.criticoMm {
      RoundMonotone(q, 0.0);
      RoundWhole(0);
    } else {
      RoundMonotone(0.0, q);
      RoundWhole(0);
    }
    if t.criticoMm - a > d / 2.0 {
      assert q < -0.5;
    }
  }

  /** All five metrics of one tire from its baseline tread, measured tread
      and km driven. */
  function RowMetrics(inicial: Option<real>, afericao: Option<real>, km: Option<real>, t: Thresholds): (r: Metrics)
    requires ValidThresholds(t)
    ensures r.consumido.Some? <==> inicial.Some? && afericao.Some?
    ensures r.consumido.Some? ==> r.consumido.value + afericao.value == inicial.value
    ensures r.desgaste.Some? <==> r.consumido.Some? && km.Some? && km.value > 0.0
    ensures r.desgaste.Some? ==> r.desgaste.value * km.value == r.consumido.value
    ensures r.desgaste.Some? ==> (r.desgaste.value > 0.0 <==> r.consumido.value > 0.0)
    ensures r.kmRestante.Some? <==> afericao.Some? && r.desgaste.Some? && r.desgaste.value > 0.0
  {
    var consumido := Diff(inicial, afericao);
    var d := Desgaste(consumido, km);
    assert d.Some? ==> (d.value > 0.0 <==> consumido.value > 0.0) by {
      if d.Some? {
        assert d.value * km.value == consumido.value;
      }
    }
    Metrics(consumido, d, PctRestante(afericao, inicial), Bin(afericao, t), KmRestante(afericao, d, t))
  }

  /** Consumed tread is not clamped: a reading above the baseline gives a
      negative value. */
  lemma {:induction false} ConsumidoNegative(t: Thresholds)
    requires ValidThresholds(t)
    ensures RowMetrics(Some(8.0), Some(9.0), Some(1000.0), t).consumido == Some(-1.0)
  {
  }

  /** The metric table: the input sheet and, beside it, one row of metrics
      per tire. */
  datatype Calc = Calc(sheet: Sheet, metrics: seq<Metrics>)

  predicate ValidCalc(c: Calc)
  {
    WellFormed(c.sheet) && |c.metrics| == |c.sheet.rows|
  }

  /** The metrics of every tire. Fails when one of the three input columns
      is absent, naming the first one the code reads. */
  function CalcMetrics(s: Sheet, t: Thresholds): (r: Result<Calc, Error>)
    requires WellFormed(s) && ValidThresholds(t)
    ensures r.Err? <==> !Has(s, SulcoInicial) || !Has(s, Afericao) || !Has(s, KmRodado)
    ensures r.Err? ==> r.error.MissingColumn?
    ensures r.Ok? ==> ValidCalc(r.value) && r.value.sheet == s
  {
    if !Has(s, SulcoInicial) then Err(MissingColumn(SulcoInicial))
    else if !Has(s, Afericao) then Err(MissingColumn(Afericao))
    else if !Has(s, KmRodado) then Err(MissingColumn(KmRodado))
    else
      var ini := Column(s, SulcoInicial);
      var af := Column(s, Afericao);
      var km := Column(s, KmRodado);
      Ok(Calc(s, seq(|s.rows|, i requires 0 <= i < |s.rows| =>
                       RowMetrics(NumOf(ini[i]), NumOf(af[i]), NumOf(km[i]), t))))
  }

  /** Each tire's condition is decided by its own measured tread alone:
      critical up to the critical limit, alert up to the alert limit, normal
      up to 99 mm, and none for a missing reading or one outside (-1, 99]. */
  lemma {:induction false} CalcCondition(s: Sheet, t: Thresholds)
    requires WellFormed(s) && ValidThresholds(t) && CalcMetrics(s, t).Ok?
    ensures forall i :: 0 <= i < |s.rows| ==>
              var a := NumOf(Column(s, Afericao)[i]); var r := CalcMetrics(s, t).value.metrics[i].condicao;
              && (r == Some(Critico) <==> a.Some? && -1.0 < a.value <= t.criticoMm)
              && (r == Some(Alerta) <==> a.Some? && t.criticoMm < a.value <= t.alertaMm)
              && (r == Some(Normal) <==> a.Some? && t.alertaMm < a.value <= 99.0)
              && (r.None? <==> a.None? || a.value <= -1.0 || 99.0 < a.value)
  {
    forall i | 0 <= i < |s.rows|
      ensures CalcMetrics(s, t).value.metrics[i].condicao == Bin(NumOf(Column(s, Afericao)[i]), t)
    {
    }
  }

  /** Tires counted under one condition. */
  function CountCond(ms: seq<Metrics>, c: Condition): (n: nat)
    ensures n <= |ms|
  {
    if ms == [] then 0
    else CountCond(ms[..|ms| - 1], c) + (if ms[|ms| - 1].condicao == Some(c) then 1 else 0)
  }

  function Conditions(ms: seq<Metrics>): (r: seq<Option<Condition>>)
    ensures |r| == |ms| && forall i :: 0 <= i < |ms| ==> r[i] == ms[i].condicao
  {
    seq(|ms|, i requires 0 <= i < |ms| => ms[i].condicao)
  }

  /** The count is the multiplicity of the condition among all tires, as a
      value count reports it. */
  lemma {:induction false} CountCondMultiplicity(ms: seq<Metrics>, c: Condition)
    ensures CountCond(ms, c) == multiset(Conditions(ms))[Some(c)]
  {
    if ms != [] {
      var n := |ms| - 1;
      CountCondMultiplicity(ms[..n], c);
      assert Conditions(ms) == Conditions(ms[..n]) + [ms[n].condicao];
    }
  }

  /** The three condition counts together never exceed the number of tires. */
  lemma {:induction false} CountsBounded(ms: seq<Metrics>)
    ensures CountCond(ms, Critico) + CountCond(ms, Alerta) + CountCond(ms, Normal) <= |ms|
  {
    if ms != [] {
      CountsBounded(ms[..|ms| - 1]);
    }
  }

  /** Cells equal to a given text. */
  function CountText(col: seq<Cell>, v: string): (n: nat)
    ensures n <= |col|
  {
    if col == [] then 0
    else CountText(col[..|col| - 1], v) + (if col[|col| - 1] == Text(v) then 1 else 0)
  }

  /** The count is the multiplicity of the text among the column's cells. */
  lemma {:induction false} CountTextMultiplicity(col: seq<Cell>, v: string)
    ensures CountText(col, v) == multiset(col)[Text(v)]
  {
    if col != [] {
      var n := |col| - 1;
      CountTextMultiplicity(col[..n], v);
      assert col == col[..n] + [col[n]];
    }
  }

  /** The distinct non-missing values of a column. */
  function DistinctKeys(col: seq<Cell>): (r: set<CellKey>)
    ensures KEmpty !in r
    ensures |r| <= |col|
  {
    if col == [] then {}
    else
      var prev := DistinctKeys(col[..|col| - 1]);
      var c := col[|col| - 1];
      if c == Empty then prev else prev + {KeyOf(c)}
  }

  /** A value is among the distinct keys exactly when some cell holds it. */
  lemma {:induction false} DistinctKeysSpec(col: seq<Cell>, k: CellKey)
    ensures k in DistinctKeys(col) <==> exists i :: 0 <= i < |col| && col[i] != Empty && KeyOf(col[i]) == k
  {
    if col != [] {
      var n := |col| - 1;
      DistinctKeysSpec(col[..n], k);
      if k in DistinctKeys(col[..n]) {
        var i :| 0 <= i < n && col[..n][i] != Empty && KeyOf(col[..n][i]) == k;
        assert col[i] == col[..n][i];
      }
      if exists i :: 0 <= i < |col| && col[i] != Empty && KeyOf(col[i]) == k {
        var i :| 0 <= i < |col| && col[i] != Empty && KeyOf(col[i]) == k;
        if i < n {
          assert col[..n][i] == col[i];
        }
      }
    }
  }

  const Referencia: string := "Referência"
  const Status: string := "Status"

  /** The fleet-wide indicators of the dashboard header. */
  datatype Kpis = Kpis(
    total: nat, estoque: nat, sucata: nat, caminhao: nat,
    criticos: nat, alerta: nat, ok: nat, pctCrit: real, pctAlt: real)

  /** Tires in the fleet: distinct references, or rows when there is no
      reference column. */
  function Total(c: Calc): (n: nat)
    requires ValidCalc(c)
    ensures n <= |c.sheet.rows|
  {
    if Has(c.sheet, Referencia) then |DistinctKeys(Column(c.sheet, Referencia))| else |c.sheet.rows|
  }

  /** Tires with a given status, none when there is no status column. */
  function StatusCount(c: Calc, v: string): (n: nat)
    requires ValidCalc(c)
    ensures n <= |c.sheet.rows|
    ensures !Has(c.sheet, Status) ==> n == 0
  {
    if Has(c.sheet, Status) then CountText(Column(c.sheet, Status), v) else 0
  }

  /** A count as a percentage of the total, to one decimal; a zero total
      counts as one. */
  function Percent(count: nat, total: nat): (r: real)
    ensures r >= 0.0
    ensures -0.05 <= r - 100.0 * count as real / (if total > 0 then total else 1) as real <= 0.05
  {
    var d := if total > 0 then total else 1;
    var r := Round1(100.0 * count as real / d as real);
    assert r >= 0.0 by {
      RoundMonotone(0.0, 100.0 * count as real / d as real * 10.0);
      RoundWhole(0);
    }
    r
  }

  function ComputeKpis(c: Calc): (k: Kpis)
    requires ValidCalc(c)
    ensures k.total <= |c.sheet.rows|
    ensures k.criticos == CountCond(c.metrics, Critico) && k.alerta == CountCond(c.metrics, Alerta)
    ensures k.ok == CountCond(c.metrics, Normal)
    ensures k.criticos + k.alerta + k.ok <= |c.sheet.rows|
    ensures !Has(c.sheet, Status) ==> k.estoque == 0 && k.sucata == 0 && k.caminhao == 0
  {
    CountsBounded(c.metrics);
    var total := Total(c);
    var crit := CountCond(c.metrics, Critico);
    var alt := CountCond(c.metrics, Alerta);
    Kpis(total, StatusCount(c, "Estoque"), StatusCount(c, "Sucata"), StatusCount(c, "Caminhão"),
         crit, alt, CountCond(c.metrics, Normal), Percent(crit, total), Percent(alt, total))
  }

  /** An empty fleet has zero percentages. */
  lemma {:induction false} KpisEmpty(c: Calc)
    requires ValidCalc(c) && c.sheet.rows == []
    ensures ComputeKpis(c).total == 0 && ComputeKpis(c).pctCrit == 0.0 && ComputeKpis(c).pctAlt == 0.0
  {
    Round1Grid(0);
  }

  /** Without a reference column the percentages are shares of the rows and
      never exceed one hundred. */
  lemma {:induction false} KpisShare(c: Calc)
    requires ValidCalc(c) && !Has(c.sheet, Referencia)
    ensures ComputeKpis(c).pctCrit <= 100.0 && ComputeKpis(c).pctAlt <= 100.0
  {
    var k := ComputeKpis(c);
    var d := if k.total > 0 then k.total else 1;
    PercentAtMost(k.criticos, d);
    PercentAtMost(k.alerta, d);
  }

  lemma {:induction false} PercentAtMost(count: nat, total: nat)
    requires 0 < total && count <= total
    ensures Percent(count, total) <= 100.0
  {
    var x := 100.0 * count as real / total as real;
    assert x <= 100.0;
    RoundMonotone(x * 10.0, 1000.0);
    RoundWhole(1000);
  }

  /** The replacement budget for the critical tires. */
  datatype Costs = Costs(qtdCriticos: real, custoTroca: real, custoParada: real)

  /** A quantity times a unit price, a negative price counting as zero. */
  function CostOf(qtd: nat, price: real): (r: real)
    ensures r >= 0.0
    ensures price >= 0.0 ==> r == qtd as real * price
    ensures price <= 0.0 ==> r == 0.0
  {
    qtd as real * (if price > 0.0 then price else 0.0)
  }

  /** More critical tires never cost less. */
  lemma {:induction false} CostMonotone(q1: nat, q2: nat, price: real)
    requires q1 <= q2
    ensures CostOf(q1, price) <= CostOf(q2, price)
  {
  }

  /** One unit of each price per critical tire: the replacement price and
      one hour of downtime. */
  function EstimarCustos(c: Calc, custoPneu: real, custoParadaHora: real): (r: Costs)
    requires ValidCalc(c)
    ensures r.qtdCriticos == CountCond(c.metrics, Critico) as real
    ensures r.custoTroca >= 0.0 && r.custoParada >= 0.0
    ensures r.qtdCriticos == ComputeKpis(c).criticos as real
  {
    var qtd := CountCond(c.metrics, Critico);
    Costs(qtd as real, CostOf(qtd, custoPneu), CostOf(qtd, custoParadaHora))
  }

  /** Three critical tires at the default prices. */
  lemma {:induction false} CostsExample(c: Calc)
    requires ValidCalc(c) && CountCond(c.metrics, Critico) == 3
    ensures EstimarCustos(c, DefaultCustoPneu, DefaultCustoParadaHora) == Costs(3.0, 3600.0, 900.0)
  {
  }
}

=== FILE: numbers.dfy ===
/** Locale-tolerant number parsing (`to_float`) and extraction of a
    "NNN.NNN km" reading from free text (`extrair_km_observacao`). */
module Numbers {
  import opened Common
  import opened Chars
  import opened Strings

  predicate AllDigits(s: string)
  {
    forall i :: 0 <= i < |s| ==> IsDigit(s[i])
  }

  function Pow10(n: nat): (p: nat)
    ensures p >= 1
  {
    if n == 0 then 1 else 10 * Pow10(n - 1)
  }

  /** Value of a run of decimal digits, most significant first; leading
      zeros are allowed. */
  function DigitsValue(s: string): nat
    requires AllDigits(s)
  {
    if s == [] then 0 else 10 * DigitsValue(s[..|s| - 1]) + DigitValue(s[|s| - 1])
  }

  lemma {:induction false} DigitsValueBound(s: string)
    requires AllDigits(s)
    ensures DigitsValue(s) < Pow10(|s|)
  {
    if s != [] {
      DigitsValueBound(s[..|s| - 1]);
    }
  }

  /** Value of the digits after a decimal point. */
  function Fraction(s: string): real
    requires AllDigits(s)
  {
    DigitsValue(s) as real / Pow10(|s|) as real
  }

  /** Decimal rendering of a natural number, without leading zeros. */
  function ShowNat(n: nat): (s: string)
    ensures s != [] && AllDigits(s)
  {
    if n < 10 then [('0' as int + n) as char] else ShowNat(n / 10) + [('0' as int + n % 10) as char]
  }

  /** Reading back a rendered number gives the number. */
  lemma {:induction false} ShowNatValue(n: nat)
    ensures DigitsValue(ShowNat(n)) == n
  {
    if n >= 10 {
      var s := ShowNat(n);
      assert s[..|s| - 1] == ShowNat(n / 10);
      ShowNatValue(n / 10);
    }
  }

  /** Index of the first occurrence of `c`, or `|s|` when there is none. */
  function FirstIndex(s: string, c: char): (k: nat)
    ensures k <= |s| && (k < |s| ==> s[k] == c)
    ensures forall i :: 0 <= i < k ==> s[i] != c
  {
    if s == [] then 0 else if s[0] == c then 0 else 1 + FirstIndex(s[1..], c)
  }

  /** `s.replace(c, "")`. */
  function RemoveChar(s: string, c: char): string
  {
    if s == [] then []
    else (if s[0] == c then [] else [s[0]]) + RemoveChar(s[1..], c)
  }

  /** Removal leaves no `c` behind and never lengthens the text. */
  lemma {:induction false} RemoveCharGone(s: string, c: char)
    ensures |RemoveChar(s, c)| <= |s|
    ensures forall i :: 0 <= i < |RemoveChar(s, c)| ==> RemoveChar(s, c)[i] != c
  {
    if s != [] {
      RemoveCharGone(s[1..], c);
    }
  }

  /** Removing a character that does not occur changes nothing. */
  lemma {:induction false} RemoveCharAbsent(s: string, c: char)
    requires forall i :: 0 <= i < |s| ==> s[i] != c
    ensures RemoveChar(s, c) == s
  {
    if s != [] {
      RemoveCharAbsent(s[1..], c);
      assert [s[0]] + s[1..] == s;
    }
  }

  /** Removing the single occurrence of `c` splices its two sides. */
  lemma {:induction false} RemoveOne(a: string, b: string, c: char)
    requires forall i :: 0 <= i < |a| ==> a[i] != c
    requires forall i :: 0 <= i < |b| ==> b[i] != c
    ensures RemoveChar(a + [c] + b, c) == a + b
  {
    assert a + [c] + b == a + ([c] + b);
    RemoveCharAppend(a, [c] + b, c);
    RemoveCharAbsent(a, c);
    RemoveCharAbsent(b, c);
    assert RemoveChar([c] + b, c) == RemoveChar(b, c) by {
      assert ([c] + b)[1..] == b;
    }
  }

  /** Removing the dots of digits-and-dots leaves only digits. */
  lemma {:induction false} RemoveDotsDigits(g: string)
    requires GroupedDigits(g)
    ensures AllDigits(RemoveChar(g, '.'))
  {
    if g != [] {
      RemoveDotsDigits(g[1..]);
      var h := if g[0] == '.' then [] else [g[0]];
      var r := RemoveChar(g[1..], '.');
      assert RemoveChar(g, '.') == h + r;
      assert forall i :: 0 <= i < |h + r| ==> (h + r)[i] == (if i < |h| then h[i] else r[i - |h|]);
    }
  }

  /** `s.replace(c, d)`. */
  function ReplaceChar(s: string, c: char, d: char): (r: string)
    ensures |r| == |s|
    ensures forall i :: 0 <= i < |s| ==> r[i] == (if s[i] == c then d else s[i])
  {
    seq(|s|, i requires 0 <= i < |s| => if s[i] == c then d else s[i])
  }

  /** The text rewrite of `to_float`: when both ',' and '.' occur, '.' is a
      thousands separator (removed) and ',' the decimal point; otherwise every
      ',' becomes '.'. No ',' survives either way. */
  function LocaleRewrite(t: string): (r: string)
    ensures forall i :: 0 <= i < |r| ==> r[i] != ','
    ensures !(',' in t && '.' in t) ==> |r| == |t|
  {
    if ',' in t && '.' in t then ReplaceChar(RemoveChar(t, '.'), ',', '.') else ReplaceChar(t, ',', '.')
  }

  /** Text without a comma passes the locale rewrite unchanged. */
  lemma {:induction false} LocaleNoComma(t: string)
    requires ',' !in t
    ensures LocaleRewrite(t) == t
  {
  }

  /** A mantissa split at its point into integer digits `ip` and fraction
      digits `fp`; at least one digit overall. */
  function Mantissa(ip: string, fp: string): (r: Option<real>)
    ensures r.Some? ==> r.value >= 0.0
  {
    if |ip| + |fp| > 0 && AllDigits(ip) && AllDigits(fp) then Some(DigitsValue(ip) as real + Fraction(fp)) else None
  }

  /** Python's `float()` on an unsigned mantissa: digits with at most one
      '.', and at least one digit. */
  function ParseUnsigned(u: string): (r: Option<real>)
    ensures r.Some? ==> r.value >= 0.0
  {
    var k := FirstIndex(u, '.');
    Mantissa(u[..k], if k < |u| then u[k + 1..] else [])
  }

  /** Python's `float()` on `[sign] mantissa`; anything else fails (None). */
  function ParseDecimal(u: string): Option<real>
  {
    if |u| > 0 && (u[0] == '+' || u[0] == '-') then
      match ParseUnsigned(u[1..])
      case None => None
      case Some(v) => Some(if u[0] == '-' then -v else v)
    else
      ParseUnsigned(u)
  }

  /** What an accepted mantissa looks like: only digits and dots, and at
      least one digit. */
  lemma {:induction false} ParseUnsignedShape(u: string)
    requires ParseUnsigned(u).Some?
    ensures forall i :: 0 <= i < |u| ==> IsDigit(u[i]) || u[i] == '.'
    ensures exists i :: 0 <= i < |u| && IsDigit(u[i])
  {
    var k := FirstIndex(u, '.');
    var fp := if k < |u| then u[k + 1..] else [];
    assert forall i :: k < i < |u| ==> u[i] == fp[i - k - 1];
    if k > 0 {
      assert IsDigit(u[..k][0]);
    } else {
      assert IsDigit(fp[0]);
    }
  }

  /** What an accepted number looks like: an optional sign, then only digits
      and dots, with at least one digit. */
  lemma {:induction false} ParseDecimalShape(u: string)
    requires ParseDecimal(u).Some?
    ensures forall i :: 0 < i < |u| ==> IsDigit(u[i]) || u[i] == '.'
    ensures exists i :: 0 <= i < |u| && IsDigit(u[i])
  {
    if |u| > 0 && (u[0] == '+' || u[0] == '-') {
      ParseUnsignedShape(u[1..]);
      assert forall i :: 0 < i < |u| ==> u[i] == u[1..][i - 1];
      var j :| 0 <= j < |u[1..]| && IsDigit(u[1..][j]);
      assert IsDigit(u[j + 1]);
    } else {
      ParseUnsignedShape(u);
    }
  }

  /** A plain decimal "ip.fp" parses to its value. */
  lemma {:induction false} ParseUnsignedPoint(ip: string, fp: string)
    requires AllDigits(ip) && AllDigits(fp) && |ip| + |fp| > 0
    ensures ParseUnsigned(ip + "." + fp) == Some(DigitsValue(ip) as real + Fraction(fp))
  {
    var u := ip + "." + fp;
    assert FirstIndex(u, '.') == |ip| by {
      assert u[|ip|] == '.';
      assert forall i :: 0 <= i < |ip| ==> u[i] == ip[i];
    }
    assert u[..|ip|] == ip;
    assert u[|ip| + 1..] == fp;
    assert ParseUnsigned(u) == Mantissa(ip, fp);
  }

  /** `to_float`: missing gives None, a number passes through, text is
      stripped, rewritten for the locale and parsed; it never fails. */
  function ToFloat(c: Cell): (r: Option<real>)
    ensures c.Empty? ==> r == None
    ensures c.Num? ==> r == Some(c.x)
    ensures c.Text? && r.Some? ==> Strip(c.s) != []
  {
    match c
    case Empty => None
    case Num(x, _) => Some(x)
    case Text(s) =>
      assert Strip(s) == [] ==> LocaleRewrite(Strip(s)) == [];
      ParseDecimal(LocaleRewrite(Strip(s)))
  }

  predicate GroupedDigits(g: string)
  {
    forall i :: 0 <= i < |g| ==> IsDigit(g[i]) || g[i] == '.'
  }

  /** Unfolds the text case of `ToFloat`, for the lemmas below. */
  lemma {:induction false} ToFloatText(s: string)
    ensures ToFloat(Text(s)) == ParseDecimal(LocaleRewrite(Strip(s)))
  {
  }

  /** White space around a number does not matter: the text and its
      stripped form convert alike. */
  lemma {:induction false} ToFloatStripped(s: string)
    ensures ToFloat(Text(Strip(s))) == ToFloat(Text(s))
  {
    StripSpec(s);
    StripTrimmed(Strip(s));
    ToFloatText(s);
    ToFloatText(Strip(s));
  }

  lemma {:induction false} ParseNoSign(u: string)
    requires u != [] && IsDigit(u[0])
    ensures ParseDecimal(u) == ParseUnsigned(u)
  {
  }

  lemma {:induction false} StripDigits(s: string)
    requires s != [] && GroupedDigits(s)
    ensures Strip(s) == s
  {
    StripTrimmed(s);
  }

  lemma {:induction false} ParseWhole(s: string)
    requires s != [] && AllDigits(s)
    ensures ParseUnsigned(s) == Some(DigitsValue(s) as real)
  {
    assert FirstIndex(s, '.') == |s|;
    assert s[..|s|] == s;
    assert Fraction([]) == 0.0;
  }

  /** Text made only of digits parses to its value. */
  lemma {:induction false} ToFloatDigits(s: string)
    requires s != [] && AllDigits(s)
    ensures ToFloat(Text(s)) == Some(DigitsValue(s) as real)
  {
    StripDigits(s);
    assert LocaleRewrite(s) == s by {
      assert ',' !in s;
    }
    ParseWhole(s);
    ParseNoSign(s);
    ToFloatText(s);
  }

  /** A rendered whole number parses back to itself. */
  lemma {:induction false} ToFloatShowNat(n: nat)
    ensures ToFloat(Text(ShowNat(n))) == Some(n as real)
  {
    ToFloatDigits(ShowNat(n));
    ShowNatValue(n);
  }

  /** "ip.fp" with a leading digit parses to ip + 0.fp. */
  lemma {:induction false} ParsePoint(ip: string, fp: string)
    requires AllDigits(ip) && AllDigits(fp) && ip != []
    ensures ParseDecimal(ip + "." + fp) == Some(DigitsValue(ip) as real + Fraction(fp))
  {
    ParseUnsignedPoint(ip, fp);
    assert (ip + "." + fp)[0] == ip[0];
    ParseNoSign(ip + "." + fp);
  }

  lemma {:induction false} StripNumberText(ip: string, fp: string, sep: string)
    requires ip != [] && fp != [] && IsDigit(ip[0]) && IsDigit(fp[|fp| - 1])
    ensures Strip(ip + sep + fp) == ip + sep + fp
  {
    var t := ip + sep + fp;
    assert t[0] == ip[0] && t[|t| - 1] == fp[|fp| - 1];
    StripTrimmed(t);
  }

  lemma {:induction false} RewriteComma(ip: string, fp: string)
    requires AllDigits(ip) && AllDigits(fp)
    ensures LocaleRewrite(ip + "," + fp) == ip + "." + fp
  {
    var t := ip + "," + fp;
    assert forall i :: 0 <= i < |t| ==> t[i] == (if i < |ip| then ip[i] else if i == |ip| then ',' else fp[i - |ip| - 1]);
    assert '.' !in t;
  }

  /** Comma as decimal separator: "ip,fp" reads as ip + 0.fp. */
  lemma {:induction false} ToFloatDecimalComma(ip: string, fp: string)
    requires AllDigits(ip) && AllDigits(fp) && ip != [] && fp != []
    ensures ToFloat(Text(ip + "," + fp)) == Some(DigitsValue(ip) as real + Fraction(fp))
  {
    StripNumberText(ip, fp, ",");
    RewriteComma(ip, fp);
    ParsePoint(ip, fp);
    ToFloatText(ip + "," + fp);
  }

  lemma {:induction false} UndotDigits(g: string)
    requires GroupedDigits(g) && g != [] && IsDigit(g[0])
    ensures AllDigits(RemoveChar(g, '.')) && RemoveChar(g, '.') != []
  {
    RemoveDotsDigits(g);
    assert RemoveChar(g, '.') == [g[0]] + RemoveChar(g[1..], '.');
  }

  lemma {:induction false} BothSeparators(g: string, fp: string)
    requires '.' in g
    ensures ',' in g + "," + fp && '.' in g + "," + fp
  {
    var t := g + "," + fp;
    assert t[|g|] == ',';
    var i :| 0 <= i < |g| && g[i] == '.';
    assert t[i] == '.';
  }

  lemma {:induction false} UndotTail(g: string, fp: string)
    requires AllDigits(fp)
    ensures RemoveChar(g + "," + fp, '.') == RemoveChar(g, '.') + "," + fp
  {
    assert g + "," + fp == g + ("," + fp);
    RemoveCharAppend(g, "," + fp, '.');
    RemoveCharAbsent("," + fp, '.');
  }

  lemma {:induction false} CommaToPoint(ip: string, fp: string)
    requires AllDigits(ip) && AllDigits(fp)
    ensures ReplaceChar(ip + "," + fp, ',', '.') == ip + "." + fp
  {
    var t := ip + "," + fp;
    assert forall i :: 0 <= i < |t| ==> t[i] == (if i < |ip| then ip[i] else if i == |ip| then ',' else fp[i - |ip| - 1]);
  }

  lemma {:induction false} RewriteThousands(g: string, fp: string)
    requires GroupedDigits(g) && '.' in g && AllDigits(fp)
    ensures LocaleRewrite(g + "," + fp) == RemoveChar(g, '.') + "." + fp
  {
    BothSeparators(g, fp);
    UndotTail(g, fp);
    RemoveDotsDigits(g);
    CommaToPoint(RemoveChar(g, '.'), fp);
  }

  /** Dots as thousands separators and a comma as the decimal separator:
      "1.234,5" style text reads as the digits without the dots (`ip`),
      plus the fraction. */
  lemma {:induction false} ToFloatThousands(g: string, fp: string, ip: string)
    requires GroupedDigits(g) && g != [] && IsDigit(g[0]) && '.' in g
    requires AllDigits(fp) && fp != []
    requires ip == RemoveChar(g, '.')
    ensures AllDigits(ip)
    ensures ToFloat(Text(g + "," + fp)) == Some(DigitsValue(ip) as real + Fraction(fp))
  {
    StripNumberText(g, fp, ",");
    RewriteThousands(g, fp);
    UndotDigits(g);
    ParsePoint(ip, fp);
  }

  lemma {:induction false} StripExample()
    ensures Strip("1.234,5") == "1.234,5" && Strip("3,5") == "3,5"
  {
    StripTrimmed("1.234,5");
    StripTrimmed("3,5");
  }

  lemma {:induction false} UndotExample()
    ensures RemoveChar("1.234", '.') == "1234"
  {
    assert "1" + "." + "234" == "1.234";
    RemoveOne("1", "234", '.');
    assert "1" + "234" == "1234";
  }

  lemma {:induction false} RewriteThousandsExample()
    ensures LocaleRewrite("1.234,5") == "1234.5"
  {
    assert "1.234"[1] == '.';
    RewriteThousands("1.234", "5");
    UndotExample();
    assert "1.234" + "," + "5" == "1.234,5";
    assert "1234" + "." + "5" == "1234.5";
  }

  lemma {:induction false} RewriteCommaExample()
    ensures LocaleRewrite("3,5") == "3.5"
  {
    assert "3,5"[1] == ',';
    assert '.' !in "3,5";
  }

  lemma {:induction false} ParseThousandsExample()
    ensures ParseDecimal("1234.5") == Some(1234.5)
  {
    ParsePoint("1234", "5");
    assert "1234" + "." + "5" == "1234.5";
    assert DigitsValue("1234") == 1234 by {
      assert "1234"[..3] == "123" && "123"[..2] == "12" && "12"[..1] == "1" && "1"[..0] == "";
    }
    assert Fraction("5") == 0.5 by { assert "5"[..0] == ""; }
  }

  lemma {:induction false} ParseCommaExample()
    ensures ParseDecimal("3.5") == Some(3.5)
  {
    ParsePoint("3", "5");
    assert "3" + "." + "5" == "3.5";
    assert DigitsValue("3") == 3 by { assert "3"[..0] == ""; }
    assert Fraction("5") == 0.5 by { assert "5"[..0] == ""; }
  }

  /** The worked examples of the locale rule: "1.234,5" reads as 1234.5 and
      "3,5" as 3.5. */
  lemma {:induction false} ToFloatExamples()
    ensures ToFloat(Text("1.234,5")) == Some(1234.5)
    ensures ToFloat(Text("3,5")) == Some(3.5)
  {
    StripExample();
    RewriteThousandsExample();
    RewriteCommaExample();
    ParseThousandsExample();
    ParseCommaExample();
  }

  /** Trimmed text without a comma reaches the parser unchanged. */
  lemma {:induction false} PlainText(t: string)
    requires t != [] && !IsSpace(t[0]) && !IsSpace(t[|t| - 1]) && ',' !in t
    ensures ToFloat(Text(t)) == ParseDecimal(t)
  {
    StripTrimmed(t);
    LocaleNoComma(t);
    ToFloatText(t);
  }

  /** Empty text and words degrade to None. */
  lemma ToFloatRejectsWord()
    ensures ToFloat(Text("")) == None
    ensures ToFloat(Text("abc")) == None
  {
    assert ParseDecimal("abc") == None by {
      assert FirstIndex("abc", '.') == 3;
      assert !IsDigit("abc"[0]);
    }
    PlainText("abc");
  }

  /** Two decimal points degrade to None. */
  lemma ToFloatRejectsTwoPoints()
    ensures ToFloat(Text("1.2.3")) == None
  {
    assert ParseDecimal("1.2.3") == None by {
      assert FirstIndex("1.2.3", '.') == 1;
      assert "1.2.3"[2..] == "2.3";
      assert !AllDigits("2.3") by { assert "2.3"[1] == '.'; }
    }
    PlainText("1.2.3");
  }

  lemma {:induction false} RemoveCharAppend(a: string, b: string, c: char)
    ensures RemoveChar(a + b, c) == RemoveChar(a, c) + RemoveChar(b, c)
  {
    if a == [] {
      assert a + b == b;
    } else {
      var h := if a[0] == c then [] else [a[0]];
      assert (a + b)[0] == a[0];
      assert (a + b)[1..] == a[1..] + b;
      RemoveCharAppend(a[1..], b, c);
      assert h + (RemoveChar(a[1..], c) + RemoveChar(b, c)) == (h + RemoveChar(a[1..], c)) + RemoveChar(b, c);
    }
  }

  // ---------------------------------------------------------------------
  // Distance reading: the pattern (\d[\d.]*)\s*km, case-insensitive.

  predicate IsRunChar(c: char)
  {
    IsDigit(c) || c == '.'
  }

  /** Characters that match 'k' / 'm' case-insensitively (the KELVIN SIGN
      U+212A matches 'k' under Unicode case folding). */
  predicate IsK(c: char) { c == 'k' || c == 'K' || c == '\U{212A}' }
  predicate IsM(c: char) { c == 'm' || c == 'M' }

  /** End of the maximal run of digits and dots starting at `j`. */
  function RunEnd(s: string, j: nat): (e: nat)
    requires j <= |s|
    ensures j <= e <= |s|
    ensures forall p :: j <= p < e ==> IsRunChar(s[p])
    ensures e == |s| || !IsRunChar(s[e])
    decreases |s| - j
  {
    if j < |s| && IsRunChar(s[j]) then RunEnd(s, j + 1) else j
  }

  /** End of the maximal run of white space starting at `j`. */
  function SpaceEnd(s: string, j: nat): (e: nat)
    requires j <= |s|
    ensures j <= e <= |s|
    ensures forall p :: j <= p < e ==> IsSpace(s[p])
    ensures e == |s| || !IsSpace(s[e])
    decreases |s| - j
  {
    if j < |s| && IsSpace(s[j]) then SpaceEnd(s, j + 1) else j
  }

  /** The pattern matches at `i`, with the greedy run and the greedy white
      space: once the greedy choice fails, shorter ones fail too, because a
      digit or dot is never white space nor a 'k'. */
  predicate MatchesAt(s: string, i: int)
  {
    0 <= i < |s| && IsDigit(s[i])
    && var k := SpaceEnd(s, RunEnd(s, i + 1)); k + 1 < |s| && IsK(s[k]) && IsM(s[k + 1])
  }

  /** The regular expression's own reading: group `s[i..j]`, white space
      `s[j..k]`, then "km". */
  predicate RegexMatch(s: string, i: int, j: int, k: int)
  {
    && 0 <= i < j <= k && k + 1 < |s|
    && IsDigit(s[i])
    && (forall p :: i < p < j ==> IsRunChar(s[p]))
    && (forall p :: j <= p < k ==> IsSpace(s[p]))
    && IsK(s[k]) && IsM(s[k + 1])
  }

  /** The pattern matches at `i` exactly when some split of the text into
      group, white space and "km" exists there, and the group is then the
      greedy run. */
  lemma {:induction false} MatchesAtRegex(s: string, i: int)
    ensures MatchesAt(s, i) ==> RegexMatch(s, i, RunEnd(s, i + 1), SpaceEnd(s, RunEnd(s, i + 1)))
    ensures forall j, k :: RegexMatch(s, i, j, k) ==> MatchesAt(s, i) && j == RunEnd(s, i + 1)
  {
    forall j, k | RegexMatch(s, i, j, k)
      ensures MatchesAt(s, i) && j == RunEnd(s, i + 1)
    {
      RunEndAt(s, i + 1, j);
      SpaceEndAt(s, j, k);
    }
  }

  lemma {:induction false} RunEndAt(s: string, j: nat, e: nat)
    requires j <= e < |s| && !IsRunChar(s[e])
    requires forall p :: j <= p < e ==> IsRunChar(s[p])
    ensures RunEnd(s, j) == e
    decreases e - j
  {
    if j < e {
      RunEndAt(s, j + 1, e);
    }
  }

  lemma {:induction false} SpaceEndAt(s: string, j: nat, e: nat)
    requires j <= e < |s| && !IsSpace(s[e])
    requires forall p :: j <= p < e ==> IsSpace(s[p])
    ensures SpaceEnd(s, j) == e
    decreases e - j
  {
    if j < e {
      SpaceEndAt(s, j + 1, e);
    }
  }

  /** Leftmost position at or after `from` where the pattern matches. */
  function FirstMatch(s: string, from: nat): (r: Option<nat>)
    ensures r.Some? ==> from <= r.value && MatchesAt(s, r.value)
    ensures r.Some? ==> forall p :: from <= p < r.value ==> !MatchesAt(s, p)
    ensures r.None? ==> forall p :: from <= p ==> !MatchesAt(s, p)
    decreases |s| - from
  {
    if from >= |s| then None
    else if MatchesAt(s, from) then Some(from)
    else FirstMatch(s, from + 1)
  }

  /** The matched group `s[i..RunEnd]` with its dots removed is a non-empty
      run of digits. */
  lemma {:induction false} GroupDigits(s: string, i: nat)
    requires MatchesAt(s, i)
    ensures var d := RemoveChar(s[i..RunEnd(s, i + 1)], '.'); AllDigits(d) && d != []
  {
    var g := s[i..RunEnd(s, i + 1)];
    assert forall p :: 0 <= p < |g| ==> g[p] == s[i + p];
    UndotDigits(g);
  }

  /** `extrair_km_observacao` on text: the leftmost match's group with the
      dots removed, read as a whole number; None when nothing matches. */
  function ExtractKmText(s: string): (r: Option<real>)
    ensures r.Some? <==> exists i :: MatchesAt(s, i)
    ensures r.Some? ==> exists i :: MatchesAt(s, i) && (forall p :: 0 <= p < i ==> !MatchesAt(s, p))
                                    && AllDigits(RemoveChar(s[i..RunEnd(s, i + 1)], '.'))
                                    && r.value == DigitsValue(RemoveChar(s[i..RunEnd(s, i + 1)], '.')) as real
    ensures r.Some? ==> r.value >= 0.0 && r.value == r.value.Floor as real
  {
    match FirstMatch(s, 0)
    case None => None
    case Some(i) =>
      GroupDigits(s, i);
      Some(DigitsValue(RemoveChar(s[i..RunEnd(s, i + 1)], '.')) as real)
  }

  /** `extrair_km_observacao` on a cell: missing gives None, anything else is
      searched in its `str()` text. */
  function ExtractKm(c: Cell): (r: Option<real>)
    ensures c.Empty? ==> r.None?
    ensures c.Text? ==> r == ExtractKmText(c.s)
    ensures c.Num? ==> r == ExtractKmText(c.shown)
    ensures c.Text? ==> (r.Some? <==> exists i :: MatchesAt(c.s, i))
    ensures c.Num? ==> (r.Some? <==> exists i :: MatchesAt(c.shown, i))
    ensures r.Some? ==> r.value >= 0.0 && r.value == r.value.Floor as real
  {
    match c
    case Empty => None
    case Num(_, shown) => ExtractKmText(shown)
    case Text(s) => ExtractKmText(s)
  }

  /** A reading written as "<n> km" is extracted back as n. */
  lemma {:induction false} ExtractShownKm(n: nat)
    ensures ExtractKmText(ShowNat(n) + " km") == Some(n as real)
  {
    var d := ShowNat(n);
    var s := d + " km";
    assert s[0] == d[0];
    assert forall p :: 0 <= p < |d| ==> s[p] == d[p];
    assert s[|d|] == ' ' && s[|d| + 1] == 'k' && s[|d| + 2] == 'm';
    RunEndAt(s, 1, |d|);
    SpaceEndAt(s, |d|, |d| + 1);
    assert MatchesAt(s, 0);
    assert s[0..RunEnd(s, 1)] == d;
    RemoveCharAbsent(d, '.');
    ShowNatValue(n);
  }

  lemma {:induction false} UndotKmExample()
    ensures RemoveChar("45.000", '.') == "45000"
  {
    assert "45" + "." + "000" == "45.000";
    RemoveOne("45", "000", '.');
    assert "45" + "000" == "45000";
  }

  lemma {:induction false} Value45000()
    ensures AllDigits("45000") && DigitsValue("45000") == 45000
  {
    assert "45000"[..4] == "4500" && "4500"[..3] == "450" && "450"[..2] == "45" && "45"[..1] == "4" && "4"[..0] == "";
  }

  lemma {:induction false} MatchKmExample()
    ensures FirstMatch("Troca em 45.000 km", 0) == Some(9)
    ensures RunEnd("Troca em 45.000 km", 10) == 15
  {
    var s := "Troca em 45.000 km";
    assert forall p :: 0 <= p < 9 ==> !IsDigit(s[p]);
    RunEndAt(s, 10, 15);
    SpaceEndAt(s, 15, 16);
    assert MatchesAt(s, 9);
  }

  /** The worked example: "Troca em 45.000 km" gives 45000. */
  lemma {:induction false} ExtractKmExample()
    ensures ExtractKmText("Troca em 45.000 km") == Some(45000.0)
  {
    MatchKmExample();
    assert "Troca em 45.000 km"[9..15] == "45.000";
    UndotKmExample();
    Value45000();
  }
}

=== FILE: stats.dfy ===
/** Order statistics and rounding on exact reals: the median that the
    group-by fills use, and round-half-to-even as `round` and `np.round`
    apply it (without binary floating-point error). */
module Stats {

  predicate Sorted(s: seq<real>)
  {
    forall i, j :: 0 <= i <= j < |s| ==> s[i] <= s[j]
  }

  function Insert(x: real, s: seq<real>): (r: seq<real>)
    requires Sorted(s)
    ensures Sorted(r) && multiset(r) == multiset(s) + multiset{x}
  {
    if s == [] || x <= s[0] then [x] + s
    else
      var t := Insert(x, s[1..]);
      InsertStep(x, s, t);
      [s[0]] + t
  }

  /** The step case of insertion: the head stays in front of everything inserted after it. */
  lemma {:induction false} InsertStep(x: real, s: seq<real>, t: seq<real>)
    requires Sorted(s) && s != [] && s[0] < x
    requires Sorted(t) && multiset(t) == multiset(s[1..]) + multiset{x}
    ensures Sorted([s[0]] + t) && multiset([s[0]] + t) == multiset(s) + multiset{x}
  {
    assert multiset(s) == multiset{s[0]} + multiset(s[1..]) by {
      assert s == [s[0]] + s[1..];
    }
    assert forall k :: 0 <= k < |t| ==> s[0] <= t[k] by {
      forall k | 0 <= k < |t| ensures s[0] <= t[k] {
        assert t[k] in multiset(t);
        if t[k] != x {
          assert t[k] in multiset(s[1..]);
        }
      }
    }
    var r := [s[0]] + t;
    forall i, j | 0 <= i <= j < |r| ensures r[i] <= r[j] {
      if i > 0 {
        assert r[i] == t[i - 1] && r[j] == t[j - 1];
      } else if j > 0 {
        assert r[j] == t[j - 1];
      }
    }
  }

  function Sort(s: seq<real>): (r: seq<real>)
    ensures Sorted(r) && multiset(r) == multiset(s)
  {
    if s == [] then []
    else
      assert s == [s[0]] + s[1..];
      Insert(s[0], Sort(s[1..]))
  }

  /** Two sorted arrangements of the same values are the same sequence. */
  lemma {:induction false} SortedUnique(a: seq<real>, b: seq<real>)
    requires Sorted(a) && Sorted(b) && multiset(a) == multiset(b)
    ensures a == b
    decreases |a|
  {
    assert |a| == |multiset(a)| == |multiset(b)| == |b|;
    if a != [] {
      assert a[0] == b[0] by {
        SortedHead(b, a[0]);
        SortedHead(a, b[0]);
      }
      SortedTail(a);
      SortedTail(b);
      SortedUnique(a[1..], b[1..]);
      assert a == [a[0]] + a[1..] && b == [b[0]] + b[1..];
    }
  }

  /** Dropping the head keeps a sequence sorted and removes one copy of the head. */
  lemma {:induction false} SortedTail(s: seq<real>)
    requires Sorted(s) && s != []
    ensures Sorted(s[1..]) && multiset(s[1..]) == multiset(s) - multiset{s[0]}
  {
    assert s == [s[0]] + s[1..];
  }

  /** The head of a sorted sequence is its least element. */
  lemma {:induction false} SortedHead(s: seq<real>, v: real)
    requires Sorted(s) && v in multiset(s)
    ensures s[0] <= v
  {
    var i :| 0 <= i < |s| && s[i] == v;
  }

  function Min(s: seq<real>): (m: real)
    requires s != []
    ensures m in s && forall i :: 0 <= i < |s| ==> m <= s[i]
  {
    if |s| == 1 then s[0]
    else
      var m := Min(s[1..]);
      assert forall i :: 1 <= i < |s| ==> s[i] == s[1..][i - 1];
      if s[0] <= m then s[0] else m
  }

  function Max(s: seq<real>): (m: real)
    requires s != []
    ensures m in s && forall i :: 0 <= i < |s| ==> s[i] <= m
  {
    if |s| == 1 then s[0]
    else
      var m := Max(s[1..]);
      assert forall i :: 1 <= i < |s| ==> s[i] == s[1..][i - 1];
      if m <= s[0] then s[0] else m
  }

  /** The median as the group-by median computes it: the middle value of the
      sorted sample, or the mean of the two middle values when the count is even. */
  function Median(s: seq<real>): (r: real)
    requires s != []
  {
    var t := Sort(s);
    var n := |t|;
    if n % 2 == 1 then t[n / 2] else (t[n / 2 - 1] + t[n / 2]) / 2.0
  }

  lemma {:induction false} SortedBounds(s: seq<real>)
    requires s != []
    ensures |Sort(s)| == |s|
    ensures forall k :: 0 <= k < |s| ==> Min(s) <= Sort(s)[k] <= Max(s)
  {
    var t := Sort(s);
    assert |t| == |multiset(t)| == |multiset(s)| == |s|;
    forall k | 0 <= k < |t| ensures Min(s) <= t[k] <= Max(s) {
      assert t[k] in multiset(s);
      var i :| 0 <= i < |s| && s[i] == t[k];
    }
  }

  /** The median lies between the smallest and the largest sample. */
  lemma {:induction false} MedianBounds(s: seq<real>)
    requires s != []
    ensures Min(s) <= Median(s) <= Max(s)
  {
    SortedBounds(s);
  }

  /** The median depends only on the values, not on their order. */
  lemma {:induction false} MedianPermutation(s: seq<real>, u: seq<real>)
    requires s != [] && multiset(s) == multiset(u)
    ensures u != [] && Median(s) == Median(u)
  {
    assert |u| == |multiset(u)| == |multiset(s)| == |s|;
    SortedUnique(Sort(s), Sort(u));
  }

  /** A sample of one repeated value has that value as median. */
  lemma {:induction false} MedianConstant(s: seq<real>, c: real)
    requires s != [] && forall i :: 0 <= i < |s| ==> s[i] == c
    ensures Median(s) == c
  {
    MedianBounds(s);
    assert Min(s) == c && Max(s) == c;
  }

  /** With an even count the two middle values are averaged. */
  lemma {:induction false} MedianPair(s: seq<real>, a: real, b: real)
    requires s == [a, b]
    ensures Median(s) == (a + b) / 2.0
  {
    var t := Sort(s);
    assert |t| == 2 by {
      assert |t| == |multiset(t)| == |multiset(s)| == |s|;
    }
    assert t[0] + t[1] == a + b by {
      var u := if a <= b then [a, b] else [b, a];
      assert multiset(u) == multiset(s);
      SortedUnique(t, u);
    }
  }

  /** Rounding to the nearest integer, ties to the even neighbour. */
  function RoundHalfEven(x: real): (r: int)
    ensures x - 0.5 <= r as real <= x + 0.5
    ensures x - x.Floor as real == 0.5 ==> r % 2 == 0
  {
    var f := x.Floor;
    var d := x - f as real;
    if d < 0.5 then f
    else if d > 0.5 then f + 1
    else if f % 2 == 0 then f
    else f + 1
  }

  /** An integer strictly closer than one half is the rounded value, so the
      contract above pins the result down except at ties. */
  lemma {:induction false} RoundNearest(x: real, n: int)
    requires x - 0.5 < n as real < x + 0.5
    ensures RoundHalfEven(x) == n
  {
    var r := RoundHalfEven(x);
    assert -1.0 < r as real - n as real < 1.0;
  }

  /** Whole numbers round to themselves. */
  lemma {:induction false} RoundWhole(n: int)
    ensures RoundHalfEven(n as real) == n
  {
    RoundNearest(n as real, n);
  }

  /** Shifting by an even whole number shifts the rounded value by the same
      amount (an odd shift would move a tie to the other neighbour). */
  lemma {:induction false} RoundShift(x: real, k: int)
    requires k % 2 == 0
    ensures RoundHalfEven(x + k as real) == RoundHalfEven(x) + k
  {
    assert (x + k as real).Floor == x.Floor + k;
  }

  /** Rounding is monotone. */
  lemma {:induction false} RoundMonotone(x: real, y: real)
    requires x <= y
    ensures RoundHalfEven(x) <= RoundHalfEven(y)
  {
    assert x.Floor <= y.Floor;
  }

  /** Rounding to one decimal place. */
  function Round1(x: real): (r: real)
    ensures x - 0.05 <= r <= x + 0.05
  {
    RoundHalfEven(x * 10.0) as real / 10.0
  }

  /** Values already on the one-decimal grid are unchanged. */
  lemma {:induction false} Round1Grid(n: int)
    ensures Round1(n as real / 10.0) == n as real / 10.0
  {
    assert n as real / 10.0 * 10.0 == n as real;
    RoundWhole(n);
  }
}

=== FILE: strings.dfy ===
/** String helpers with Python's meaning: strip, split on white space and
    join with one space, case maps, substring search, decomposition and
    removal of combining marks. */
module Strings {
  import opened Chars

  /** Drops leading white space. */
  function TrimLeft(s: string): (r: string)
    ensures |r| <= |s| && r == s[|s| - |r|..]
    ensures r == [] || !IsSpace(r[0])
    ensures forall i :: 0 <= i < |s| - |r| ==> IsSpace(s[i])
  {
    if s != [] && IsSpace(s[0]) then TrimLeft(s[1..]) else s
  }

  /** Drops trailing white space. */
  function TrimRight(s: string): (r: string)
    ensures |r| <= |s| && r == s[..|r|]
    ensures r == [] || !IsSpace(r[|r| - 1])
    ensures forall i :: |r| <= i < |s| ==> IsSpace(s[i])
  {
    if s != [] && IsSpace(s[|s| - 1]) then TrimRight(s[..|s| - 1]) else s
  }

  /** `r` is `s` with `a` characters cut from the front and only white space
      cut from either end. */
  predicate StrippedAt(s: string, r: string, a: int)
  {
    && 0 <= a <= |s| - |r| && r == s[a..a + |r|]
    && (forall i :: 0 <= i < a ==> IsSpace(s[i]))
    && (forall i :: a + |r| <= i < |s| ==> IsSpace(s[i]))
  }

  /** `str.strip()`: white space cut from both ends. */
  function Strip(s: string): string
  {
    TrimRight(TrimLeft(s))
  }

  /** The stripped text neither starts nor ends with white space, and it is
      an infix of the input where everything cut off is white space. */
  lemma {:induction false} StripSpec(s: string)
    ensures var r := Strip(s); r == [] || (!IsSpace(r[0]) && !IsSpace(r[|r| - 1]))
    ensures exists a :: StrippedAt(s, Strip(s), a)
  {
    var t := TrimLeft(s);
    var r := TrimRight(t);
    var a := |s| - |t|;
    assert t == s[a..];
    assert r == t[..|r|];
    assert r == s[a..a + |r|];
    forall i | a + |r| <= i < |s| ensures IsSpace(s[i]) {
      assert s[i] == t[i - a];
    }
    assert StrippedAt(s, r, a);
  }

  /** Text already trimmed at both ends is left alone. */
  lemma {:induction false} StripTrimmed(s: string)
    requires s == [] || (!IsSpace(s[0]) && !IsSpace(s[|s| - 1]))
    ensures Strip(s) == s
  {
  }

  predicate NoSpace(w: string)
  {
    forall i :: 0 <= i < |w| ==> !IsSpace(w[i])
  }

  predicate NoMarks(s: string)
  {
    forall i :: 0 <= i < |s| ==> !IsCombining(s[i])
  }

  /** Trimmed and single-spaced: the only white space is the plain space,
      each one strictly inside the string and between two non-space
      characters. */
  predicate Tidy(r: string)
  {
    forall i :: 0 <= i < |r| && IsSpace(r[i]) ==>
      r[i] == ' ' && 0 < i < |r| - 1 && !IsSpace(r[i - 1]) && !IsSpace(r[i + 1])
  }

  /** Length of the leading run of non-space characters. */
  function WordLength(s: string): nat
  {
    if s == [] || IsSpace(s[0]) then 0 else 1 + WordLength(s[1..])
  }

  lemma {:induction false} WordLengthBounds(s: string)
    ensures WordLength(s) <= |s|
    ensures forall i :: 0 <= i < WordLength(s) ==> !IsSpace(s[i])
    ensures WordLength(s) == |s| || IsSpace(s[WordLength(s)])
  {
    if s != [] && !IsSpace(s[0]) {
      WordLengthBounds(s[1..]);
    }
  }

  /** `str.split()` without arguments: the maximal runs of non-space
      characters, in order. */
  function Words(s: string): seq<string>
    decreases |s|
  {
    if s == [] then []
    else if IsSpace(s[0]) then Words(s[1..])
    else
      var n := WordLength(s);
      WordLengthBounds(s);
      [s[..n]] + Words(s[n..])
  }

  predicate ValidWords(ws: seq<string>)
  {
    forall k :: 0 <= k < |ws| ==> ws[k] != [] && NoSpace(ws[k])
  }

  /** Every piece `split` returns is a non-empty run without white space. */
  lemma {:induction false} WordsValid(s: string)
    ensures ValidWords(Words(s))
    decreases |s|
  {
    if s != [] {
      if IsSpace(s[0]) {
        WordsValid(s[1..]);
      } else {
        var n := WordLength(s);
        WordLengthBounds(s);
        WordsValid(s[n..]);
        var ws := Words(s[n..]);
        assert Words(s) == [s[..n]] + ws;
        assert s[..n] != [] by { assert s[0] == s[..n][0]; }
      }
    }
  }

  /** `" ".join(ws)`. */
  function Join(ws: seq<string>): string
  {
    if |ws| == 0 then []
    else if |ws| == 1 then ws[0]
    else ws[0] + " " + Join(ws[1..])
  }

  /** `" ".join(s.split())`. */
  function Collapse(s: string): (r: string)
    ensures Tidy(r)
  {
    WordsValid(s);
    JoinTidy(Words(s));
    Join(Words(s))
  }

  lemma {:induction false} JoinTidy(ws: seq<string>)
    requires ValidWords(ws)
    ensures Tidy(Join(ws))
    ensures Join(ws) == [] <==> ws == []
  {
    if |ws| > 1 {
      var w, j := ws[0], Join(ws[1..]);
      JoinTidy(ws[1..]);
      var r := w + " " + j;
      assert Join(ws) == r;
      forall i | 0 <= i < |r| && IsSpace(r[i])
        ensures r[i] == ' ' && 0 < i < |r| - 1 && !IsSpace(r[i - 1]) && !IsSpace(r[i + 1])
      {
        if i < |w| {
          assert false;
        } else if i > |w| {
          var k := i - |w| - 1;
          assert r[i] == j[k];
          assert r[i - 1] == j[k - 1];
          assert r[i + 1] == j[k + 1];
        } else {
          assert r[i - 1] == w[|w| - 1];
          assert r[i + 1] == j[0];
        }
      }
    }
  }

  lemma {:induction false} WordsSpaceLed(x: string)
    ensures Words(" " + x) == Words(x)
  {
    assert (" " + x)[1..] == x;
  }

  /** Splitting undoes joining. */
  lemma {:induction false} WordsJoin(ws: seq<string>)
    requires ValidWords(ws)
    ensures Words(Join(ws)) == ws
  {
    if |ws| == 1 {
      assert Words(ws[0] + []) == [ws[0]] + Words([]) by { WordsCons(ws[0], []); }
      assert ws[0] + [] == ws[0];
    } else if |ws| > 1 {
      var j := Join(ws[1..]);
      calc {
        Words(Join(ws));
        { assert Join(ws) == ws[0] + (" " + j); }
        Words(ws[0] + (" " + j));
        { WordsCons(ws[0], " " + j); }
        [ws[0]] + Words(" " + j);
        { WordsSpaceLed(j); }
        [ws[0]] + Words(j);
        { WordsJoin(ws[1..]); }
        [ws[0]] + ws[1..];
        ws;
      }
    }
  }

  /** A word followed by nothing or by white space splits off first. */
  lemma {:induction false} WordsCons(w: string, rest: string)
    requires w != [] && NoSpace(w)
    requires rest == [] || IsSpace(rest[0])
    ensures Words(w + rest) == [w] + Words(rest)
  {
    var r := w + rest;
    assert r[0] == w[0];
    assert r[..|w|] == w;
    WordLengthOf(w, r);
    assert r[|w|..] == rest;
  }

  lemma {:induction false} WordLengthOf(w: string, r: string)
    requires w != [] && NoSpace(w) && |w| <= |r| && r[..|w|] == w
    requires |w| == |r| || IsSpace(r[|w|])
    ensures WordLength(r) == |w|
  {
    WordLengthBounds(r);
    assert forall i :: 0 <= i < |w| ==> r[i] == w[i];
  }

  /** Joining undoes splitting on a string that is already tidy. */
  lemma {:induction false} CollapseTidy(s: string)
    requires Tidy(s)
    ensures Collapse(s) == s
    decreases |s|
  {
    if s != [] {
      var n := WordLength(s);
      WordLengthBounds(s);
      var w := s[..n];
      assert n > 0;
      if n == |s| {
        assert s == w + [];
        WordsCons(w, []);
        assert Words(s) == [w];
      } else {
        var rest := s[n + 1..];
        TidyTail(s, n);
        assert s == w + (" " + rest);
        var ws := Words(rest);
        assert ws != [] by {
          WordsValid(rest);
          JoinTidy(ws);
          CollapseTidy(rest);
        }
        calc {
          Collapse(s);
          Join(Words(w + (" " + rest)));
          { WordsCons(w, " " + rest); }
          Join([w] + Words(" " + rest));
          { WordsSpaceLed(rest); }
          Join([w] + ws);
          { assert ([w] + ws)[1..] == ws; }
          w + " " + Join(ws);
          { CollapseTidy(rest); }
          w + " " + rest;
          s;
        }
      }
    }
  }

  /** What follows the first space of a tidy string is tidy and not empty. */
  lemma {:induction false} TidyTail(s: string, n: nat)
    requires Tidy(s) && n < |s| && IsSpace(s[n])
    ensures s[n] == ' ' && n + 1 < |s| && Tidy(s[n + 1..])
  {
    var rest := s[n + 1..];
    forall i | 0 <= i < |rest| && IsSpace(rest[i])
      ensures rest[i] == ' ' && 0 < i < |rest| - 1 && !IsSpace(rest[i - 1]) && !IsSpace(rest[i + 1])
    {
      assert rest[i] == s[n + 1 + i];
      assert s[n + i] == rest[i - 1];
    }
  }

  /** The same character map applied at every position. */
  function MapChars(f: char -> char, s: string): (r: string)
    ensures |r| == |s| && forall i :: 0 <= i < |s| ==> r[i] == f(s[i])
  {
    seq(|s|, i requires 0 <= i < |s| => f(s[i]))
  }

  /** `str.lower()`. */
  function LowerAll(s: string): string
  {
    MapChars(Lower, s)
  }

  /** `str.upper()`. */
  function UpperAll(s: string): string
  {
    MapChars(Upper, s)
  }

  /** A character map that sends white space to white space, everything
      else to non-space, and the plain space to itself. */
  predicate KeepsSpace(f: char -> char)
  {
    f(' ') == ' ' && forall c :: IsSpace(f(c)) <==> IsSpace(c)
  }

  lemma {:induction false} CaseMapsKeepSpace()
    ensures KeepsSpace(Lower) && KeepsSpace(Upper) && KeepsSpace(Fold)
  {
    forall c ensures IsSpace(Fold(c)) <==> IsSpace(c) {
      FoldSpace(c);
    }
  }

  lemma {:induction false} TrimLeftMap(f: char -> char, s: string)
    requires KeepsSpace(f)
    ensures TrimLeft(MapChars(f, s)) == MapChars(f, TrimLeft(s))
    decreases |s|
  {
    if s != [] {
      assert MapChars(f, s)[1..] == MapChars(f, s[1..]);
      TrimLeftMap(f, s[1..]);
    }
  }

  lemma {:induction false} TrimRightMap(f: char -> char, s: string)
    requires KeepsSpace(f)
    ensures TrimRight(MapChars(f, s)) == MapChars(f, TrimRight(s))
    decreases |s|
  {
    if s != [] {
      assert MapChars(f, s)[..|s| - 1] == MapChars(f, s[..|s| - 1]);
      TrimRightMap(f, s[..|s| - 1]);
    }
  }

  /** Stripping commutes with a map that keeps white space apart. */
  lemma {:induction false} StripMap(f: char -> char, s: string)
    requires KeepsSpace(f)
    ensures Strip(MapChars(f, s)) == MapChars(f, Strip(s))
  {
    TrimLeftMap(f, s);
    TrimRightMap(f, TrimLeft(s));
  }

  lemma {:induction false} WordLengthMap(f: char -> char, s: string)
    requires KeepsSpace(f)
    ensures WordLength(MapChars(f, s)) == WordLength(s)
    decreases |s|
  {
    if s != [] {
      assert MapChars(f, s)[1..] == MapChars(f, s[1..]);
      WordLengthMap(f, s[1..]);
    }
  }

  function MapWords(f: char -> char, ws: seq<string>): (r: seq<string>)
    ensures |r| == |ws| && forall k :: 0 <= k < |ws| ==> r[k] == MapChars(f, ws[k])
  {
    seq(|ws|, k requires 0 <= k < |ws| => MapChars(f, ws[k]))
  }

  /** Splitting commutes with a map that keeps white space apart. */
  lemma {:induction false} WordsMap(f: char -> char, s: string)
    requires KeepsSpace(f)
    ensures Words(MapChars(f, s)) == MapWords(f, Words(s))
    decreases |s|
  {
    var m := MapChars(f, s);
    if s != [] {
      if IsSpace(s[0]) {
        assert m[1..] == MapChars(f, s[1..]);
        WordsMap(f, s[1..]);
        assert MapWords(f, Words(s)) == MapWords(f, Words(s[1..]));
      } else {
        var n := WordLength(s);
        WordLengthBounds(s);
        WordLengthMap(f, s);
        assert m[..n] == MapChars(f, s[..n]);
        assert m[n..] == MapChars(f, s[n..]);
        WordsMap(f, s[n..]);
        assert MapWords(f, [s[..n]] + Words(s[n..])) == [MapChars(f, s[..n])] + MapWords(f, Words(s[n..]));
      }
    }
  }

  /** Joining commutes with a map that fixes the plain space. */
  lemma {:induction false} JoinMap(f: char -> char, ws: seq<string>)
    requires f(' ') == ' '
    ensures Join(MapWords(f, ws)) == MapChars(f, Join(ws))
  {
    if |ws| > 1 {
      JoinMap(f, ws[1..]);
      assert MapWords(f, ws)[1..] == MapWords(f, ws[1..]);
      assert MapChars(f, ws[0] + " " + Join(ws[1..])) == MapChars(f, ws[0]) + " " + MapChars(f, Join(ws[1..]));
    }
  }

  /** Collapsing white space commutes with a map that keeps it apart. */
  lemma {:induction false} CollapseMap(f: char -> char, s: string)
    requires KeepsSpace(f)
    ensures Collapse(MapChars(f, s)) == MapChars(f, Collapse(s))
  {
    WordsMap(f, s);
    JoinMap(f, Words(s));
  }

  /** Compatibility decomposition of a string (`unicodedata.normalize("NFKD", s)`
      restricted to the Latin-1 table of `DecomposeChar`). */
  function Decompose(s: string): string
  {
    if s == [] then [] else DecomposeChar(s[0]) + Decompose(s[1..])
  }

  /** Text without accented letters, ordinals or superscript digits
      decomposes to itself. */
  lemma {:induction false} DecomposePlain(s: string)
    requires forall i :: 0 <= i < |s| ==> !IsAccented(s[i]) && !IsCompat(s[i])
    ensures Decompose(s) == s
  {
    if s != [] {
      DecomposePlain(s[1..]);
      assert [s[0]] + s[1..] == s;
    }
  }

  /** Keeps the characters that are not combining marks. */
  function DropMarks(s: string): (r: string)
    ensures |r| <= |s| && NoMarks(r)
  {
    if s == [] then [] else (if IsCombining(s[0]) then [] else [s[0]]) + DropMarks(s[1..])
  }

  lemma {:induction false} DropMarksAppend(a: string, b: string)
    ensures DropMarks(a + b) == DropMarks(a) + DropMarks(b)
  {
    if a != [] {
      var h := if IsCombining(a[0]) then [] else [a[0]];
      assert (a + b)[0] == a[0];
      assert (a + b)[1..] == a[1..] + b;
      assert DropMarks(a + b) == h + DropMarks(a[1..] + b);
      DropMarksAppend(a[1..], b);
      assert DropMarks(a) == h + DropMarks(a[1..]);
      assert h + (DropMarks(a[1..]) + DropMarks(b)) == (h + DropMarks(a[1..])) + DropMarks(b);
    } else {
      assert a + b == b;
    }
  }

  /** A character that is not a mark decomposes, once its marks are dropped,
      to its base letter. */
  lemma DropDecomposedChar(c: char)
    requires !IsCombining(c)
    ensures DropMarks(DecomposeChar(c)) == [Base(c)]
  {
    var d := DecomposeChar(c);
    if |d| == 2 {
      assert DropMarks(d) == [d[0]] + DropMarks(d[1..]);
      assert d[1..] == [d[1]];
    } else {
      assert DropMarks(d) == [d[0]] + DropMarks([]);
    }
  }

  /** On text without marks, decomposing and dropping the marks leaves each
      character's base letter in place of the character. */
  lemma {:induction false} DropDecomposed(s: string)
    requires NoMarks(s)
    ensures DropMarks(Decompose(s)) == seq(|s|, i requires 0 <= i < |s| => Base(s[i]))
  {
    if s != [] {
      DropMarksAppend(DecomposeChar(s[0]), Decompose(s[1..]));
      DropDecomposedChar(s[0]);
      DropDecomposed(s[1..]);
      var rest := seq(|s| - 1, i requires 0 <= i < |s| - 1 => Base(s[1..][i]));
      assert seq(|s|, i requires 0 <= i < |s| => Base(s[i])) == [Base(s[0])] + rest;
    }
  }

  lemma {:induction false} StripNoMarks(s: string)
    requires NoMarks(s)
    ensures NoMarks(Strip(s))
  {
    StripSpec(s);
    var a :| StrippedAt(s, Strip(s), a);
  }

  lemma {:induction false} WordsNoMarks(s: string)
    requires NoMarks(s)
    ensures forall k :: 0 <= k < |Words(s)| ==> NoMarks(Words(s)[k])
    decreases |s|
  {
    if s != [] {
      if IsSpace(s[0]) {
        WordsNoMarks(s[1..]);
      } else {
        var n := WordLength(s);
        WordLengthBounds(s);
        WordsNoMarks(s[n..]);
        assert NoMarks(s[..n]);
        var ws := Words(s[n..]);
        assert Words(s) == [s[..n]] + ws;
        assert forall k :: 1 <= k < |Words(s)| ==> Words(s)[k] == ws[k - 1];
      }
    }
  }

  lemma {:induction false} JoinNoMarks(ws: seq<string>)
    requires forall k :: 0 <= k < |ws| ==> NoMarks(ws[k])
    ensures NoMarks(Join(ws))
  {
    if |ws| > 1 {
      JoinNoMarks(ws[1..]);
      var w, j := ws[0], Join(ws[1..]);
      assert Join(ws) == w + " " + j;
      assert forall i :: |w| < i < |w + " " + j| ==> (w + " " + j)[i] == j[i - |w| - 1];
    }
  }

  /** Collapsing white space does not introduce combining marks. */
  lemma {:induction false} CollapseNoMarks(s: string)
    requires NoMarks(s)
    ensures NoMarks(Collapse(s))
  {
    WordsNoMarks(s);
    JoinNoMarks(Words(s));
  }

  /** Substring test `k in s`. */
  predicate Contains(s: string, k: string)
    decreases |s|
  {
    |k| <= |s| && (s[..|k|] == k || Contains(s[1..], k))
  }

  predicate OccursAt(s: string, k: string, i: int)
  {
    0 <= i <= |s| - |k| && s[i..i + |k|] == k
  }

  /** `Contains` agrees with "k occurs at some offset of s". */
  lemma {:induction false} ContainsAt(s: string, k: string)
    ensures Contains(s, k) <==> exists i :: OccursAt(s, k, i)
    decreases |s|
  {
    if |k| <= |s| {
      if s[..|k|] == k {
        assert OccursAt(s, k, 0);
      } else {
        ContainsAt(s[1..], k);
        if Contains(s[1..], k) {
          var i :| OccursAt(s[1..], k, i);
          assert s[i + 1..i + 1 + |k|] == s[1..][i..i + |k|];
          assert OccursAt(s, k, i + 1);
        } else {
          forall i ensures !OccursAt(s, k, i) {
            if i > 0 && OccursAt(s, k, i) {
              OccursShift(s, k, i);
            }
          }
        }
      }
    }
  }

  lemma {:induction false} OccursShift(s: string, k: string, i: int)
    requires i > 0 && OccursAt(s, k, i)
    ensures OccursAt(s[1..], k, i - 1)
  {
    forall j | 0 <= j < |k| ensures s[1..][i - 1..i - 1 + |k|][j] == k[j] {
      assert s[1..][i - 1..i - 1 + |k|][j] == s[i + j] == s[i..i + |k|][j];
    }
  }
}

=== FILE: textkeys.dfy ===
/** Join keys and vehicle classes derived from free text: `normalize_text`
    and `classificar_veiculo`. */
module TextKeys {
  import opened Common
  import opened Chars
  import opened Strings

  /** What `str()` gives for a present cell. */
  function CellText(c: Cell): string
    requires !c.Empty?
  {
    match c
    case Num(_, shown) => shown
    case Text(s) => s
  }

  /** `normalize_text` on text: strip, lower-case, collapse white space to
      single spaces, decompose, drop the combining marks, upper-case. */
  function NormalizeString(s: string): string
  {
    UpperAll(DropMarks(Decompose(Collapse(LowerAll(Strip(s))))))
  }

  /** `normalize_text` on a cell: a missing value gives the empty key. The
      key ignores letter case; for text without combining marks it is
      trimmed, single-spaced and folded, and normalising it again changes
      nothing. */
  function NormalizeText(c: Cell): (r: string)
    ensures c.Empty? ==> r == []
    ensures !c.Empty? ==> r == NormalizeString(CellText(c))
    ensures !c.Empty? ==> r == NormalizeString(UpperAll(CellText(c)))
    ensures !c.Empty? && NoMarks(CellText(c)) ==>
              Tidy(r) && (forall i :: 0 <= i < |r| ==> Folded(r[i])) && NormalizeString(r) == r
  {
    if c.Empty? then []
    else
      NormalizeCaseBlind(CellText(c));
      if NoMarks(CellText(c)) then
        NormalizeShape(CellText(c));
        NormalizeIdempotent(CellText(c));
        NormalizeString(CellText(c))
      else NormalizeString(CellText(c))
  }

  /** On text without combining marks the normaliser is the per-character
      fold of the stripped, single-spaced text. */
  lemma {:induction false} NormalizeFold(s: string)
    requires NoMarks(s)
    ensures NormalizeString(s) == MapChars(Fold, Collapse(Strip(s)))
  {
    var t := Strip(s);
    var c := Collapse(t);
    calc {
      NormalizeString(s);
      UpperAll(DropMarks(Decompose(Collapse(LowerAll(t)))));
      { CaseMapsKeepSpace(); CollapseMap(Lower, t); }
      UpperAll(DropMarks(Decompose(LowerAll(c))));
      { StripNoMarks(s); CollapseNoMarks(t); FoldMarkFree(c); }
      MapChars(Fold, c);
    }
  }

  /** Lower-casing, decomposing, dropping marks and upper-casing a text
      without marks folds each character. */
  lemma {:induction false} FoldMarkFree(c: string)
    requires NoMarks(c)
    ensures UpperAll(DropMarks(Decompose(LowerAll(c)))) == MapChars(Fold, c)
  {
    var l := LowerAll(c);
    assert NoMarks(l);
    DropDecomposed(l);
  }

  /** The key is trimmed and single-spaced, and every character is in
      folded form: no mark, no lower-case letter, no accented letter. */
  lemma {:induction false} NormalizeShape(s: string)
    requires NoMarks(s)
    ensures Tidy(NormalizeString(s))
    ensures forall i :: 0 <= i < |NormalizeString(s)| ==> Folded(NormalizeString(s)[i])
  {
    NormalizeFold(s);
    var c := Collapse(Strip(s));
    StripNoMarks(s);
    CollapseNoMarks(Strip(s));
    var r := MapChars(Fold, c);
    forall i | 0 <= i < |r| ensures Folded(r[i]) {
      FoldFolded(c[i]);
    }
    forall i | 0 <= i < |r| && IsSpace(r[i])
      ensures r[i] == ' ' && 0 < i < |r| - 1 && !IsSpace(r[i - 1]) && !IsSpace(r[i + 1])
    {
      FoldSpace(c[i]);
      assert IsSpace(c[i]);
      FoldSpace(c[i - 1]);
      FoldSpace(c[i + 1]);
    }
  }

  /** Normalising a key again changes nothing. */
  lemma {:induction false} NormalizeIdempotent(s: string)
    requires NoMarks(s)
    ensures NormalizeString(NormalizeString(s)) == NormalizeString(s)
  {
    var r := NormalizeString(s);
    NormalizeShape(s);
    calc {
      NormalizeString(r);
      { NormalizeTidy(r); }
      MapChars(Fold, r);
      { FoldFixedAll(r); }
      r;
    }
  }

  lemma {:induction false} FoldFixedAll(r: string)
    requires forall i :: 0 <= i < |r| ==> Folded(r[i])
    ensures MapChars(Fold, r) == r
  {
    forall i | 0 <= i < |r| ensures Fold(r[i]) == r[i] {
      FoldedFixed(r[i]);
    }
  }

  /** Keys ignore letter case. */
  lemma {:induction false} NormalizeCaseBlind(s: string)
    ensures NormalizeString(UpperAll(s)) == NormalizeString(s)
  {
    CaseMapsKeepSpace();
    StripMap(Upper, s);
    var t := Strip(s);
    forall i | 0 <= i < |t| ensures Lower(Upper(t[i])) == Lower(t[i]) {
      LowerUpper(t[i]);
    }
    assert LowerAll(UpperAll(t)) == LowerAll(t);
  }

  /** On a key-shaped text without marks the normaliser only folds each
      character. */
  lemma {:induction false} NormalizeTidy(t: string)
    requires NoMarks(t) && Tidy(t)
    ensures NormalizeString(t) == MapChars(Fold, t)
  {
    NormalizeFold(t);
    assert t == [] || (!IsSpace(t[0]) && !IsSpace(t[|t| - 1])) by {
      if t != [] {
        assert !IsSpace(t[0]) && !IsSpace(t[|t| - 1]);
      }
    }
    StripTrimmed(t);
    CollapseTidy(t);
  }

  lemma {:induction false} CafeAccented(a: string)
    requires a == "Caf\U{E9} NOVO"
    ensures NoMarks(a) && Tidy(a)
  {
  }

  lemma {:induction false} CafeAccentedFold(a: string)
    requires a == "Caf\U{E9} NOVO"
    ensures MapChars(Fold, a) == "CAFE NOVO"
  {
  }

  lemma {:induction false} CafePlain(b: string)
    requires b == "cafe novo"
    ensures NoMarks(b) && Tidy(b)
  {
  }

  lemma {:induction false} CafePlainFold(b: string)
    requires b == "cafe novo"
    ensures MapChars(Fold, b) == "CAFE NOVO"
  {
  }

  /** Accents and letter case do not change the key: "Caf\u00e9 NOVO" and
      "cafe novo" both give "CAFE NOVO". */
  lemma {:induction false} NormalizeExample(a: string, b: string)
    requires a == "Caf\U{E9} NOVO" && b == "cafe novo"
    ensures NormalizeString(a) == "CAFE NOVO"
    ensures NormalizeString(b) == "CAFE NOVO"
  {
    CafeAccented(a);
    CafeAccentedFold(a);
    CafePlain(b);
    CafePlainFold(b);
    NormalizeTidy(a);
    NormalizeTidy(b);
  }

  lemma {:induction false} OrdinalShape(a: string)
    requires a == "1\U{AA} vida" || a == "1A VIDA"
    ensures NoMarks(a) && Tidy(a)
  {
  }

  lemma {:induction false} OrdinalFold(a: string)
    requires a == "1\U{AA} vida" || a == "1A VIDA"
    ensures MapChars(Fold, a) == "1A VIDA"
  {
  }

  /** The ordinal indicator folds to its letter: "1\u00aa vida" and "1A VIDA"
      give the same key. */
  lemma {:induction false} NormalizeOrdinal(a: string, b: string)
    requires a == "1\U{AA} vida" && b == "1A VIDA"
    ensures NormalizeString(a) == NormalizeString(b) == "1A VIDA"
  {
    OrdinalShape(a);
    OrdinalFold(a);
    OrdinalShape(b);
    OrdinalFold(b);
    NormalizeTidy(a);
    NormalizeTidy(b);
  }

  lemma {:induction false} LoneMarkShape(s: string)
    requires s == "a \U{301} b"
    ensures !IsSpace(s[0]) && !IsSpace(s[|s| - 1]) && LowerAll(s) == s && Tidy(s)
    ensures forall i :: 0 <= i < |s| ==> !IsAccented(s[i]) && !IsCompat(s[i])
  {
  }

  lemma {:induction false} LoneMarkDrop(s: string)
    requires s == "a \U{301} b"
    ensures DropMarks(s) == "a  b"
  {
    assert DropMarks(s[4..]) == "b";
    assert DropMarks(s[3..]) == " b";
    assert DropMarks(s[2..]) == " b";
    assert DropMarks(s[1..]) == "  b";
  }

  lemma {:induction false} LoneMarkUpper(t: string)
    requires t == "a  b"
    ensures UpperAll(t) == "A  B" && !Tidy(UpperAll(t))
  {
    assert IsSpace(UpperAll(t)[1]) && IsSpace(UpperAll(t)[2]);
  }

  /** Text that is already a lower-case, single-spaced, accent-free key
      reaches the mark filter unchanged. */
  lemma {:induction false} NormalizePlain(s: string)
    requires s != [] && !IsSpace(s[0]) && !IsSpace(s[|s| - 1]) && LowerAll(s) == s && Tidy(s)
    requires forall i :: 0 <= i < |s| ==> !IsAccented(s[i]) && !IsCompat(s[i])
    ensures NormalizeString(s) == UpperAll(DropMarks(s))
  {
    StripTrimmed(s);
    CollapseTidy(s);
    DecomposePlain(s);
  }

  /** A word made only of combining marks disappears after the white space
      has been collapsed, so its two neighbours end up two spaces apart. */
  lemma {:induction false} NormalizeLoneMark(s: string)
    requires s == "a \U{301} b"
    ensures NormalizeString(s) == "A  B"
    ensures !Tidy(NormalizeString(s))
  {
    LoneMarkShape(s);
    NormalizePlain(s);
    LoneMarkDrop(s);
    LoneMarkUpper("a  b");
  }

  // ---------------------------------------------------------------------
  // Vehicle classes.

  datatype VehicleType = Leve | UtilRenault | UtilIvecoScudo | TresQuartos | Toco | Truck | Carreta | Outro

  /** The label the dashboard shows. */
  function Label(v: VehicleType): string
  {
    match v
    case Leve => "Leve"
    case UtilRenault => "Utilit\U{E1}rio (Renault)"
    case UtilIvecoScudo => "Utilit\U{E1}rio (Iveco/Scudo)"
    case TresQuartos => "3/4"
    case Toco => "Toco"
    case Truck => "Truck"
    case Carreta => "Carreta"
    case Outro => "Outro"
  }

  /** Some keyword occurs in the lower-cased description. */
  predicate AnyIn(d: string, keys: seq<string>)
  {
    exists k :: 0 <= k < |keys| && Contains(d, keys[k])
  }

  /** `classificar_veiculo` on text: the first rule, in the code's order,
      with a keyword contained in the lower-cased description. */
  function ClassifyText(desc: string): VehicleType
  {
    var d := LowerAll(desc);
    if Contains(d, "saveiro") then Leve
    else if Contains(d, "renault") then UtilRenault
    else if Contains(d, "iveco") || Contains(d, "daily") || Contains(d, "dayli") || Contains(d, "scudo") then UtilIvecoScudo
    else if Contains(d, "3/4") || Contains(d, "3-4") then TresQuartos
    else if Contains(d, "toco") then Toco
    else if Contains(d, "truck") then Truck
    else if Contains(d, "cavalo") || Contains(d, "carreta") then Carreta
    else Outro
  }

  /** `classificar_veiculo` on a cell: a missing description is "Outro";
      otherwise the class of the first rule of the table with a keyword in
      the lower-cased text, "Outro" exactly when no keyword occurs. */
  function Classify(c: Cell): (v: VehicleType)
    ensures c.Empty? ==> v == Outro
    ensures !c.Empty? ==> v == ClassifyText(CellText(c))
    ensures !c.Empty? ==> v == FirstRule(LowerAll(CellText(c)), 0)
    ensures !c.Empty? ==>
              (v == Outro <==> forall j :: 0 <= j < |Rules| ==> !AnyIn(LowerAll(CellText(c)), Rules[j].0))
  {
    if c.Empty? then Outro
    else
      ClassifyByRules(CellText(c));
      ClassifyOther(CellText(c));
      ClassifyText(CellText(c))
  }

  /** The rule table: keywords and the class they select, in priority order. */
  const Rules: seq<(seq<string>, VehicleType)> := [
    (["saveiro"], Leve),
    (["renault"], UtilRenault),
    (["iveco", "daily", "dayli", "scudo"], UtilIvecoScudo),
    (["3/4", "3-4"], TresQuartos),
    (["toco"], Toco),
    (["truck"], Truck),
    (["cavalo", "carreta"], Carreta)
  ]

  /** Every rule selects its own class, and none selects "Outro". */
  lemma {:induction false} RulesDistinct()
    ensures forall i, j :: 0 <= i < j < |Rules| ==> Rules[i].1 != Rules[j].1
    ensures forall i :: 0 <= i < |Rules| ==> Rules[i].1 != Outro
  {
  }

  /** Reference reading of the table from rule `i` on: the class of the
      first rule that fires, "Outro" when none does. */
  function FirstRule(d: string, i: nat): VehicleType
    decreases |Rules| - i
  {
    if i >= |Rules| then Outro
    else if AnyIn(d, Rules[i].0) then Rules[i].1
    else FirstRule(d, i + 1)
  }

  lemma {:induction false} FirstRuleFrom(d: string, i: nat)
    ensures FirstRule(d, i) == Outro || exists j :: i <= j < |Rules| && FirstRule(d, i) == Rules[j].1
    decreases |Rules| - i
  {
    if i < |Rules| && !AnyIn(d, Rules[i].0) {
      FirstRuleFrom(d, i + 1);
    }
  }

  /** From rule `i` on, rule `k` is picked exactly when it fires and no
      rule between `i` and `k` does. */
  lemma {:induction false} FirstRuleAt(d: string, i: nat, k: nat)
    requires i <= k < |Rules|
    ensures FirstRule(d, i) == Rules[k].1 <==> AnyIn(d, Rules[k].0) && forall j :: i <= j < k ==> !AnyIn(d, Rules[j].0)
    decreases k - i
  {
    RulesDistinct();
    if AnyIn(d, Rules[i].0) {
      assert FirstRule(d, i) == Rules[i].1;
    } else if i < k {
      FirstRuleAt(d, i + 1, k);
    } else {
      FirstRuleFrom(d, i + 1);
    }
  }

  /** From rule `i` on, "Outro" comes out exactly when no rule fires. */
  lemma {:induction false} FirstRuleNone(d: string, i: nat)
    ensures FirstRule(d, i) == Outro <==> forall j :: i <= j < |Rules| ==> !AnyIn(d, Rules[j].0)
    decreases |Rules| - i
  {
    RulesDistinct();
    if i < |Rules| {
      FirstRuleNone(d, i + 1);
    }
  }

  lemma {:induction false} AnyIn1(d: string, a: string)
    ensures AnyIn(d, [a]) <==> Contains(d, a)
  {
    if Contains(d, a) {
      assert Contains(d, [a][0]);
    }
  }

  lemma {:induction false} AnyIn2(d: string, a: string, b: string)
    ensures AnyIn(d, [a, b]) <==> Contains(d, a) || Contains(d, b)
  {
    if Contains(d, a) {
      assert Contains(d, [a, b][0]);
    } else if Contains(d, b) {
      assert Contains(d, [a, b][1]);
    }
  }

  lemma {:induction false} AnyIn4(d: string, a: string, b: string, c: string, e: string)
    ensures AnyIn(d, [a, b, c, e]) <==> Contains(d, a) || Contains(d, b) || Contains(d, c) || Contains(d, e)
  {
    var ks := [a, b, c, e];
    if Contains(d, a) {
      assert Contains(d, ks[0]);
    } else if Contains(d, b) {
      assert Contains(d, ks[1]);
    } else if Contains(d, c) {
      assert Contains(d, ks[2]);
    } else if Contains(d, e) {
      assert Contains(d, ks[3]);
    }
  }

  /** The if-chain of the code is the table read first-match-wins. */
  lemma {:induction false} ClassifyByRules(desc: string)
    ensures ClassifyText(desc) == FirstRule(LowerAll(desc), 0)
  {
    var d := LowerAll(desc);
    assert FirstRule(d, 6) == (if Contains(d, "cavalo") || Contains(d, "carreta") then Carreta else Outro) by {
      AnyIn2(d, "cavalo", "carreta");
    }
    assert FirstRule(d, 5) == (if Contains(d, "truck") then Truck else FirstRule(d, 6)) by {
      AnyIn1(d, "truck");
    }
    assert FirstRule(d, 4) == (if Contains(d, "toco") then Toco else FirstRule(d, 5)) by {
      AnyIn1(d, "toco");
    }
    assert FirstRule(d, 3) == (if Contains(d, "3/4") || Contains(d, "3-4") then TresQuartos else FirstRule(d, 4)) by {
      AnyIn2(d, "3/4", "3-4");
    }
    assert FirstRule(d, 2) == (if Contains(d, "iveco") || Contains(d, "daily") || Contains(d, "dayli") || Contains(d, "scudo")
                               then UtilIvecoScudo else FirstRule(d, 3)) by {
      AnyIn4(d, "iveco", "daily", "dayli", "scudo");
    }
    assert FirstRule(d, 1) == (if Contains(d, "renault") then UtilRenault else FirstRule(d, 2)) by {
      AnyIn1(d, "renault");
    }
    assert FirstRule(d, 0) == (if Contains(d, "saveiro") then Leve else FirstRule(d, 1)) by {
      AnyIn1(d, "saveiro");
    }
  }

  /** The description falls in class `Rules[k]` exactly when one of that
      rule's keywords occurs in it (ignoring case) and no keyword of an
      earlier rule does. */
  lemma {:induction false} ClassifyPriority(desc: string, k: nat)
    requires k < |Rules|
    ensures ClassifyText(desc) == Rules[k].1 <==>
              AnyIn(LowerAll(desc), Rules[k].0) && forall j :: 0 <= j < k ==> !AnyIn(LowerAll(desc), Rules[j].0)
  {
    ClassifyByRules(desc);
    FirstRuleAt(LowerAll(desc), 0, k);
  }

  /** The description is "Outro" exactly when no keyword occurs in it. */
  lemma {:induction false} ClassifyOther(desc: string)
    ensures ClassifyText(desc) == Outro <==> forall j :: 0 <= j < |Rules| ==> !AnyIn(LowerAll(desc), Rules[j].0)
  {
    ClassifyByRules(desc);
    FirstRuleNone(LowerAll(desc), 0);
  }

  /** Classification ignores letter case. */
  lemma {:induction false} ClassifyCaseBlind(desc: string)
    ensures ClassifyText(UpperAll(desc)) == ClassifyText(desc)
  {
    forall i | 0 <= i < |desc| ensures Lower(Upper(desc[i])) == Lower(desc[i]) {
      LowerUpper(desc[i]);
    }
    assert LowerAll(UpperAll(desc)) == LowerAll(desc);
  }
}

=== FILE: transform.dfy ===
/** The transformation of the three loaded sheets (tires, positions, baseline
    tread) into the enriched tire table: header renames, numeric conversion,
    the km-driven derivation, the position join, the join keys, the baseline
    cascade and the vehicle type. */
module Transform {
  import opened Common
  import opened Numbers
  import opened TextKeys
  import opened Frames
  import opened Cascade
  import opened Stats

  /** Header renames applied to all three sheets. */
  const Renames: map<string, string> := map[
    "Modelo" := "Modelo (Atual)", "SULCO" := "Sulco",
    "Sigla" := "Sigla da Posição", "SIGLA" := "Sigla da Posição",
    "POSIÇÃO" := "Posição"]

  const Afericao: string := "Aferição - Sulco"
  const SulcoCol: string := "Sulco"
  const Hodometro: string := "Hodômetro Inicial"
  const KmVida: string := "Vida do Pneu - Km. Rodado"
  const Observacao: string := "Observação"
  const ObsKm: string := "Observação - Km"
  const KmRodado: string := "Km Rodado até Aferição"
  const Sigla: string := "Sigla da Posição"
  const Vida: string := "Vida"
  const ModeloAtual: string := "Modelo (Atual)"
  const VidaKey: string := "_VIDA"
  const ModeloKey: string := "_MODELO"
  const SulcoInicial: string := "Sulco Inicial"
  const Descricao: string := "Veículo - Descrição"
  const TipoVeiculo: string := "Tipo Veículo"

  /** The number in a cell; missing values and text read as missing. */
  function NumOf(c: Cell): Option<real>
  {
    match c
    case Num(x, _) => Some(x)
    case _ => None
  }

  /** A computed number as a cell. Its printed form is never read again by
      the pipeline, so it is left empty. */
  function FloatCell(v: Option<real>): (c: Cell)
    ensures NumOf(c) == v && !c.Text?
  {
    match v
    case None => Empty
    case Some(x) => Num(x, "")
  }

  /** A column holds numbers or missing values only. */
  predicate NumericColumn(s: Sheet, name: string)
    requires WellFormed(s) && Has(s, name)
  {
    forall i :: 0 <= i < |s.rows| ==> !Column(s, name)[i].Text?
  }

  /** `apply(to_float)` on a column, when the column exists. */
  function ConvertColumn(s: Sheet, name: string): (r: Sheet)
    requires WellFormed(s)
    ensures WellFormed(r) && |r.rows| == |s.rows|
    ensures forall n :: Has(r, n) <==> Has(s, n)
  {
    if Has(s, name) then MapColumn(s, name, (c: Cell) => FloatCell(ToFloat(c))) else s
  }

  /** A converted column holds the conversion of every original cell. */
  lemma {:induction false} ConvertSpec(s: Sheet, name: string)
    requires WellFormed(s) && Has(s, name)
    ensures Has(ConvertColumn(s, name), name)
    ensures forall i :: 0 <= i < |s.rows| ==>
              NumOf(Column(ConvertColumn(s, name), name)[i]) == ToFloat(Column(s, name)[i])
    ensures NumericColumn(ConvertColumn(s, name), name)
    ensures forall n :: Has(s, n) && n != name ==> Column(ConvertColumn(s, name), n) == Column(s, n)
  {
    var col := Column(s, name);
    SetColumnSpec(s, name, seq(|col|, i requires 0 <= i < |col| => FloatCell(ToFloat(col[i]))));
  }

  function Diff(a: Option<real>, b: Option<real>): Option<real>
  {
    if a.Some? && b.Some? then Some(a.value - b.value) else None
  }

  /** Km driven until the measurement, for one tire: the recorded value when
      present and positive; otherwise, when there is an odometer column,
      observation km minus initial odometer; a result that is not positive
      becomes missing. `hod` is None when the odometer column is absent. */
  function DeriveKm(vida: Option<real>, obs: Option<real>, hod: Option<Option<real>>): (r: Option<real>)
    ensures r.None? || r.value > 0.0
    ensures vida.Some? && vida.value > 0.0 ==> r == vida
    ensures (vida.None? || vida.value <= 0.0) && hod.None? ==> r.None?
    ensures (vida.None? || vida.value <= 0.0) && hod.Some? ==>
              (r.Some? <==> obs.Some? && hod.value.Some? && obs.value > hod.value.value)
    ensures (vida.None? || vida.value <= 0.0) && r.Some? ==> r.value == obs.value - hod.value.value
  {
    var w := if (vida.None? || vida.value <= 0.0) && hod.Some? then Diff(obs, hod.value) else vida;
    if w.Some? && w.value <= 0.0 then None else w
  }

  /** The km reading of row `i`'s observation; missing when the sheet has no
      observation column. */
  function ObsAt(s: Sheet, i: nat): Option<real>
    requires WellFormed(s) && i < |s.rows|
  {
    if Has(s, Observacao) then ExtractKm(Column(s, Observacao)[i]) else None
  }

  /** The "Observação - Km" column: the km reading found in each observation,
      or missing everywhere when there is no observation column. */
  function ObservationKm(s: Sheet): (r: seq<Cell>)
    requires WellFormed(s)
    ensures |r| == |s.rows|
    ensures forall i :: 0 <= i < |r| ==> NumOf(r[i]) == ObsAt(s, i) && !r[i].Text?
  {
    if Has(s, Observacao) then
      var col := Column(s, Observacao);
      seq(|col|, i requires 0 <= i < |col| => FloatCell(ExtractKm(col[i])))
    else Constant(s, Empty)
  }

  /** The "Km Rodado até Aferição" column. */
  function KmColumn(s: Sheet): (r: seq<Cell>)
    requires WellFormed(s) && Has(s, KmVida) && Has(s, ObsKm)
    ensures |r| == |s.rows|
  {
    var vida := Column(s, KmVida);
    var obs := Column(s, ObsKm);
    seq(|s.rows|, i requires 0 <= i < |s.rows| =>
          FloatCell(DeriveKm(NumOf(vida[i]), NumOf(obs[i]),
                             if Has(s, Hodometro) then Some(NumOf(Column(s, Hodometro)[i])) else None)))
  }

  /** The tire sheet with the measured tread, the initial odometer and the
      lifetime km read as numbers; a missing lifetime-km column is added empty. */
  function Converted(p: Sheet): (r: Sheet)
    requires WellFormed(p)
    ensures WellFormed(r) && |r.rows| == |p.rows|
    ensures forall n :: Has(r, n) <==> Has(p, n) || n == KmVida
  {
    var p1 := ConvertColumn(p, Afericao);
    var p2 := ConvertColumn(p1, Hodometro);
    if Has(p2, KmVida) then ConvertColumn(p2, KmVida) else SetColumn(p2, KmVida, Constant(p2, Empty))
  }

  /** Row `i` of a column read as a number; missing when the column is absent. */
  function NumAt(p: Sheet, name: string, i: nat): Option<real>
    requires WellFormed(p) && i < |p.rows|
  {
    if Has(p, name) then ToFloat(Column(p, name)[i]) else None
  }

  /** Row `i`'s initial odometer, or None when the sheet has no odometer column. */
  function HodAt(p: Sheet, i: nat): Option<Option<real>>
    requires WellFormed(p) && i < |p.rows|
  {
    if Has(p, Hodometro) then Some(ToFloat(Column(p, Hodometro)[i])) else None
  }

  /** The converted columns hold the conversions of the original cells; all
      other columns are as they were. */
  lemma {:induction false} ConvertedSpec(p: Sheet)
    requires WellFormed(p)
    ensures Has(Converted(p), KmVida)
    ensures forall i :: 0 <= i < |p.rows| ==> NumOf(Column(Converted(p), KmVida)[i]) == NumAt(p, KmVida, i)
    ensures Has(p, Afericao) ==>
              forall i :: 0 <= i < |p.rows| ==> NumOf(Column(Converted(p), Afericao)[i]) == NumAt(p, Afericao, i)
    ensures Has(p, Hodometro) ==>
              forall i :: 0 <= i < |p.rows| ==> NumOf(Column(Converted(p), Hodometro)[i]) == NumAt(p, Hodometro, i)
    ensures forall n :: Has(p, n) && n != Afericao && n != Hodometro && n != KmVida ==>
              Column(Converted(p), n) == Column(p, n)
  {
    var p1 := ConvertColumn(p, Afericao);
    var p2 := ConvertColumn(p1, Hodometro);
    if Has(p, Afericao) { ConvertSpec(p, Afericao); }
    if Has(p1, Hodometro) { ConvertSpec(p1, Hodometro); }
    if Has(p2, KmVida) {
      ConvertSpec(p2, KmVida);
    } else {
      SetColumnSpec(p2, KmVida, Constant(p2, Empty));
    }
  }

  /** Numeric clean-up of the tire sheet and the km derivation. */
  function PrepareTires(p: Sheet): (r: Sheet)
    requires WellFormed(p)
    ensures WellFormed(r) && |r.rows| == |p.rows|
    ensures forall n :: Has(r, n) <==> Has(p, n) || n in {KmVida, ObsKm, KmRodado}
  {
    var p3 := Converted(p);
    var p4 := SetColumn(p3, ObsKm, ObservationKm(p3));
    SetColumn(p4, KmRodado, KmColumn(p4))
  }

  /** Row by row, the prepared sheet holds the observation km read from the
      original observation, and the km driven derived from the original
      lifetime km, that observation km and the original odometer; the tread
      measurement is converted and every other column is unchanged. */
  lemma {:induction false} PrepareTiresSpec(p: Sheet)
    requires WellFormed(p)
    ensures Has(PrepareTires(p), ObsKm) && Has(PrepareTires(p), KmRodado)
    ensures forall i :: 0 <= i < |p.rows| ==> NumOf(Column(PrepareTires(p), ObsKm)[i]) == ObsAt(p, i)
    ensures forall i :: 0 <= i < |p.rows| ==>
              NumOf(Column(PrepareTires(p), KmRodado)[i]) == DeriveKm(NumAt(p, KmVida, i), ObsAt(p, i), HodAt(p, i))
    ensures Has(p, Afericao) ==>
              forall i :: 0 <= i < |p.rows| ==> NumOf(Column(PrepareTires(p), Afericao)[i]) == NumAt(p, Afericao, i)
    ensures forall n :: Has(p, n) && n !in {Afericao, Hodometro, KmVida, ObsKm, KmRodado} ==>
              Column(PrepareTires(p), n) == Column(p, n)
  {
    var p3 := Converted(p);
    ConvertedSpec(p);
    var obs := ObservationKm(p3);
    var p4 := SetColumn(p3, ObsKm, obs);
    SetColumnSpec(p3, ObsKm, obs);
    var km := KmColumn(p4);
    SetColumnSpec(p4, KmRodado, km);
    assert PrepareTires(p) == SetColumn(p4, KmRodado, km);
    assert Has(p3, Observacao) <==> Has(p, Observacao);
    assert Has(p4, Hodometro) <==> Has(p, Hodometro);
    forall i | 0 <= i < |p.rows| ensures ObsAt(p3, i) == ObsAt(p, i) {
      if Has(p, Observacao) {
        assert Column(p3, Observacao) == Column(p, Observacao);
      }
    }
    forall i | 0 <= i < |p.rows|
      ensures NumOf(km[i]) == DeriveKm(NumAt(p, KmVida, i), ObsAt(p, i), HodAt(p, i))
    {
      assert NumOf(Column(p4, KmVida)[i]) == NumAt(p, KmVida, i);
      assert NumOf(Column(p4, ObsKm)[i]) == ObsAt(p, i);
      if Has(p, Hodometro) {
        assert NumOf(Column(p4, Hodometro)[i]) == NumAt(p, Hodometro, i);
      }
    }
  }

  /** After the clean-up every km value is missing or strictly positive. */
  lemma {:induction false} PrepareTiresKm(p: Sheet)
    requires WellFormed(p)
    ensures Has(PrepareTires(p), KmRodado)
    ensures NumericColumn(PrepareTires(p), KmRodado)
    ensures forall i :: 0 <= i < |p.rows| ==>
              var k := NumOf(Column(PrepareTires(p), KmRodado)[i]); k.None? || k.value > 0.0
  {
    var p3 := Converted(p);
    var p4 := SetColumn(p3, ObsKm, ObservationKm(p3));
    var col := KmColumn(p4);
    SetColumnSpec(p4, KmRodado, col);
    assert PrepareTires(p) == SetColumn(p4, KmRodado, col);
  }

  /** The position join, done only when both sheets carry the position code. */
  function JoinPositions(p: Sheet, q: Sheet): (r: Sheet)
    requires WellFormed(p) && WellFormed(q)
    ensures WellFormed(r) && |r.rows| >= |p.rows| && |r.columns| >= |p.columns|
  {
    if Has(p, Sigla) && Has(q, Sigla) then LeftMerge(p, q, Sigla) else p
  }

  /** The join keeps the tire rows: every tire row begins some joined row, and
      every joined row begins with a tire row. */
  lemma {:induction false} JoinPositionsKeeps(p: Sheet, q: Sheet)
    requires WellFormed(p) && WellFormed(q)
    ensures forall i :: 0 <= i < |p.rows| ==> SomeBegins(JoinPositions(p, q).rows, p.rows[i])
    ensures forall j :: 0 <= j < |JoinPositions(p, q).rows| ==> BeginsWithSome(JoinPositions(p, q).rows[j], p.rows)
  {
    if Has(p, Sigla) && Has(q, Sigla) {
      LeftMergeKeeps(p, q, Sigla);
    } else {
      assert JoinPositions(p, q) == p;
      forall i | 0 <= i < |p.rows| ensures SomeBegins(p.rows, p.rows[i]) && BeginsWithSome(p.rows[i], p.rows) {
        assert p.rows[i][..|p.rows[i]|] == p.rows[i];
      }
    }
  }

  /** The normalised text of every cell of a column, as text cells. */
  function NormalizedColumn(s: Sheet, name: string): (r: seq<Cell>)
    requires WellFormed(s) && Has(s, name)
    ensures |r| == |s.rows|
  {
    var col := Column(s, name);
    seq(|col|, i requires 0 <= i < |col| => Text(NormalizeText(col[i])))
  }

  /** The join keys _VIDA and _MODELO, written when their source column exists. */
  function AddKeys(s: Sheet): (r: Sheet)
    requires WellFormed(s)
    ensures WellFormed(r) && |r.rows| == |s.rows|
  {
    var s1 := if Has(s, Vida) then SetColumn(s, VidaKey, NormalizedColumn(s, Vida)) else s;
    if Has(s1, ModeloAtual) then SetColumn(s1, ModeloKey, NormalizedColumn(s1, ModeloAtual)) else s1
  }

  /** The baseline sheet as cascade rows: normalised keys and converted tread. */
  function Baselines(s: Sheet): (r: seq<Baseline>)
    requires WellFormed(s) && Has(s, Vida) && Has(s, ModeloAtual) && Has(s, SulcoCol)
    ensures |r| == |s.rows|
  {
    var v := Column(s, Vida);
    var m := Column(s, ModeloAtual);
    var x := Column(s, SulcoCol);
    seq(|s.rows|, i requires 0 <= i < |s.rows| =>
          Baseline(NormalizeText(v[i]), NormalizeText(m[i]), NumOf(x[i])))
  }

  /** The "Sulco Inicial" column: every tire resolved through the cascade. */
  function BaselineColumn(p: Sheet, base: seq<Baseline>): (r: seq<Cell>)
    requires WellFormed(p) && Has(p, Vida) && Has(p, ModeloAtual)
    ensures |r| == |p.rows|
  {
    var v := Column(p, Vida);
    var m := Column(p, ModeloAtual);
    seq(|p.rows|, i requires 0 <= i < |p.rows| =>
          FloatCell(Resolve(base, NormalizeText(v[i]), NormalizeText(m[i]))))
  }

  /** The "Tipo Veículo" column: the label of each description, or "Outro"
      everywhere when there is no description column. */
  function TypeColumn(s: Sheet): (r: seq<Cell>)
    requires WellFormed(s)
    ensures |r| == |s.rows|
  {
    if Has(s, Descricao) then
      var col := Column(s, Descricao);
      seq(|col|, i requires 0 <= i < |col| => Text(Label(Classify(col[i]))))
    else Constant(s, Text(Label(Outro)))
  }

  /** The keys written by AddKeys hold the normalised stage and model, and
      every other column is unchanged. */
  lemma {:induction false} AddKeysSpec(s: Sheet)
    requires WellFormed(s)
    ensures forall n :: Has(AddKeys(s), n) <==>
              Has(s, n) || (n == VidaKey && Has(s, Vida)) || (n == ModeloKey && Has(s, ModeloAtual))
    ensures Has(s, Vida) ==> Column(AddKeys(s), VidaKey) == NormalizedColumn(s, Vida)
    ensures Has(s, ModeloAtual) ==> Column(AddKeys(s), ModeloKey) == NormalizedColumn(s, ModeloAtual)
    ensures forall n :: Has(s, n) && n != VidaKey && n != ModeloKey ==> Column(AddKeys(s), n) == Column(s, n)
  {
    var s1 := if Has(s, Vida) then SetColumn(s, VidaKey, NormalizedColumn(s, Vida)) else s;
    if Has(s, Vida) {
      SetColumnSpec(s, VidaKey, NormalizedColumn(s, Vida));
    }
    if Has(s1, ModeloAtual) {
      SetColumnSpec(s1, ModeloKey, NormalizedColumn(s1, ModeloAtual));
      assert Column(s1, ModeloAtual) == Column(s, ModeloAtual);
    }
  }

  /** Stage, model and tread on the baseline sheet; stage and model on the
      tire sheet. */
  predicate Keyed(p: Sheet, s: Sheet)
  {
    WellFormed(p) && WellFormed(s) && Has(s, Vida) && Has(s, ModeloAtual) && Has(s, SulcoCol)
    && Has(p, Vida) && Has(p, ModeloAtual)
  }

  /** The join keys, the resolved baseline tread and the vehicle type added
      to the joined tire sheet. */
  function Enrich(p: Sheet, s: Sheet): (r: Sheet)
    requires Keyed(p, s)
    ensures WellFormed(r) && |r.rows| == |p.rows|
  {
    var p1 := Stage1(p, s);
    SetColumn(p1, TipoVeiculo, TypeColumn(p1))
  }

  /** The tread every enriched tire gets: the cascade applied to its own
      normalised stage and model. */
  function Resolved(p: Sheet, s: Sheet, i: int): Option<real>
    requires Keyed(p, s) && 0 <= i < |p.rows|
  {
    Resolve(Baselines(s), NormalizeText(Column(p, Vida)[i]), NormalizeText(Column(p, ModeloAtual)[i]))
  }

  /** The tire sheet with its keys and resolved tread, before the type. */
  function Stage1(p: Sheet, s: Sheet): (r: Sheet)
    requires Keyed(p, s)
    ensures WellFormed(r) && |r.rows| == |p.rows|
  {
    SetColumn(AddKeys(p), SulcoInicial, BaselineColumn(p, Baselines(s)))
  }

  /** The first stage holds the resolved tread and keeps the original columns. */
  lemma {:induction false} Stage1Spec(p: Sheet, s: Sheet)
    requires Keyed(p, s)
    ensures Has(Stage1(p, s), SulcoInicial)
    ensures Column(Stage1(p, s), SulcoInicial) == BaselineColumn(p, Baselines(s))
    ensures forall n :: Has(p, n) && n !in {VidaKey, ModeloKey, SulcoInicial} ==>
              Has(Stage1(p, s), n) && Column(Stage1(p, s), n) == Column(p, n)
  {
    AddKeysSpec(p);
    SetColumnSpec(AddKeys(p), SulcoInicial, BaselineColumn(p, Baselines(s)));
  }

  /** Every enriched tire carries the tread the cascade resolves for it. */
  lemma {:induction false} EnrichTread(p: Sheet, s: Sheet)
    requires Keyed(p, s)
    ensures Has(Enrich(p, s), SulcoInicial)
    ensures forall i :: 0 <= i < |p.rows| ==> NumOf(Column(Enrich(p, s), SulcoInicial)[i]) == Resolved(p, s, i)
    ensures NumericColumn(Enrich(p, s), SulcoInicial)
  {
    var p1 := Stage1(p, s);
    Stage1Spec(p, s);
    SetColumnSpec(p1, TipoVeiculo, TypeColumn(p1));
    assert Column(Enrich(p, s), SulcoInicial) == BaselineColumn(p, Baselines(s));
  }

  /** Every enriched tire carries the type of its vehicle description. */
  lemma {:induction false} EnrichType(p: Sheet, s: Sheet)
    requires Keyed(p, s)
    ensures Has(Enrich(p, s), TipoVeiculo)
    ensures forall i :: 0 <= i < |p.rows| ==>
              Column(Enrich(p, s), TipoVeiculo)[i]
              == Text(Label(if Has(p, Descricao) then Classify(Column(p, Descricao)[i]) else Outro))
  {
    var p1 := Stage1(p, s);
    Stage1Spec(p, s);
    SetColumnSpec(p1, TipoVeiculo, TypeColumn(p1));
    assert Has(p1, Descricao) <==> Has(p, Descricao);
  }

  /** The enrichment changes no column of the tire sheet except the four it writes. */
  lemma {:induction false} EnrichKeeps(p: Sheet, s: Sheet)
    requires Keyed(p, s)
    ensures forall n :: Has(p, n) && n !in {VidaKey, ModeloKey, SulcoInicial, TipoVeiculo} ==>
              Has(Enrich(p, s), n) && Column(Enrich(p, s), n) == Column(p, n)
  {
    var p1 := Stage1(p, s);
    Stage1Spec(p, s);
    SetColumnSpec(p1, TipoVeiculo, TypeColumn(p1));
  }

  /** Every enriched tire has a baseline tread exactly when the baseline
      sheet has at least one usable tread value. */
  lemma {:induction false} EnrichDefined(p: Sheet, s: Sheet)
    requires Keyed(p, s)
    ensures forall i :: 0 <= i < |p.rows| ==>
              (Resolved(p, s, i).Some? <==> Samples(Baselines(s)) != [])
  {
    forall i | 0 <= i < |p.rows|
      ensures Resolved(p, s, i).Some? <==> Samples(Baselines(s)) != []
    {
      ResolveDefined(Baselines(s), NormalizeText(Column(p, Vida)[i]), NormalizeText(Column(p, ModeloAtual)[i]));
    }
  }

  /** Every resolved tread lies between the smallest and the largest
      baseline tread. */
  lemma {:induction false} EnrichBounds(p: Sheet, s: Sheet)
    requires Keyed(p, s) && Samples(Baselines(s)) != []
    ensures forall i :: 0 <= i < |p.rows| ==>
              InRange(Resolved(p, s, i), Min(Samples(Baselines(s))), Max(Samples(Baselines(s))))
  {
    forall i | 0 <= i < |p.rows|
      ensures InRange(Resolved(p, s, i), Min(Samples(Baselines(s))), Max(Samples(Baselines(s))))
    {
      ResolveBounds(Baselines(s), NormalizeText(Column(p, Vida)[i]), NormalizeText(Column(p, ModeloAtual)[i]));
    }
  }

  /** The output: the enriched tire table and the renamed position and
      baseline sheets. */
  datatype Tables = Tables(pneus: Sheet, posicao: Sheet, sulco: Sheet)

  predicate HasSheets(book: map<string, Sheet>)
  {
    "pneus" in book && "posição" in book && "sulco" in book
  }

  predicate WellFormedBook(book: map<string, Sheet>)
  {
    forall k :: k in book ==> WellFormed(book[k])
  }

  /** The baseline sheet after renaming and conversion. */
  function SulcoSheet(book: map<string, Sheet>): (r: Sheet)
    requires WellFormedBook(book) && HasSheets(book)
    ensures WellFormed(r)
  {
    ConvertColumn(RenameColumns(book["sulco"], Renames), SulcoCol)
  }

  function PositionSheet(book: map<string, Sheet>): (r: Sheet)
    requires WellFormedBook(book) && HasSheets(book)
    ensures WellFormed(r)
  {
    RenameColumns(book["posição"], Renames)
  }

  /** The tire sheet after renaming and clean-up, before the position join. */
  function Prepared(book: map<string, Sheet>): (r: Sheet)
    requires WellFormedBook(book) && HasSheets(book)
    ensures WellFormed(r) && |r.rows| == |book["pneus"].rows|
  {
    RenameSpec(book["pneus"], Renames, "");
    PrepareTires(RenameColumns(book["pneus"], Renames))
  }

  /** The tire sheet after the position join. */
  function Tires(book: map<string, Sheet>): (r: Sheet)
    requires WellFormedBook(book) && HasSheets(book)
    ensures WellFormed(r) && |r.rows| >= |book["pneus"].rows|
  {
    JoinPositions(Prepared(book), PositionSheet(book))
  }

  /** What the cascade needs, and no "Sulco Inicial" on the joined tire sheet
      already (the baseline join would suffix both and the column would be
      missing). */
  predicate Ready(book: map<string, Sheet>)
    requires WellFormedBook(book) && HasSheets(book)
  {
    Keyed(Tires(book), SulcoSheet(book)) && !Has(Tires(book), SulcoInicial)
  }

  /** The whole transformation. Missing sheets are reported before missing
      columns, and the baseline sheet's columns before the tire sheet's. */
  function TransformSheets(book: map<string, Sheet>): (r: Result<Tables, Error>)
    requires WellFormedBook(book)
    ensures r.Ok? <==> HasSheets(book) && Ready(book)
    ensures !HasSheets(book) ==> r.Err? && r.error.MissingSheet?
    ensures HasSheets(book) && r.Err? ==> r.error.MissingColumn?
    ensures r.Ok? ==> WellFormed(r.value.pneus) && |r.value.pneus.rows| == |Tires(book).rows|
  {
    if "pneus" !in book then Err(MissingSheet("pneus"))
    else if "posição" !in book then Err(MissingSheet("posição"))
    else if "sulco" !in book then Err(MissingSheet("sulco"))
    else
      var s := SulcoSheet(book);
      var p := Tires(book);
      if !Has(s, Vida) then Err(MissingColumn(VidaKey))
      else if !Has(s, ModeloAtual) then Err(MissingColumn(ModeloKey))
      else if !Has(s, SulcoCol) then Err(MissingColumn(SulcoCol))
      else if !Has(p, Vida) then Err(MissingColumn(VidaKey))
      else if !Has(p, ModeloAtual) then Err(MissingColumn(ModeloKey))
      else if Has(p, SulcoInicial) then Err(MissingColumn(SulcoInicial))
      else Ok(Tables(Enrich(p, s), PositionSheet(book), AddKeys(s)))
  }

  /** The row count: never fewer tires than loaded, and exactly as many when
      there is no position join or position codes are unique. */
  lemma {:induction false} TransformRows(book: map<string, Sheet>)
    requires WellFormedBook(book)
    ensures TransformSheets(book).Ok? ==> |TransformSheets(book).value.pneus.rows| >= |book["pneus"].rows|
    ensures TransformSheets(book).Ok? ==>
              (var p := Prepared(book); var q := PositionSheet(book);
               !(Has(p, Sigla) && Has(q, Sigla)) || UniqueKeys(q.rows, ColIndex(q.columns, Sigla).value))
              ==> |TransformSheets(book).value.pneus.rows| == |book["pneus"].rows|
  {
    if TransformSheets(book).Ok? {
      var p := Prepared(book);
      var q := PositionSheet(book);
      if Has(p, Sigla) && Has(q, Sigla) && UniqueKeys(q.rows, ColIndex(q.columns, Sigla).value) {
        LeftMergeUnique(p, q, Sigla);
      }
    }
  }

  /** Every output tire carries the tread the cascade resolves for its stage
      and model; it is present for all tires exactly when the baseline sheet
      has a usable value (EnrichBounds places it within the baseline range). */
  lemma {:induction false} TransformBaseline(book: map<string, Sheet>)
    requires WellFormedBook(book)
    ensures TransformSheets(book).Ok? ==> Has(TransformSheets(book).value.pneus, SulcoInicial)
    ensures TransformSheets(book).Ok? ==>
              var p := Tires(book); var s := SulcoSheet(book);
              forall i :: 0 <= i < |p.rows| ==>
                NumOf(Column(TransformSheets(book).value.pneus, SulcoInicial)[i]) == Resolved(p, s, i)
                && (Resolved(p, s, i).Some? <==> Samples(Baselines(s)) != [])
  {
    if TransformSheets(book).Ok? {
      var p := Tires(book);
      var s := SulcoSheet(book);
      EnrichTread(p, s);
      EnrichDefined(p, s);
    }
  }
}

=== FILE: visuals.dfy ===
/** The data the charts are drawn from: the condition bar counts and the
    worst-condition point of every wheel position. */
module Visuals {
  import opened Common
  import opened Config
  import opened Frames
  import opened Logic

  /** One bar of the condition chart. */
  datatype Bar = Bar(condicao: Condition, quantidade: nat)

  /** The fixed order of the bars. */
  const BarOrder: seq<Condition> := [Critico, Alerta, Normal]

  /** The three bars, worst condition first; an absent condition gets a
      zero bar rather than no bar. */
  function BarrasCondicao(c: Calc): (r: seq<Bar>)
    requires ValidCalc(c)
    ensures |r| == 3 && forall i :: 0 <= i < 3 ==> r[i].condicao == BarOrder[i]
    ensures r[0].quantidade + r[1].quantidade + r[2].quantidade <= |c.sheet.rows|
  {
    CountsBounded(c.metrics);
    seq(3, i requires 0 <= i < 3 => Bar(BarOrder[i], CountCond(c.metrics, BarOrder[i])))
  }

  /** The bars show the same counts as the indicators, and each is the
      multiplicity of its condition among the tires. */
  lemma {:induction false} BarsMatchKpis(c: Calc)
    requires ValidCalc(c)
    ensures BarrasCondicao(c)[0].quantidade == ComputeKpis(c).criticos
    ensures BarrasCondicao(c)[1].quantidade == ComputeKpis(c).alerta
    ensures BarrasCondicao(c)[2].quantidade == ComputeKpis(c).ok
    ensures forall i :: 0 <= i < 3 ==>
              BarrasCondicao(c)[i].quantidade == multiset(Conditions(c.metrics))[Some(BarOrder[i])]
  {
    forall i | 0 <= i < 3
      ensures BarrasCondicao(c)[i].quantidade == multiset(Conditions(c.metrics))[Some(BarOrder[i])]
    {
      CountCondMultiplicity(c.metrics, BarOrder[i]);
    }
  }

  /** The marker colour of a condition; neutral when there is none. */
  function ColorOf(c: Option<Condition>): (r: string)
    ensures r == ColorNeutro <==> c.None?
    ensures r == ColorCritico <==> c == Some(Critico)
  {
    match c
    case Some(Critico) => ColorCritico
    case Some(Alerta) => ColorAlerta
    case Some(Normal) => ColorOk
    case None => ColorNeutro
  }

  /** Distinct conditions get distinct colours. */
  lemma {:induction false} ColorsDistinct(a: Option<Condition>, b: Option<Condition>)
    requires a != b
    ensures ColorOf(a) != ColorOf(b)
  {
  }

  /** What the position map reads from one tire. */
  datatype Spot = Spot(sigla: Cell, x: Cell, y: Cell, condicao: Option<Condition>)

  /** One marker of the position map. */
  datatype Point = Point(sigla: Cell, x: Cell, y: Cell, cor: string, condicao: Option<Condition>)

  function KeyOfSpot(s: Spot): CellKey { KeyOf(s.sigla) }

  /** Position labels in order of first appearance, each once; missing
      labels count as one label, as in de-duplication. */
  function LabelKeys(spots: seq<Spot>): (r: seq<CellKey>)
    ensures forall i, j :: 0 <= i < j < |r| ==> r[i] != r[j]
  {
    if spots == [] then []
    else
      var prev := LabelKeys(spots[..|spots| - 1]);
      var k := KeyOfSpot(spots[|spots| - 1]);
      if k in prev then prev else prev + [k]
  }

  /** Tires of a position, as a predicate on their index. */
  predicate AtLabel(spots: seq<Spot>, k: CellKey, i: int)
  {
    0 <= i < |spots| && KeyOfSpot(spots[i]) == k
  }

  /** Dropping the last tire keeps the positions of the others. */
  lemma {:induction false} AtLabelPrefix(spots: seq<Spot>, pre: seq<Spot>, k: CellKey)
    requires spots != [] && pre == spots[..|spots| - 1]
    ensures forall i :: 0 <= i < |pre| ==> (AtLabel(pre, k, i) <==> AtLabel(spots, k, i))
    ensures (exists i :: AtLabel(spots, k, i)) <==>
              (exists i :: AtLabel(pre, k, i)) || KeyOfSpot(spots[|pre|]) == k
  {
    forall i | 0 <= i < |pre| ensures AtLabel(pre, k, i) <==> AtLabel(spots, k, i) {
      assert pre[i] == spots[i];
    }
    if exists i :: AtLabel(spots, k, i) {
      var i :| AtLabel(spots, k, i);
      if i < |pre| {
        assert AtLabel(pre, k, i);
      }
    }
    if exists i :: AtLabel(pre, k, i) {
      var i :| AtLabel(pre, k, i);
      assert AtLabel(spots, k, i);
    }
    if KeyOfSpot(spots[|pre|]) == k {
      assert AtLabel(spots, k, |pre|);
    }
  }

  /** Every label of the input appears among the keys, and nothing else does. */
  lemma {:induction false} LabelKeysSpec(spots: seq<Spot>, k: CellKey)
    ensures k in LabelKeys(spots) <==> exists i :: AtLabel(spots, k, i)
  {
    if spots != [] {
      var pre := spots[..|spots| - 1];
      LabelKeysSpec(pre, k);
      AtLabelPrefix(spots, pre, k);
    }
  }

  /** The tire of a position whose condition is the worst there, the
      earliest one among equals. */
  function Worst(spots: seq<Spot>, k: CellKey): (r: Option<Spot>)
    ensures r.Some? <==> exists i :: AtLabel(spots, k, i)
    ensures r.Some? ==> r.value in spots && KeyOfSpot(r.value) == k
    ensures r.Some? ==> forall i :: AtLabel(spots, k, i) ==> Rank(r.value.condicao) <= Rank(spots[i].condicao)
  {
    if spots == [] then None
    else
      var pre := spots[..|spots| - 1];
      var prev := Worst(pre, k);
      var s := spots[|pre|];
      AtLabelPrefix(spots, pre, k);
      if KeyOfSpot(s) == k && (prev.None? || Rank(s.condicao) < Rank(prev.value.condicao)) then Some(s)
      else prev
  }

  function MakePoint(s: Spot): (p: Point)
    ensures p.cor == ColorOf(p.condicao)
  {
    Point(s.sigla, s.x, s.y, ColorOf(s.condicao), s.condicao)
  }

  /** One point per position label, from a tire with the worst condition there. */
  function Points(spots: seq<Spot>): (r: seq<Point>)
    ensures |r| == |LabelKeys(spots)|
    ensures forall j :: 0 <= j < |r| ==> KeyOf(r[j].sigla) == LabelKeys(spots)[j]
  {
    var ks := LabelKeys(spots);
    seq(|ks|, i requires 0 <= i < |ks| => LabelKeysSpec(spots, ks[i]); WorstPoint(spots, ks[i]))
  }

  /** The point of one position: from one of its tires, with a condition no
      better than that of any tire there. */
  function WorstPoint(spots: seq<Spot>, k: CellKey): (p: Point)
    requires exists i :: AtLabel(spots, k, i)
    ensures KeyOf(p.sigla) == k && p.cor == ColorOf(p.condicao)
    ensures exists i :: 0 <= i < |spots| && MakePoint(spots[i]) == p
    ensures forall i :: AtLabel(spots, k, i) ==> Rank(p.condicao) <= Rank(spots[i].condicao)
  {
    var w := Worst(spots, k).value;
    assert exists i :: 0 <= i < |spots| && MakePoint(spots[i]) == MakePoint(w) by {
      var i :| 0 <= i < |spots| && spots[i] == w;
    }
    MakePoint(w)
  }

  /** The position map: nothing when the coordinates or the label column
      are missing, else the worst-condition point of each position. */
  function HeatmapPosicao(c: Calc, xCol: string, yCol: string, labelCol: string): (r: seq<Point>)
    requires ValidCalc(c)
    ensures !(Has(c.sheet, xCol) && Has(c.sheet, yCol) && Has(c.sheet, labelCol)) ==> r == []
  {
    if Has(c.sheet, xCol) && Has(c.sheet, yCol) && Has(c.sheet, labelCol) then
      Points(Spots(c, xCol, yCol, labelCol))
    else []
  }

  function Spots(c: Calc, xCol: string, yCol: string, labelCol: string): (r: seq<Spot>)
    requires ValidCalc(c) && Has(c.sheet, xCol) && Has(c.sheet, yCol) && Has(c.sheet, labelCol)
    ensures |r| == |c.sheet.rows|
    ensures forall i :: 0 <= i < |r| ==>
              KeyOfSpot(r[i]) == KeyOf(Column(c.sheet, labelCol)[i]) && r[i].condicao == c.metrics[i].condicao
  {
    var xs := Column(c.sheet, xCol);
    var ys := Column(c.sheet, yCol);
    var ls := Column(c.sheet, labelCol);
    seq(|xs|, i requires 0 <= i < |xs| => Spot(ls[i], xs[i], ys[i], c.metrics[i].condicao))
  }

  /** Exactly one point per distinct label: no two points share a label, and
      every tire's label has a point. */
  lemma {:induction false} PointsOnePerLabel(spots: seq<Spot>)
    ensures forall i, j :: 0 <= i < j < |Points(spots)| ==>
              KeyOf(Points(spots)[i].sigla) != KeyOf(Points(spots)[j].sigla)
    ensures forall i :: 0 <= i < |spots| ==>
              exists j :: 0 <= j < |Points(spots)| && KeyOf(Points(spots)[j].sigla) == KeyOfSpot(spots[i])
  {
    var ks := LabelKeys(spots);
    var ps := Points(spots);
    forall i | 0 <= i < |spots|
      ensures exists j :: 0 <= j < |ps| && KeyOf(ps[j].sigla) == KeyOfSpot(spots[i])
    {
      LabelKeysSpec(spots, KeyOfSpot(spots[i]));
      assert AtLabel(spots, KeyOfSpot(spots[i]), i);
      var j :| 0 <= j < |ks| && ks[j] == KeyOfSpot(spots[i]);
      assert KeyOf(ps[j].sigla) == ks[j];
    }
  }

  /** Every point is drawn from a tire of its position whose condition is no
      better than that of any other tire there, coloured by that condition. */
  lemma {:induction false} PointsWorst(spots: seq<Spot>)
    ensures forall j :: 0 <= j < |Points(spots)| ==>
              exists i :: 0 <= i < |spots| && MakePoint(spots[i]) == Points(spots)[j]
    ensures forall j, i :: 0 <= j < |Points(spots)| && AtLabel(spots, KeyOf(Points(spots)[j].sigla), i) ==>
              Rank(Points(spots)[j].condicao) <= Rank(spots[i].condicao)
    ensures forall j :: 0 <= j < |Points(spots)| ==> Points(spots)[j].cor == ColorOf(Points(spots)[j].condicao)
  {
    var ks := LabelKeys(spots);
    forall j | 0 <= j < |Points(spots)|
      ensures exists i :: 0 <= i < |spots| && MakePoint(spots[i]) == Points(spots)[j]
    {
      LabelKeysSpec(spots, ks[j]);
      assert Points(spots)[j] == WorstPoint(spots, ks[j]);
    }
  }

  /** On the dashboard table: every position label of the label column gets
      exactly one point, whose condition is the worst among that position's
      tires. */
  lemma {:induction false} HeatmapWorst(c: Calc, xCol: string, yCol: string, labelCol: string)
    requires ValidCalc(c) && Has(c.sheet, xCol) && Has(c.sheet, yCol) && Has(c.sheet, labelCol)
    ensures forall i :: 0 <= i < |c.sheet.rows| ==>
              exists j :: 0 <= j < |HeatmapPosicao(c, xCol, yCol, labelCol)|
                && KeyOf(HeatmapPosicao(c, xCol, yCol, labelCol)[j].sigla) == KeyOf(Column(c.sheet, labelCol)[i])
    ensures forall i, j :: 0 <= i < j < |HeatmapPosicao(c, xCol, yCol, labelCol)| ==>
              KeyOf(HeatmapPosicao(c, xCol, yCol, labelCol)[i].sigla) != KeyOf(HeatmapPosicao(c, xCol, yCol, labelCol)[j].sigla)
    ensures forall j, i ::
              (0 <= j < |HeatmapPosicao(c, xCol, yCol, labelCol)| && 0 <= i < |c.sheet.rows|
               && KeyOf(Column(c.sheet, labelCol)[i]) == KeyOf(HeatmapPosicao(c, xCol, yCol, labelCol)[j].sigla)) ==>
              Rank(HeatmapPosicao(c, xCol, yCol, labelCol)[j].condicao) <= Rank(c.metrics[i].condicao)
  {
    var spots := Spots(c, xCol, yCol, labelCol);
    var r := Points(spots);
    assert HeatmapPosicao(c, xCol, yCol, labelCol) == r;
    PointsOnePerLabel(spots);
    PointsWorst(spots);
  }
}
